=== FILE: README.md ===
# Azure Container Apps cost calculator — a Dafny model of its engine

The calculator estimates what one or more Azure Container Apps cost. A user describes when
each app runs: a weekly schedule of 7 days by 24 hours, each cell holding an instance count.
The schedule is entered cell by cell, through presets, or through an ordered list of
*steps* ("on these days, from HH:MM to HH:MM, run n instances"). The user also picks a
CPU/memory tier and a region. The calculator then reports:

- weekly, monthly and yearly costs;
- the statistics of the schedule;
- a per-day breakdown and chart series;
- a CSV export.

This project models that engine as immutable datatypes and pure functions, and proves what
the engine promises about them:

| module | models |
|---|---|
| `Schedule` | `useCalculator.ts`: the dense grid, `initializeSchedule`, `updateSchedule`, the presets, the default steps, `applySteps` (steps painted in list order, ranges past midnight wrapping into the next day, the last covering step winning), `addStep` / `removeStep` / `updateStep`, and the sparse stored form of a schedule with missing cells read as 0 |
| `Stats` | the integer statistics of `calculateCosts`: active instance-hours, active slots, peak count, and the loop that tallies them |
| `Costs` | `calculateCosts` (weekly, then ×4.33 monthly, then ×12 yearly, plus averages and efficiency) and the free-tier variant `calculateAppCosts` |
| `Pricing` | `constants.ts`: `convertFromUSD`, `getDynamicPricing`, `getCurrencySymbolForRegion`, `VALID_COMBINATIONS`, `RESOURCE_PRESETS` |
| `Csv` | `utils.ts`: `generateCSVContent` and the row, quoting and file-name logic of `exportToCSV` |
| `MultiApp` | `useMultiApp.ts`: colours, initial state, add / remove / select / update apps, region and estimate name |
| `StepEditor` | `StepConfiguration.tsx`: ticking a day, setting a time, typing an instance count |
| `Breakdown` | `CostBreakdown.tsx`: the per-day breakdown and per-hour resource prices |
| `Charts` | `ChartVisualization.tsx`: the hour labels, the day / week / month series, `getMaxValue` |
| `Seqs`, `Text`, `Wrappers` | JavaScript's `filter`, `find`, `map`, `join`, `split`, `padStart`, `toString` and `undefined` |

Modelling conventions:

- Prices are `real`, so the arithmetic is exact, not IEEE doubles.
- The grid is `seq<seq<int>>`. A stored schedule is `map<int, map<int, int>>`.
- JavaScript's falsy fallbacks (`|| 0`, `|| 1`, `|| 1.0`, `|| '$'`, `name || default`) are
  written out case by case. A zero or an empty string falls back just as a missing value
  does.
- Where the code and the program's own evidence of intent disagree, the code is modelled as
  written, and the corrected behaviour is modelled beside it (see Findings):
  - For an unlisted region, `getDynamicPricing` (src/lib/constants.ts:79-86) warns that it
    is "using defaults". It then returns the euro prices of `PRICING` under the requested
    currency label. The calculator's own default for an unlisted region is a multiplier of
    1.0 (`|| 1.0` at src/hooks/useCalculator.ts:194).
  - The CSV's hours column counts active slots whatever their instance count
    (src/lib/utils.ts:91-99). The repository's CSV test names that column "Total Instance
    Hours" (tests/csv-export.test.ts:49) and comments its check as instance-hours
    (tests/csv-export.test.ts:84). That check's input is three slots of one instance each
    (tests/csv-export.test.ts:59), where slots and instance-hours are both 3, so it cannot
    tell the two readings apart. The same test file also disagrees with the code on the
    header text ("Total Instance Hours" against "Total Hours", src/lib/utils.ts:87-88) and
    on the rounding (`toFixed(2)` at tests/csv-export.test.ts:160-162 against `toFixed(4)`
    at src/lib/utils.ts:117-119), so it is weak evidence of intent.

## Model

| member | source | states |
|---|---|---|
| Schedule.EmptyGrid | src/hooks/useCalculator.ts:286-295 | a fresh schedule has all 7 days with 24 hours each, every cell 0 |
| Schedule.UpdateSchedule | src/hooks/useCalculator.ts:45-56 | the edited cell takes the new count and every other cell of the week keeps its value |
| Schedule.FillHours | src/hooks/useCalculator.ts:153-155 | the hour loop writes exactly hours lo..hi-1 of one day and nothing else |
| Schedule.FillBlock | src/hooks/useCalculator.ts:64-68 | the preset's nested loop writes exactly the rectangle of days and hours and leaves the rest |
| Schedule.BusinessHours | src/hooks/useCalculator.ts:62-69 | 'business' is 2 on weekdays 9:00-17:59 and 0 everywhere else |
| Schedule.ExtendedHours | src/hooks/useCalculator.ts:70-83 | 'extended' is 2 on weekdays 6:00-22:59, 1 all day at weekends, 0 otherwise |
| Schedule.AroundTheClockHours | src/hooks/useCalculator.ts:84-91 | '247' is 2 in all 168 cells |
| Schedule.SchedulePreset | src/hooks/useCalculator.ts:58-99 | each preset yields its pattern on a fresh grid; 'clear' leaves every cell 0 |
| Schedule.ApplyStepOnDay | src/hooks/useCalculator.ts:141-184 | one listed day writes exactly the cells `WritesFor` names: the same-day range, or the evening and the next day's morning for a range past midnight |
| Schedule.ApplyStepDays | src/hooks/useCalculator.ts:141 | applying a step for a list of days writes a cell iff it is written on behalf of one of those days |
| Schedule.ApplyStep | src/hooks/useCalculator.ts:135-185 | one step writes its count into exactly the cells it covers |
| Schedule.ApplyAll | src/hooks/useCalculator.ts:135-185 | the steps painted in list order yield a full grid; `ApplyAllUncovered` and `ApplyAllLast` say what each cell holds |
| Schedule.ApplyAllUncovered | src/hooks/useCalculator.ts:135-185 | a cell no step covers keeps its value through all steps |
| Schedule.ApplyAllLast | src/hooks/useCalculator.ts:135-185 | a cell ends with the count of the last step covering it (overwrite, never a sum) |
| Schedule.ApplySteps | src/hooks/useCalculator.ts:132-188 | the result is a full 7x24 grid; uncovered cells are 0 and every other cell holds the last covering step's count |
| Schedule.LastCoveringExists | src/hooks/useCalculator.ts:135-185 | every covered cell has a last covering step, so the two cases of `ApplySteps` are exhaustive |
| Schedule.GridExtensionality | src/hooks/useCalculator.ts:286-295 | two full grids with equal cells are equal |
| Schedule.NonWrappingStepCells | src/hooks/useCalculator.ts:174-183 | a same-day step writes hours start..end-1 of each listed day, plus the end hour iff the end minute is non-zero, and nothing else |
| Schedule.WrappingStepCells | src/hooks/useCalculator.ts:151-173 | a step past midnight writes start..23 of each listed day and 0..end-1 of the next day (Sunday to Monday), plus that end hour iff the end minute is non-zero |
| Schedule.WrappingCovers | src/hooks/useCalculator.ts:151-173 | which cells a wrapping step covers, stated per cell through the previous day |
| Schedule.NextDayInverse | src/hooks/useCalculator.ts:157 | `(d + 1) % 7` is `day` exactly when d is the day before `day` |
| Schedule.MidnightToMidnightWritesNothing | src/hooks/useCalculator.ts:174-183 | a 00:00-00:00 step is not a wrap and writes no cell |
| Schedule.LastWriterWinsExample | src/hooks/useCalculator.ts:135-185 | two overlapping Monday steps: the overlap holds the later count 5, not 2 or 7 |
| Schedule.PastMidnightExample | src/hooks/useCalculator.ts:151-173 | Monday 23:00-02:00 fills Monday 23 and Tuesday 0-1 but not Tuesday 2 |
| Schedule.DefaultSteps | src/hooks/useCalculator.ts:5-27 | the three default steps are valid steps |
| Schedule.DefaultStepsSchedule | src/hooks/useCalculator.ts:5-27 | the default steps give 2 on weekdays and 1 at weekends from 6:00 to 22:59 and 0 every night |
| Schedule.DefaultStepsDaytime | src/hooks/useCalculator.ts:5-19 | daytime cells take the weekday or weekend step's count |
| Schedule.DefaultStepsNight | src/hooks/useCalculator.ts:20-26 | the overnight step, listed last, sets every night cell to 0 |
| Schedule.NewStep | src/hooks/useCalculator.ts:102-108 | the new step is valid, carries the given id and has no days |
| Schedule.AddStep | src/hooks/useCalculator.ts:101-114 | exactly one step is appended (no days, 09:00-18:00, 1 instance) and the existing steps are unchanged |
| Schedule.AddStepKeepsSchedule | src/hooks/useCalculator.ts:101-114 | appending the new step leaves the applied schedule unchanged |
| Schedule.RemoveStep | src/hooks/useCalculator.ts:116-121 | only steps with other ids survive, all of them do, and validity is kept |
| Schedule.RemoveStepKeepsOrder | src/hooks/useCalculator.ts:119 | removal works piecewise on any split of the list, so survivors keep their order |
| Schedule.RemoveAbsentStep | src/hooks/useCalculator.ts:119 | removing an id nobody has leaves the list unchanged |
| Schedule.UpdateStep | src/hooks/useCalculator.ts:123-130 | same length; matching steps get the merge, all others are untouched |
| Schedule.MergeStep | src/hooks/useCalculator.ts:126-128 | the spread `{ ...step, ...updates }`: each field the update carries replaces the step's; `UpdateStep` and `UpdateStepIdempotent` state its use |
| Schedule.UpdateStepIdempotent | src/hooks/useCalculator.ts:123-130 | sending the same update twice equals sending it once |
| Schedule.Normalize | tests/free-tier.test.ts:19-26 | the stored schedule read as a full grid, every missing day or hour as 0 |
| Schedule.ToSparse | tests/free-tier.test.ts:19-26 | the stored form of a full grid has exactly the 7 days and 24 hours as keys |
| Schedule.NormalizeToSparse | tests/free-tier.test.ts:19-26 | storing a full grid and reading it back gives the same grid |
| Schedule.NormalizeEmpty | src/hooks/useMultiApp.ts:116 | a new app's empty schedule `{}` reads as the all-zero week |
| Stats.RowActiveCount | src/hooks/useCalculator.ts:223-225 | a day has no more active slots than hours |
| Stats.RowMax | src/hooks/useCalculator.ts:228-231 | a day's maximum is never negative |
| Stats.GridMax | src/hooks/useCalculator.ts:228-231 | the week's maximum is never negative |
| Stats.RowIdle | src/hooks/useCalculator.ts:200-209 | a day has zero instance-hours, and zero active slots, iff no count is positive |
| Stats.RowFull | src/hooks/useCalculator.ts:223-225 | every slot of a day is active iff every count is positive |
| Stats.RowMaxIsPeak | src/hooks/useCalculator.ts:228-231 | a day's maximum bounds every count and is attained unless it is 0 |
| Stats.GridIdle | src/hooks/useCalculator.ts:200-225 | the week has zero instance-hours, and zero active slots, iff no cell is positive |
| Stats.GridMaxIsPeak | src/hooks/useCalculator.ts:228-231 | `maxInstances` bounds every cell and is attained unless it is 0 |
| Stats.GridCountBound | src/hooks/useCalculator.ts:223-225 | active slots never exceed cells |
| Stats.UniformCellCount | src/hooks/useCalculator.ts:222 | rows of equal length n hold rows×n cells |
| Stats.GridCells | src/hooks/useCalculator.ts:222-225 | a full grid has 168 cells, so at most 168 active slots |
| Stats.TallyActiveHours | src/hooks/useCalculator.ts:197-209 | the day-major loop yields the positive-cell sum as instance-hours and 168 minus the active slots as zero hours |
| Stats.RowUpdate | src/hooks/useCalculator.ts:45-56 | changing one count of a day moves its totals by exactly that cell's change |
| Stats.GridUpdate | src/hooks/useCalculator.ts:45-56 | changing one cell moves the week's totals by exactly that cell's change |
| Stats.UpdateScheduleStats | src/hooks/useCalculator.ts:45-56 | the same, for `updateSchedule` on a full grid |
| Stats.RowMonotone | src/hooks/useCalculator.ts:200-231 | raising counts never lowers a day's sum, active count or maximum |
| Stats.GridMonotone | src/hooks/useCalculator.ts:200-231 | raising cells never lowers the week's instance-hours, active slots or peak |
| Stats.RowBounds | src/hooks/useCalculator.ts:200-231 | a day's active count ≤ its instance-hours ≤ active count × maximum |
| Stats.GridBounds | src/hooks/useCalculator.ts:200-231 | active slots ≤ instance-hours ≤ active slots × `maxInstances` |
| Stats.UniformRow | src/hooks/useCalculator.ts:200-225 | a row whose counts are all c > 0 has c × its length instance-hours and every slot active |
| Stats.UniformRows | src/hooks/useCalculator.ts:200-225 | 24-hour days all at c > 0 give days×24c instance-hours and days×24 active slots |
| Stats.UniformGridStats | src/hooks/useCalculator.ts:200-231 | a full week all at c > 0 has 168 active slots, 168c instance-hours and peak c |
| Stats.AroundTheClockStats | src/hooks/useCalculator.ts:84-91 | the '247' preset gives 168 active slots, 336 instance-hours and a peak of 2 |
| Stats.WholeWeekStepStats | src/hooks/useCalculator.ts:132-188 | an all-week 00:00-23:30 step with n > 0 fills every cell: 168 slots, 168n instance-hours, peak n |
| Costs.RegionMultiplier | src/hooks/useCalculator.ts:194 | the listed non-zero multiplier, otherwise 1.0; never 0 |
| Costs.HourlyPrice | src/hooks/useCalculator.ts:212-213 | amount × per-hour price × multiplier; `HourlyPriceNonNegative` and `ScaledPrice` state its properties |
| Costs.Summarize | src/hooks/useCalculator.ts:197-251 | the results carry the grid's instance-hours, slots and peak and the given prices, and they are projected and consistent |
| Costs.Results | src/hooks/useCalculator.ts:214-251 | assembling the record from the tallies keeps them and makes it projected and consistent |
| Costs.AverageOverSlots | src/hooks/useCalculator.ts:227 | the per-active-hour average is 0 without active slots and otherwise times the slots gives the total |
| Costs.Efficiency | src/hooks/useCalculator.ts:234 | efficiency is the active share in percent, between 0 and 100 |
| Costs.WeeklyCostIsProduct | src/hooks/useCalculator.ts:217 | the hour-by-hour cost equals instance-hours × hourly price |
| Costs.WeeklyCostAdditive | src/hooks/useCalculator.ts:217 | costs of instance-hours add up |
| Costs.WeeklyCostMonotone | src/hooks/useCalculator.ts:217 | more instance-hours at a non-negative price never cost less |
| Costs.WeeklyCostSplitsPrice | src/hooks/useCalculator.ts:214-217 | the cost at a sum of prices is the sum of the costs |
| Costs.WeeklyCost | src/hooks/useCalculator.ts:217 | the weekly cost summed hour by hour; `WeeklyCostIsProduct` shows it is instance-hours × the hourly price |
| Costs.CalculateCosts | src/hooks/useCalculator.ts:190-252 | statistics are the grid's tallies, the tier's vCPU with twice the memory, per-hour prices amount × price × region multiplier, and weekly / monthly / yearly are the 1 : 4.33 : 51.96 projection |
| Costs.CalculateCostsPeak | src/hooks/useCalculator.ts:228-231 | `maxInstances` bounds every cell and is attained unless 0 |
| Costs.IdleWeekCostsNothing | src/hooks/useCalculator.ts:200-234 | an idle week costs 0 in every period, has no active slot, 0 efficiency and a 0 average |
| Costs.HourlyPriceNonNegative | src/hooks/useCalculator.ts:212-213 | non-negative amount, price and multiplier give a non-negative hourly price |
| Costs.CostsMonotone | src/hooks/useCalculator.ts:190-252 | raising cells never lowers weekly, monthly or yearly cost at non-negative prices |
| Costs.WeekMonotone | src/hooks/useCalculator.ts:200-209 | cell-wise below means no more instance-hours |
| Costs.RateNonNegative | src/hooks/useCalculator.ts:212-214 | non-negative prices give a non-negative rate per instance-hour |
| Costs.ProjectionMonotone | src/hooks/useCalculator.ts:217-219 | at the same non-negative rate, fewer instance-hours never cost more in any period |
| Costs.UpdateCostDelta | src/hooks/useCalculator.ts:45-56 | editing one cell changes the weekly cost by the change in its active instances × the rate |
| Costs.UpdateInstanceHours | src/hooks/useCalculator.ts:45-56 | editing one cell keeps the rate and moves instance-hours by that cell's change |
| Costs.WeeklyShift | src/hooks/useCalculator.ts:217 | shifting instance-hours at a fixed rate shifts the weekly cost by their cost |
| Costs.MondayGrid | src/hooks/useCalculator.ts:286-295 | the example schedule is a full grid |
| Costs.MondayGridTallies | src/hooks/useCalculator.ts:200-225 | one instance all Monday is 24 instance-hours in 24 slots |
| Costs.MondayGridPeak | src/hooks/useCalculator.ts:228-231 | its peak is 1 |
| Costs.MondayAroundTheClockExample | src/hooks/useCalculator.ts:190-252 | tier 1 vCPU / 2 GiB at 0.0000301 and 0.0000036 per second: 24 instance-hours in 24 slots, peak 1, 0.13428 an hour, 3.22272 a week |
| Costs.MondayRates | src/hooks/useCalculator.ts:212-213 | those prices give 0.10836 and 0.02592 per hour |
| Costs.WeeklyAtRate | src/hooks/useCalculator.ts:214-217 | 24 instance-hours at 0.10836 + 0.02592 are 3.22272 |
| Costs.ZeroRowsAfter | src/hooks/useCalculator.ts:200-209 | idle trailing days add nothing to the tallies |
| Costs.OrOne | tests/free-tier.test.ts:57-58 | `x \|\| 1` is never 0 and is x for non-zero x |
| Costs.MonthlySeconds | tests/free-tier.test.ts:41-42 | monthly usage of one resource in seconds; `MonthlySecondsIsProduct` shows it is instance-hours × 4.33 × amount × 3600 |
| Costs.MonthlySecondsIsProduct | tests/free-tier.test.ts:41-42 | monthly usage is instance-hours × 4.33 × amount × 3600 |
| Costs.WeeklyCostSign | tests/free-tier.test.ts:62 | non-negative prices make non-negative costs; positive ones over some usage make positive costs |
| Costs.WeeklyCostPriceMonotone | tests/free-tier.test.ts:62 | a lower price never costs more for the same instance-hours |
| Costs.Billable | tests/free-tier.test.ts:44-54 | billable lies in [0, monthly]; it is all of it without the grant, 0 under the allowance, and monthly minus the allowance above it |
| Costs.BillableShare | tests/free-tier.test.ts:57-58 | billable over `monthly || 1` is in [0, 1]; for positive usage the share times the month is exactly the billable seconds, so it is 1 when all is billable and 0 when nothing is |
| Costs.FreeTierHourlyPrice | tests/free-tier.test.ts:44-58 | without the grant (and with usage) the plain hourly price; at zero usage 0, since billable is 0 and the divisor is `0 || 1`; with the grant, 0 within the allowance, and above it a price that over the month's seconds pays the plain price for exactly the seconds beyond the allowance |
| Costs.ScaledPrice | tests/free-tier.test.ts:57-58 | scaling the amount by a share scales the hourly price: over the month it is the share's part of the month at the plain price |
| Costs.FreeTierPriceBelow | tests/free-tier.test.ts:44-58 | the grant never raises a resource's hourly price |
| Costs.ShareScaledBelow | tests/free-tier.test.ts:57-58 | a smaller billable share gives a smaller price component |
| Costs.DivMonotone | tests/free-tier.test.ts:57-58 | dividing by the same positive divisor keeps order |
| Costs.CalculateAppCosts | tests/free-tier.test.ts:7-96 | statistics of the normalised schedule; the plain rate without the grant (with usage); at zero usage every per-hour price and every period's cost is 0, with no division by 0; with the grant, a resource within its allowance costs 0 and one above it pays the plain price for exactly the seconds beyond the allowance; projected and consistent |
| Costs.FreeTierNeverIncreases | tests/free-tier.test.ts:144-169 | turning the grant on never raises weekly, monthly or yearly cost |
| Costs.CalculateAppCostsPeak | tests/free-tier.test.ts:73-76 | `maxInstances` bounds every stored cell (missing as 0) and is attained unless 0 |
| Costs.ComplexGrid1 | tests/free-tier.test.ts:268 | the first entered cell keeps a full grid |
| Costs.ComplexGrid2 | tests/free-tier.test.ts:269 | the second entered cell keeps a full grid |
| Costs.ComplexGrid3 | tests/free-tier.test.ts:270 | the third entered cell keeps a full grid |
| Costs.ComplexGrid | tests/free-tier.test.ts:271 | the fourth entered cell keeps a full grid |
| Costs.ComplexScheduleGrid | tests/free-tier.test.ts:266-272 | the stored worked schedule reads as the grid entered cell by cell |
| Costs.EmptyGridTallies | tests/free-tier.test.ts:114-120 | an empty week has no instance-hours and no active slot |
| Costs.EnterCell | tests/free-tier.test.ts:266-272 | a positive count in an empty cell adds its instances and one slot |
| Costs.ComplexGrid1Tallies | tests/free-tier.test.ts:268 | after Monday 9:00 = 3: 3 instance-hours, 1 slot |
| Costs.ComplexGrid2Tallies | tests/free-tier.test.ts:269 | after Tuesday 14:00 = 1: 4 and 2 |
| Costs.ComplexGrid3Tallies | tests/free-tier.test.ts:270 | after Thursday 20:00 = 2: 6 and 3 |
| Costs.ComplexGridTallies | tests/free-tier.test.ts:271 | after Sunday 6:00 = 1: 7 and 4 |
| Costs.ComplexGridPeak | tests/free-tier.test.ts:283 | the peak is 3 |
| Costs.ComplexScheduleStats | tests/free-tier.test.ts:266-285 | the worked schedule: 7 instance-hours, 4 slots, peak 3 |
| Costs.ComplexScheduleExample | tests/free-tier.test.ts:266-285 | the free-tier results on it report 7, 3 and 4, whatever the prices |
| Pricing.ConversionRate | src/lib/constants.ts:20 | the modern rate unless it is absent or 0, else the plain rate |
| Pricing.ConvertFromUsd | src/lib/constants.ts:8-22 | USD and unknown currencies pass the price through; others multiply by the rate |
| Pricing.ConvertCommutesWithScaling | src/lib/constants.ts:8-22 | converting a scaled price scales the converted price |
| Pricing.ConvertKeepsSign | src/lib/constants.ts:8-22 | non-negative prices and rates convert to non-negative prices |
| Pricing.SymbolFor | src/lib/constants.ts:107 | the table's non-empty symbol, else '$'; never empty |
| Pricing.RegionMultipliers | src/lib/constants.ts:30-32 | exactly the region keys, each mapped to its multiplier |
| Pricing.DefaultPricing | src/lib/constants.ts:25-33 | `PRICING`: the USD base prices converted to EUR, labelled EUR / € |
| Pricing.GetDynamicPricing | src/lib/constants.ts:76-118 | the requested currency and its symbol; a listed region's prices are base × multiplier converted; an unlisted region keeps `PRICING`'s euro prices |
| Pricing.KnownRegionPrices | src/lib/constants.ts:88-104 | in a listed region, USD prices are base × multiplier and other currencies are those converted |
| Pricing.CurrencySymbolForRegion | src/lib/constants.ts:121-127 | '$' for an unlisted region or a missing/empty symbol, otherwise the region currency's symbol |
| Pricing.UnknownRegionMislabelled | src/lib/constants.ts:79-86 | an unlisted region asked for in USD returns euro amounts labelled "USD" |
| Pricing.CatalogueMultiplier | src/lib/constants.ts:79-98 | the listed multiplier, or 1.0 for an unlisted region |
| Pricing.GetDynamicPricingIntended | src/lib/constants.ts:76-118 | the corrected resolution: an unlisted region gets the base prices converted to the requested currency |
| Pricing.IntendedAgreesOnKnownRegions | src/lib/constants.ts:88-117 | the corrected and the written resolution agree on every listed region |
| Pricing.IntendedPricesMatchLabel | src/lib/constants.ts:76-118 | with the correction, prices in any currency are that region's USD prices converted |
| Pricing.ValidCombinations | src/lib/constants.ts:36-53 | 16 tiers, tier i with 0.25(i+1) vCPU and twice that in GiB |
| Pricing.ResourcePresets | src/lib/constants.ts:130-136 | five presets, all valid tier indices, strictly increasing from 0 to 15 |
| Pricing.ResourcePresetTiers | src/lib/constants.ts:130-136 | the presets point at 0.25, 0.5, 1, 2 and 4 vCPU, as their labels say |
| Csv.RowAmounts | src/lib/utils.ts:91-105 | as written: "Total Hours" is the number of active cells and the total is CPU plus memory cost |
| Csv.PerHour | src/lib/utils.ts:101-104 | a resource's per-hour price from its per-second price; `RowCostsAreSlotsTimesPrice` uses it |
| Csv.RowCostsAreSlotsTimesPrice | src/lib/utils.ts:101-104 | each resource's cost is active cells × amount × per-second price × 3600 |
| Csv.RowAmountsIntended | src/lib/utils.ts:91-105 | corrected: hours are instance-hours |
| Csv.IntendedTotalIsWeeklyCost | src/lib/utils.ts:91-105 | the corrected total equals the calculator's weekly cost at the same per-hour prices |
| Csv.SlotCountIgnoresInstances | src/lib/utils.ts:91-105 | schedule [[3]] at 1 vCPU / 2 GiB and unit prices: 1 hour and 10800 as written, 3 and 32400 corrected |
| Csv.RowFields | src/lib/utils.ts:110-120 | a row has as many fields as the header |
| Csv.Rows | src/lib/utils.ts:90-121 | one row per app, in order |
| Csv.Row | src/lib/utils.ts:107-120 | one app's fields joined by commas; `RowRoundTrip` states that it reads back |
| Csv.GenerateCsvContent | src/lib/utils.ts:86-124 | the header and one row per app joined by line breaks; `ContentLines` and `NoAppsHeaderOnly` state its lines |
| Csv.EscapeName | src/lib/utils.ts:108 | a name with a comma is wrapped in double quotes; `QuotedRoundTrip`, `PlainRoundTrip` and `QuoteInQuotedNameCutsRow` state what reads back |
| Csv.LeadingColumnsPlain | src/lib/utils.ts:87-88 | the first three column names hold no comma or line break |
| Csv.MiddleColumnsPlain | src/lib/utils.ts:87-88 | nor do the middle three |
| Csv.TrailingColumnsPlain | src/lib/utils.ts:87-88 | nor do the last three |
| Csv.HeaderFieldsPlain | src/lib/utils.ts:87-88 | no column name holds a comma or line break |
| Csv.HeaderColumns | src/lib/utils.ts:87-88 | the header splits at commas into the nine column names and is one line |
| Csv.IndexOf | src/lib/utils.ts:108 | the first position of a character, or the length when absent |
| Csv.IndexOfAfter | src/lib/utils.ts:108 | in p + c + rest with c not in p, c is first found at |p| |
| Csv.QuotedRoundTrip | src/lib/utils.ts:108 | a name with a comma is quoted and reads back whole |
| Csv.PlainRoundTrip | src/lib/utils.ts:108 | a name without a comma is verbatim and reads back up to the first comma |
| Csv.EscapeRoundTrip | src/lib/utils.ts:108-120 | a quote-free name followed by comma-free fields reads back as name and fields |
| Csv.RowRoundTrip | src/lib/utils.ts:107-120 | a row reads back as the app's name and its other eight fields in header order, when the name has no double quote and the region, currency and rendered numbers have no comma |
| Csv.QuoteInQuotedNameCutsRow | src/lib/utils.ts:108 | the quoting does not double an inner quote: `a,"b` then `x` reads back as the single field `a,` |
| Csv.RowHasNoLineBreak | src/lib/utils.ts:110-120 | a row holds no line break if its texts hold none |
| Csv.JoinAvoids | src/lib/utils.ts:120 | joining pieces free of c with another separator gives a string free of c |
| Csv.RowsHaveNoLineBreak | src/lib/utils.ts:90-121 | no row holds a line break |
| Csv.JoinedLines | src/lib/utils.ts:123 | lines without line breaks, joined by them, split back into the same lines |
| Csv.ContentLines | src/lib/utils.ts:86-124 | the content is 1 + |apps| lines: the header, then each app's row in order |
| Csv.NoAppsHeaderOnly | src/lib/utils.ts:123 | without apps the content is the header alone |
| Csv.Sanitize | src/lib/utils.ts:68 | same length; an ASCII letter or digit becomes its lower-case self, every other character '-'; so the stem holds only lower-case letters, digits and '-' |
| Csv.SanitizeIdempotent | src/lib/utils.ts:68 | sanitising twice equals sanitising once |
| Csv.FileStem | src/lib/utils.ts:67-69 | the default stem for a missing or empty name, otherwise the sanitised name |
| Csv.FileName | src/lib/utils.ts:71-72 | `${stem}-${date}.csv`; `FileNameTakesDate` states it |
| Csv.FileNameTakesDate | src/lib/utils.ts:71-72 | for an ISO timestamp the file is named stem-date.csv, the date being the part before 'T' |
| Csv.ExportCsv | src/lib/utils.ts:22-83 | the file name and content of the download; `ExportMatchesGenerate` shows the content is `generateCSVContent`'s |
| Csv.ExportMatchesGenerate | src/lib/utils.ts:22-83 | the download carries exactly `generateCSVContent`'s text |
| MultiApp.AppColors | src/hooks/useMultiApp.ts:5-18 | the palette has twelve colours |
| MultiApp.DefaultApp | src/hooks/useMultiApp.ts:56-63 | the first app of a fresh state; `DefaultStateHasActiveApp` shows it is the active one |
| MultiApp.Ids | src/hooks/useMultiApp.ts:101 | the ids in app order |
| MultiApp.Colors | src/hooks/useMultiApp.ts:106 | the colours in app order |
| MultiApp.PickIndex | src/hooks/useMultiApp.ts:30-32 | `Math.floor(random * n)` is an index below n |
| MultiApp.PickColor | src/hooks/useMultiApp.ts:26-33 | while some palette colour is unused, an unused palette colour; otherwise a `#rrggbb` colour |
| MultiApp.RandomHexColour | src/hooks/useMultiApp.ts:30 | the fallback is '#' and six lower-case hex digits |
| MultiApp.RandomHexColourValue | src/hooks/useMultiApp.ts:30 | its six digits read back as the drawn number |
| MultiApp.InitialState | src/hooks/useMultiApp.ts:36-69 | an accepted saved state keeps its apps, active id, region and free-tier flag, and its missing or empty name becomes the default; otherwise one fresh active app in West Europe; the name is never empty |
| MultiApp.InitialStateKeepsSavedName | src/hooks/useMultiApp.ts:44-47 | a non-empty saved name is kept |
| MultiApp.DefaultStateHasActiveApp | src/hooks/useMultiApp.ts:54-68 | without a saved state, the default app is the active app |
| MultiApp.ActiveApp | src/hooks/useMultiApp.ts:101 | none iff no app has the active id; otherwise the first app of the list with that id |
| MultiApp.AddApp | src/hooks/useMultiApp.ts:104-126 | exactly one app appended with the caller's name or `Container App n+1`, a chosen colour, tier 3, empty schedule and steps; it becomes active; other fields unchanged |
| MultiApp.AddedAppIsActive | src/hooks/useMultiApp.ts:120-124 | with a fresh id, the active app is the one just added |
| MultiApp.FindAppended | src/hooks/useMultiApp.ts:101 | finding a fresh id after appending finds the appended app |
| MultiApp.AddedAppColourIsNew | src/hooks/useMultiApp.ts:106-107 | while the palette has a free colour, the new app's colour differs from all others |
| MultiApp.RemoveApp | src/hooks/useMultiApp.ts:129-145 | only apps with other ids survive and all do; removing the active app hands activity to the first survivor; otherwise the active id stays, even with no apps left |
| MultiApp.RemoveAppKeepsOrder | src/hooks/useMultiApp.ts:131 | removal works piecewise, so survivors keep their order |
| MultiApp.AddThenRemove | src/hooks/useMultiApp.ts:104-145 | removing an app just added under a fresh id gives back the apps there were |
| MultiApp.RemoveAppKeepsAnActiveApp | src/hooks/useMultiApp.ts:133-137 | while apps remain, removal never leaves no active app when there was one |
| MultiApp.SetActiveApp | src/hooks/useMultiApp.ts:148-153 | only the active id changes |
| MultiApp.SetActiveAppSelects | src/hooks/useMultiApp.ts:148-153 | selecting a listed app's id makes that app the active one |
| MultiApp.UpdateApp | src/hooks/useMultiApp.ts:156-163 | same length; matching apps get the merge, others and all other fields are untouched |
| MultiApp.MergeApp | src/hooks/useMultiApp.ts:160 | the spread `{ ...app, ...updates }`; `UpdateApp`, `UpdateAppIdempotent` and `EmptyUpdateChangesNothing` state its use |
| MultiApp.UpdateAppIdempotent | src/hooks/useMultiApp.ts:156-163 | the same update twice equals once |
| MultiApp.EmptyUpdateChangesNothing | src/hooks/useMultiApp.ts:156-163 | an update with no field leaves the state as it is |
| MultiApp.UpdateAppName | src/hooks/useMultiApp.ts:166-168 | matching apps get the name; every other app, the active id, region, estimate name and free-tier flag are unchanged |
| MultiApp.UpdateAppCombination | src/hooks/useMultiApp.ts:171-173 | matching apps get the tier; every other app, the active id, region, estimate name and free-tier flag are unchanged |
| MultiApp.UpdateAppSchedule | src/hooks/useMultiApp.ts:176-178 | matching apps get the schedule; every other app, the active id, region, estimate name and free-tier flag are unchanged |
| MultiApp.UpdateAppSteps | src/hooks/useMultiApp.ts:181-183 | matching apps get the steps; every other app, the active id, region, estimate name and free-tier flag are unchanged |
| MultiApp.UpdateRegion | src/hooks/useMultiApp.ts:186-191 | only the region changes |
| MultiApp.UpdateEstimateName | src/hooks/useMultiApp.ts:194-199 | only the estimate name changes |
| MultiApp.SettingsCommuteAndOverride | src/hooks/useMultiApp.ts:186-199 | region and name edits commute, and a second edit of either overrides the first |
| StepEditor.ToggleDay | src/components/calculator/StepConfiguration.tsx:29-36 | ticking leaves the days as they are when the day is there and appends it at the end otherwise; unticking keeps exactly the other days, in order |
| StepEditor.UntickKeepsOrder | src/components/calculator/StepConfiguration.tsx:35 | unticking works piecewise on any split of the list, so the remaining days keep their order |
| StepEditor.UntickAbsentDay | src/components/calculator/StepConfiguration.tsx:35 | unticking a day the step does not have leaves its days unchanged |
| StepEditor.ToggleDayKeepsDistinct | src/components/calculator/StepConfiguration.tsx:29-36 | a duplicate-free day list stays duplicate-free |
| StepEditor.UntickUndoesTick | src/components/calculator/StepConfiguration.tsx:29-36 | unticking a day just ticked restores the list |
| StepEditor.ToggleDayIdempotent | src/components/calculator/StepConfiguration.tsx:29-36 | the same click twice equals once |
| StepEditor.ToggleDayKeepsDaysValid | src/components/calculator/StepConfiguration.tsx:29-36 | days stay within 0..6 |
| StepEditor.UpdateStepDay | src/components/calculator/StepConfiguration.tsx:25-39 | no update iff no step has the id; otherwise only `days`, the first matching step's toggled days |
| StepEditor.ClickDayTogglesOneStep | src/components/calculator/StepConfiguration.tsx:25-39 | with distinct ids, a click toggles exactly that day of exactly that step |
| StepEditor.UpdateStepTime | src/components/calculator/StepConfiguration.tsx:41-43 | the update sets only the chosen time |
| StepEditor.UpdateStepInstances | src/components/calculator/StepConfiguration.tsx:45-48 | the update sets only the instances: the parsed number, or 0 when the text holds none |
| StepEditor.InstancesEditTouchesOnlyInstances | src/components/calculator/StepConfiguration.tsx:45-48 | typing a count changes only the matching steps' instances |
| StepEditor.TimeEditTouchesOnlyThatTime | src/components/calculator/StepConfiguration.tsx:41-43 | setting a time changes only that time of the matching steps |
| Breakdown.DayNames | src/components/calculator/CostBreakdown.tsx:31 | seven day names |
| Breakdown.InstanceSum | src/components/calculator/CostBreakdown.tsx:62 | the day's instance total; `DetailsTally` shows it is the positive-cell sum on days without negative counts |
| Breakdown.CostSum | src/components/calculator/CostBreakdown.tsx:63 | the day's cost total; `CostSumLinear` shows it is the instance total × the rate |
| Breakdown.ActiveHours | src/components/calculator/CostBreakdown.tsx:64 | the number of hours with instances; `DetailsTally` shows it is the day's active slots |
| Breakdown.CostPerHour | src/components/calculator/CostBreakdown.tsx:44-45 | a resource's per-hour price is amount × per-second price × 3600; `ResourceColumnsMatchCalculator` ties it to the calculator |
| Breakdown.Day | src/components/calculator/CostBreakdown.tsx:48-74 | a day has its name and index and 24 hourly details; hour h carries the stored count (missing as 0), its cost at the rate and its CPU and memory costs at their per-hour prices |
| Breakdown.DailyBreakdown | src/components/calculator/CostBreakdown.tsx:48-75 | seven days, Monday first |
| Breakdown.CostSumLinear | src/components/calculator/CostBreakdown.tsx:52-63 | hour costs priced at one rate sum to the instances × the rate |
| Breakdown.DetailsTally | src/components/calculator/CostBreakdown.tsx:62-64 | the active hours are the count of positive counts; without negatives, the instances are the positive sum |
| Breakdown.DayAverage | src/components/calculator/CostBreakdown.tsx:73 | the average × 24 is the day's instances |
| Breakdown.DayCost | src/components/calculator/CostBreakdown.tsx:52-63 | a day's cost is its instances × the rate |
| Breakdown.DayRow | src/components/calculator/CostBreakdown.tsx:49-51 | a day's details carry that day's row of the normalised schedule |
| Breakdown.DayTally | src/components/calculator/CostBreakdown.tsx:62-64 | a day's active hours are its active slots, at most 24; without negatives its instances are its instance-hours |
| Breakdown.HourCostSplits | src/components/calculator/CostBreakdown.tsx:52-57 | at a rate that is the sum of the two per-hour prices, an hour's CPU and memory columns are its instances at each price and its cost is their sum |
| Breakdown.ResourceColumnsMatchCalculator | src/components/calculator/CostBreakdown.tsx:44-58 | given the calculator's per-hour prices as per-second × 3600 at multiplier 1, each hour's CPU and memory columns are its instances × the calculator's per-hour prices and they make up its cost |
| Breakdown.CalculatorPricesPerSecond | src/components/calculator/CostBreakdown.tsx:44-45 | at multiplier 1 the calculator's per-hour prices, fed per-second × 3600, equal the breakdown's per-hour prices and sum to its rate |
| Breakdown.PerSecondAtUnitMultiplier | src/components/calculator/CostBreakdown.tsx:44-45 | a per-second price × 3600 is the calculator's per-hour price at multiplier 1 |
| Breakdown.WeekActiveHoursIsActiveCount | src/components/calculator/CostBreakdown.tsx:64 | summed over the week, the active hours are the schedule's active slots |
| Breakdown.WeekActiveHoursBound | src/components/calculator/CostBreakdown.tsx:48-75 | the week's active hours are the normalised schedule's active slots, at most 168 |
| Charts.HourLabel | src/components/calculator/ChartVisualization.tsx:17 | a label is five characters ending ":00" |
| Charts.HourLabelRoundTrip | src/components/calculator/ChartVisualization.tsx:17 | its first two characters are digits that read back as the hour |
| Charts.DayInstancesData | src/components/calculator/ChartVisualization.tsx:31-38 | 24 points labelled by hour, with the stored count (missing as 0) and instances × rate as cost |
| Charts.DayInstancesMatchBreakdown | src/components/calculator/ChartVisualization.tsx:31-38 | the hourly chart of a day and that day's breakdown agree hour by hour on instances and, at the same rate, on cost |
| Charts.WeeklyData | src/components/calculator/ChartVisualization.tsx:41-55 | seven points with the three-letter day, the day's total, total/24 and total × rate |
| Charts.DaySum | src/components/calculator/ChartVisualization.tsx:44 | the sum of a day's hours; `DaySumIsInstanceSum` shows it is the breakdown's instance total |
| Charts.DaySumIsInstanceSum | src/components/calculator/ChartVisualization.tsx:44 | summing a day's hours equals the breakdown's instance total |
| Charts.WeeklyTotalIsDayTotal | src/components/calculator/ChartVisualization.tsx:44 | a day's chart total is the breakdown's total for that day |
| Charts.WeeklyDataMatchesBreakdown | src/components/calculator/ChartVisualization.tsx:41-55 | the weekly chart and the breakdown agree on every day's instances, average and cost |
| Charts.MonthlyData | src/components/calculator/ChartVisualization.tsx:58-65 | four weeks named "Week 1".."Week 4", each with avg × 168 instances and the weekly cost |
| Charts.MonthlyWeeksAreTheWeek | src/components/calculator/ChartVisualization.tsx:58-65 | for consistent results, each week shows the week's instance-hours and their cost at the rate |
| Charts.MaxValue | src/components/calculator/ChartVisualization.tsx:67-69 | at least 1 and at least every value; either 1 or one of the values, so bar heights never divide by 0 |
| Text.LowerAscii | src/lib/utils.ts:68 | an upper-case ASCII letter becomes the lower-case letter at the same place in the alphabet; other characters stay |
| Text.NatToString | src/hooks/useMultiApp.ts:113 | a non-negative number renders as decimal digits without leading zeros |
| Text.NatToStringRoundTrip | src/hooks/useMultiApp.ts:113 | reading the digits back gives the number |
| Text.ZeroPaddedDigitsValue | src/components/calculator/ChartVisualization.tsx:17 | zero-padding decimal digits keeps their value |
| Text.NatToHex | src/hooks/useMultiApp.ts:30 | `toString(16)` renders lower-case hex digits without leading zeros |
| Text.NatToHexRoundTrip | src/hooks/useMultiApp.ts:30 | reading the hex digits back gives the number |
| Text.NatToHexLength | src/hooks/useMultiApp.ts:30 | numbers below 16^k need at most k hex digits |
| Text.PadStart | src/hooks/useMultiApp.ts:30 | `padStart` leaves a string at least as long as the width as it is, otherwise fills the front with the pad character up to exactly the width, keeping the string as suffix |
| Text.PadStartStep | src/hooks/useMultiApp.ts:30 | padding adds one pad character at a time: short of the width, padding s equals padding the pad character followed by s |
| Text.ZeroPaddedHexValue | src/hooks/useMultiApp.ts:30 | zero-padding hex digits keeps their value |
| Text.Split | src/lib/utils.ts:71 | splitting gives at least one piece |
| Text.SplitJoin | src/lib/utils.ts:123 | splitting at the separator undoes joining with it when no piece holds it |
| Text.Join | src/lib/utils.ts:123 | `join`; `SplitJoin` and `Csv.JoinedLines` show that splitting undoes it |
| Seqs.Filter | src/hooks/useCalculator.ts:119 | `filter` keeps exactly the elements that pass, in a subsequence |
| Seqs.FilterAppend | src/hooks/useCalculator.ts:119 | filtering a concatenation filters each part |
| Seqs.FilterKeepsAll | src/hooks/useCalculator.ts:119 | when all pass, filtering changes nothing |
| Seqs.FilterIdempotent | src/components/calculator/StepConfiguration.tsx:35 | filtering twice equals once |
| Seqs.FilterDistinct | src/components/calculator/StepConfiguration.tsx:35 | filtering keeps a list duplicate-free |
| Seqs.MapMatching | src/hooks/useCalculator.ts:126-128 | the matching elements are replaced and all others kept, at the same positions |
| Seqs.FindIndex | src/components/calculator/StepConfiguration.tsx:26 | the first matching position, or the length when none matches |
| Seqs.Find | src/components/calculator/StepConfiguration.tsx:26 | none iff nothing matches; otherwise the first matching element |

## Left out

- Rendering, React state wiring, `useEffect` persistence, `localStorage` writes and
  `clearAllData` are presentation or I/O. So are the PDF export, theme handling and the
  Blob/DOM download.
- `updateTotalCosts` and the `costResults` / `totalCosts` caches are not modelled. They only
  store numbers computed elsewhere.
- `getCurrentCombination` and `getCurrentCost` are not modelled. They only repeat the tier
  lookup and per-hour price of `calculateCosts`, which are modelled.
- The `updateCombination` and `updateRegion` setters of `useCalculator` are not modelled.
  They replace one field, just as the `MultiApp` setters do.
- `generateId`, `Date.now()`, `Math.random()` and `new Date().toISOString()` are
  parameters: a fresh id, a draw in [0, 1), and a timestamp string.
- `toString()`, `toFixed(4)` and `getFormattedPrice` are not modelled. A `Formatter` of two
  abstract functions renders the CSV numbers. Only integer `toString`, base 10 and 16, is
  modelled exactly.
- Floating-point rounding is not modelled: all prices and rates are exact `real`s.
- The pricing JSON is abstract. Base prices, multipliers, conversion rates and symbols are
  the parameter `Pricing.PricingData`.
- `console.warn` is not modelled.
- The per-hour prices of `calculateCosts` are parameters. The source reads
  `PRICING.vcpu_per_hour` and `PRICING.memory_per_gb_per_hour` (src/hooks/useCalculator.ts:212-213),
  which its pricing configuration does not define, so as written every price and cost it
  returns is NaN. NaN has no counterpart among exact `real`s, so that behaviour cannot be
  modelled, and the model states the evidently intended per-hour pricing.
- `HH:MM` parsing with `parseInt` is not modelled. Steps carry an integer hour in 0..23, a
  minute in 0..59 and days in 0..6. Under those bounds the lazy row creation in
  `applySteps` never fires.
- `parseInt` in `updateStepInstances` is a parameter: its result is `Option<int>`, with
  `None` for NaN.
- Charts.WeeklyData: the day total sums hours 0..23 only. The source sums every value of
  the stored day, so it also counts keys outside 0..23, which no operation creates.
- Csv.ReadRow: not an operation of the source. It is a reader for the rows, used to
  state that the quoting is reversible.
- MultiApp.InitialState: checks only the parsed saved state's `apps` field, as the source
  does, and the other fields are taken as typed values. A stored text that does not parse
  is `Unreadable`, and the `catch` branch is not modelled separately.
- MultiApp.GetRandomColor: carries no contract of its own. It is `PickColor` applied to
  the fixed palette, and `PickColor` carries the contract.
- Csv.RowRoundTrip: stated only for names without a double quote. The quoting at
  src/lib/utils.ts:108 does not double an inner quote, so a name with both a comma and a
  quote does not read back as one field (`Csv.QuoteInQuotedNameCutsRow`).
- Costs.RegionMultiplier, Pricing.GetDynamicPricing, Pricing.ConvertFromUsd: property lookups
  are modelled as map lookups. In JavaScript, `PRICING.regions[region]`,
  `pricingData.regions[region]` and `currencies[code]` also find names inherited from
  `Object.prototype` such as "constructor" or "toString", which yield NaN prices in the
  source. The model treats those names as absent.
- A fresh state's `freeTierEnabled` is `false`. The source leaves it undefined, which every
  use reads the same way as `false`.
- Csv.Sanitize: works on `char`s. JavaScript strings are UTF-16, so a character outside the
  Basic Multilingual Plane becomes two '-' characters in the source and one here.
- Costs.CalculateCosts, Costs.CalculateAppCosts: require a valid tier index. For an index
  outside `VALID_COMBINATIONS` the source reads `.cpu` of `undefined` and throws a
  `TypeError` (src/hooks/useCalculator.ts:191-192, tests/free-tier.test.ts:15-16). The
  tier comes from a select over `VALID_COMBINATIONS`, so that throw is not modelled.
- Combination captions are display text and are not kept. Only the numbers are.
- The `updateStep` merge can set a step's id. Lists with repeated ids are allowed
  throughout, and `StepEditor.ClickDayTogglesOneStep` assumes distinct ids.

## Findings

| source | as written | input that shows it | evidently intended | confidence | as-written member | corrected member |
|---|---|---|---|---|---|---|
| src/lib/constants.ts:79-86 | For a region missing from the catalogue, `getDynamicPricing` returns `PRICING`, whose prices are already in euros, and only replaces the currency label and symbol. | region "nowhere", currency "USD", EUR rate 0.9, base 0.000034 per vCPU-second: the result is labelled USD but priced 0.0000306 | the default (multiplier 1.0) prices converted into the requested currency, so that amounts and label agree | medium, not executed | Pricing.GetDynamicPricing, Pricing.UnknownRegionMislabelled | Pricing.GetDynamicPricingIntended, Pricing.IntendedAgreesOnKnownRegions, Pricing.IntendedPricesMatchLabel |
| src/lib/utils.ts:91-105 | The CSV "Total Hours" counts cells with at least one instance. Costs are that count × per-instance hourly price, so every instance after the first in a slot is free. | one app, 1 vCPU / 2 GiB, unit per-second prices, schedule [[3]]: 1 hour and total 10800, where the calculator bills 3 instance-hours, 32400 | instance-hours (the sum of the positive counts), as `calculateCosts` uses and as the CSV test's column name "Total Instance Hours" suggests (tests/csv-export.test.ts:49); every numeric check in tests/csv-export.test.ts (for example :84, :118 and :155-162) uses schedules of 0s and 1s, where slots and instance-hours agree, and the test file also differs from the code in header text and rounding | low, not executed | Csv.RowAmounts, Csv.SlotCountIgnoresInstances | Csv.RowAmountsIntended, Csv.IntendedTotalIsWeeklyCost |

=== FILE: breakdown.dfy ===
/** The per-day cost breakdown of `CostBreakdown.tsx`: for each day of the week, the 24 hourly
    details read off the stored schedule and the day's totals, plus the per-hour price of each
    resource. */
module Breakdown {
  import opened Schedule
  import opened Stats
  import Seqs
  import Costs
  import Pricing

  function DayNames(): (r: seq<string>)
    ensures |r| == Days
  {
    ["Monday", "Tuesday", "Wednesday", "Thursday", "Friday", "Saturday", "Sunday"]
  }

  /** One hour of one day: the instances it runs and what they cost. */
  datatype HourDetail = HourDetail(hour: int, instances: int, cost: real, cpuCost: real, memoryCost: real)

  /** One day: its hourly details and their totals. */
  datatype DayBreakdown = DayBreakdown(
    day: string, dayIndex: int, hourlyDetails: seq<HourDetail>,
    totalInstances: int, totalCost: real, activeHours: nat, averageInstances: real)

  /** `amount * pricePerSecond * 3600`: the per-hour price of one resource of one instance. */
  function CostPerHour(amount: real, pricePerSecond: real): (r: real)
    ensures r == amount * pricePerSecond * 3600.0
  {
    Costs.HourlyPrice(amount, pricePerSecond, 3600.0)
  }

  /** `instances * rate`: what `instances` instances cost at `rate` each. */
  function InstanceCost(instances: int, rate: real): real {
    instances as real * rate
  }

  /** `hourlyDetails.reduce((sum, h) => sum + h.instances, 0)`, negative counts included. */
  function InstanceSum(ds: seq<HourDetail>): int {
    if |ds| == 0 then 0 else InstanceSum(ds[..|ds| - 1]) + ds[|ds| - 1].instances
  }

  /** `hourlyDetails.reduce((sum, h) => sum + h.cost, 0)`. */
  function CostSum(ds: seq<HourDetail>): real {
    if |ds| == 0 then 0.0 else CostSum(ds[..|ds| - 1]) + ds[|ds| - 1].cost
  }

  /** `hourlyDetails.filter(h => h.instances > 0).length`. */
  function ActiveHours(ds: seq<HourDetail>): nat {
    |Seqs.Filter(ds, (h: HourDetail) => h.instances > 0)|
  }

  /** The details of hour `hour` of day `day`: a missing day or hour runs 0 instances, and
      each cost is the instances times the matching per-hour price. */
  function Detail(s: SparseSchedule, day: int, hour: int, rate: real, cpuPerHour: real, memoryPerHour: real): HourDetail {
    var instances := CellOrZero(s, day, hour);
    HourDetail(hour, instances, InstanceCost(instances, rate), InstanceCost(instances, cpuPerHour),
               InstanceCost(instances, memoryPerHour))
  }

  /** One day of the breakdown; `rate` is the results' `totalCostPerInstancePerHour`. */
  function Day(s: SparseSchedule, day: nat, rate: real, cpuPerHour: real, memoryPerHour: real): (r: DayBreakdown)
    requires day < Days
    ensures r.day == DayNames()[day] && r.dayIndex == day
    ensures |r.hourlyDetails| == HoursPerDay
    ensures forall h :: 0 <= h < HoursPerDay ==>
      r.hourlyDetails[h].hour == h && r.hourlyDetails[h].instances == CellOrZero(s, day, h)
    ensures forall h :: 0 <= h < HoursPerDay ==>
      && r.hourlyDetails[h].cost == InstanceCost(r.hourlyDetails[h].instances, rate)
      && r.hourlyDetails[h].cpuCost == InstanceCost(r.hourlyDetails[h].instances, cpuPerHour)
      && r.hourlyDetails[h].memoryCost == InstanceCost(r.hourlyDetails[h].instances, memoryPerHour)
  {
    var details := seq(HoursPerDay, h requires 0 <= h < HoursPerDay => Detail(s, day, h, rate, cpuPerHour, memoryPerHour));
    var total := InstanceSum(details);
    DayBreakdown(DayNames()[day], day, details, total, CostSum(details), ActiveHours(details),
                 total as real / 24.0)
  }

  /** `dailyBreakdown`: seven days, Monday first. */
  function DailyBreakdown(s: SparseSchedule, rate: real, cpuPerHour: real, memoryPerHour: real): (r: seq<DayBreakdown>)
    ensures |r| == Days
    ensures forall d :: 0 <= d < Days ==> r[d] == Day(s, d, rate, cpuPerHour, memoryPerHour)
  {
    seq(Days, d requires 0 <= d < Days => Day(s, d, rate, cpuPerHour, memoryPerHour))
  }

  // ---------------------------------------------------------------------------
  // What the totals mean

  /** Costs priced hour by hour add up to the instances times the rate. */
  lemma {:induction false} CostSumLinear(ds: seq<HourDetail>, rate: real)
    requires forall i :: 0 <= i < |ds| ==> ds[i].cost == InstanceCost(ds[i].instances, rate)
    ensures CostSum(ds) == InstanceCost(InstanceSum(ds), rate)
  {
    if |ds| > 0 {
      CostSumLinear(ds[..|ds| - 1], rate);
    }
  }

  /** The active hours of a list of details are the active slots of its instance counts, and
      with no negative count the instance total is the instance-hours of those counts. */
  lemma {:induction false} DetailsTally(ds: seq<HourDetail>, row: seq<int>)
    requires |ds| == |row| && forall i :: 0 <= i < |ds| ==> ds[i].instances == row[i]
    ensures ActiveHours(ds) == RowActiveCount(row)
    ensures (forall i :: 0 <= i < |row| ==> row[i] >= 0) ==> InstanceSum(ds) == RowActiveSum(row)
  {
    if |ds| > 0 {
      var n := |ds| - 1;
      DetailsTally(ds[..n], row[..n]);
      assert ds == ds[..n] + [ds[n]];
      Seqs.FilterAppend(ds[..n], [ds[n]], (h: HourDetail) => h.instances > 0);
    }
  }

  /** A day's average is its instances spread over 24 hours. */
  lemma DayAverage(s: SparseSchedule, day: nat, rate: real, cpuPerHour: real, memoryPerHour: real)
    requires day < Days
    ensures var r := Day(s, day, rate, cpuPerHour, memoryPerHour);
      r.averageInstances * 24.0 == r.totalInstances as real
  {
  }

  /** A day's cost is its instances times the rate. */
  lemma DayCost(s: SparseSchedule, day: nat, rate: real, cpuPerHour: real, memoryPerHour: real)
    requires day < Days
    ensures var r := Day(s, day, rate, cpuPerHour, memoryPerHour);
      r.totalCost == InstanceCost(r.totalInstances, rate)
  {
    var r := Day(s, day, rate, cpuPerHour, memoryPerHour);
    var ds := r.hourlyDetails;
    forall i | 0 <= i < |ds| ensures ds[i].cost == InstanceCost(ds[i].instances, rate) {
      assert ds[i] == Detail(s, day, i, rate, cpuPerHour, memoryPerHour);
    }
    CostSumLinear(ds, rate);
    assert r.totalCost == CostSum(ds) && r.totalInstances == InstanceSum(ds);
  }

  /** The details of a day carry that day's row of the dense schedule. */
  lemma DayRow(s: SparseSchedule, day: nat, rate: real, cpuPerHour: real, memoryPerHour: real)
    requires day < Days
    ensures var ds := Day(s, day, rate, cpuPerHour, memoryPerHour).hourlyDetails;
      |ds| == |Normalize(s)[day]| && forall i :: 0 <= i < |ds| ==> ds[i].instances == Normalize(s)[day][i]
  {
    var ds := Day(s, day, rate, cpuPerHour, memoryPerHour).hourlyDetails;
    var row := Normalize(s)[day];
    forall i | 0 <= i < |ds| ensures ds[i].instances == row[i] {
      assert IsDay(day) && IsHour(i);
    }
  }

  /** A day's active hours are the active slots of that day of the dense schedule (so at most
      24), and on a day without negative counts its instances are the day's instance-hours. */
  lemma DayTally(s: SparseSchedule, day: nat, rate: real, cpuPerHour: real, memoryPerHour: real)
    requires day < Days
    ensures var r := Day(s, day, rate, cpuPerHour, memoryPerHour);
      && r.activeHours == RowActiveCount(Normalize(s)[day]) <= HoursPerDay
      && ((forall h :: 0 <= h < HoursPerDay ==> CellOrZero(s, day, h) >= 0) ==>
            r.totalInstances == RowActiveSum(Normalize(s)[day]))
  {
    var ds := Day(s, day, rate, cpuPerHour, memoryPerHour).hourlyDetails;
    var row := Normalize(s)[day];
    DayRow(s, day, rate, cpuPerHour, memoryPerHour);
    DetailsTally(ds, row);
    if forall h :: 0 <= h < HoursPerDay ==> CellOrZero(s, day, h) >= 0 {
      assert forall i :: 0 <= i < |row| ==> row[i] >= 0;
    }
  }

  /** Priced at the sum of two per-hour prices, an hour's columns are its instances at each
      price and its cost is their sum. */
  lemma HourCostSplits(s: SparseSchedule, day: nat, hour: nat, cpuPerHour: real, memoryPerHour: real)
    requires day < Days && hour < HoursPerDay
    ensures var h := Day(s, day, cpuPerHour + memoryPerHour, cpuPerHour, memoryPerHour).hourlyDetails[hour];
      && h.cpuCost == InstanceCost(h.instances, cpuPerHour)
      && h.memoryCost == InstanceCost(h.instances, memoryPerHour)
      && h.cost == h.cpuCost + h.memoryCost
  {
  }

  /** With the per-second prices the calculator is given as per-hour prices (`perSecond * 3600`)
      in a region whose multiplier is 1, the breakdown's resource prices are the calculator's:
      each hour's CPU and memory columns are its instances times the calculator's per-hour
      prices, and together they make up the hour's cost. */
  lemma ResourceColumnsMatchCalculator(
    g: Grid, s: SparseSchedule, combination: int, vcpuPerSecond: real, memoryPerSecond: real,
    regions: map<string, real>, region: string, day: nat, hour: nat)
    requires IsGrid(g) && Pricing.ValidCombinationIndex(combination)
    requires Costs.RegionMultiplier(regions, region) == 1.0
    requires day < Days && hour < HoursPerDay
    ensures var r := Costs.CalculateCosts(g, combination, vcpuPerSecond * 3600.0, memoryPerSecond * 3600.0, regions, region);
      var h := Day(s, day, r.totalCostPerInstancePerHour,
                   CostPerHour(r.vcpu, vcpuPerSecond), CostPerHour(r.memory, memoryPerSecond)).hourlyDetails[hour];
      && h.cpuCost == InstanceCost(h.instances, r.vcpuCostPerHour)
      && h.memoryCost == InstanceCost(h.instances, r.memoryCostPerHour)
      && h.cost == h.cpuCost + h.memoryCost
  {
    var r := Costs.CalculateCosts(g, combination, vcpuPerSecond * 3600.0, memoryPerSecond * 3600.0, regions, region);
    CalculatorPricesPerSecond(g, combination, vcpuPerSecond, memoryPerSecond, regions, region);
    HourCostSplits(s, day, hour, r.vcpuCostPerHour, r.memoryCostPerHour);
  }

  /** At multiplier 1 the calculator's per-hour prices, given as `perSecond * 3600`, are the
      breakdown's per-hour prices. */
  lemma CalculatorPricesPerSecond(
    g: Grid, combination: int, vcpuPerSecond: real, memoryPerSecond: real,
    regions: map<string, real>, region: string)
    requires IsGrid(g) && Pricing.ValidCombinationIndex(combination)
    requires Costs.RegionMultiplier(regions, region) == 1.0
    ensures var r := Costs.CalculateCosts(g, combination, vcpuPerSecond * 3600.0, memoryPerSecond * 3600.0, regions, region);
      && r.vcpuCostPerHour == CostPerHour(r.vcpu, vcpuPerSecond)
      && r.memoryCostPerHour == CostPerHour(r.memory, memoryPerSecond)
      && r.totalCostPerInstancePerHour == r.vcpuCostPerHour + r.memoryCostPerHour
  {
    var r := Costs.CalculateCosts(g, combination, vcpuPerSecond * 3600.0, memoryPerSecond * 3600.0, regions, region);
    PerSecondAtUnitMultiplier(r.vcpu, vcpuPerSecond);
    PerSecondAtUnitMultiplier(r.memory, memoryPerSecond);
  }

  /** A per-second price times 3600 is the per-hour price at multiplier 1. */
  lemma PerSecondAtUnitMultiplier(amount: real, pricePerSecond: real)
    ensures CostPerHour(amount, pricePerSecond) == Costs.HourlyPrice(amount, pricePerSecond * 3600.0, 1.0)
  {
  }

  /** `activeHours` summed over the week. */
  function WeekActiveHours(days: seq<DayBreakdown>): nat {
    if |days| == 0 then 0 else WeekActiveHours(days[..|days| - 1]) + days[|days| - 1].activeHours
  }

  lemma {:induction false} WeekActiveHoursIsActiveCount(days: seq<DayBreakdown>, g: Grid)
    requires |days| == |g| && forall d :: 0 <= d < |g| ==> days[d].activeHours == RowActiveCount(g[d])
    ensures WeekActiveHours(days) == GridActiveCount(g)
  {
    if |days| > 0 {
      var n := |days| - 1;
      WeekActiveHoursIsActiveCount(days[..n], g[..n]);
    }
  }

  /** The week's active hours are the active slots of the dense schedule, at most 168. */
  lemma WeekActiveHoursBound(s: SparseSchedule, rate: real, cpuPerHour: real, memoryPerHour: real)
    ensures var days := DailyBreakdown(s, rate, cpuPerHour, memoryPerHour);
      WeekActiveHours(days) == GridActiveCount(Normalize(s)) <= 168
  {
    var days := DailyBreakdown(s, rate, cpuPerHour, memoryPerHour);
    var g := Normalize(s);
    forall d | 0 <= d < |g| ensures days[d].activeHours == RowActiveCount(g[d]) {
      DayTally(s, d, rate, cpuPerHour, memoryPerHour);
    }
    WeekActiveHoursIsActiveCount(days, g);
    GridCells(g);
  }
}

=== FILE: charts.dfy ===
/** The series behind the charts of `ChartVisualization.tsx`: the hours of one day, the days
    of the week and a four-week month, plus the scale every bar height is divided by. */
module Charts {
  import opened Text
  import opened Schedule
  import Costs
  import Breakdown

  /** `${i.toString().padStart(2, '0')}:00`. */
  function HourLabel(hour: nat): (r: string)
    requires hour < HoursPerDay
    ensures |r| == 5 && r[2..] == ":00"
  {
    var digits := NatToString(hour);
    assert |digits| <= 2 by {
      if hour >= 10 {
        assert NatToString(hour / 10) == [DigitChar(hour / 10)];
      }
    }
    PadStart(digits, 2, '0') + ":00"
  }

  /** The first two characters of an hour label read back as the hour. */
  lemma HourLabelRoundTrip(hour: nat)
    requires hour < HoursPerDay
    ensures var r := HourLabel(hour);
      (forall i :: 0 <= i < 2 ==> IsDigit(r[i])) && DigitsValue(r[..2]) == hour
  {
    var digits := NatToString(hour);
    var padded := PadStart(digits, 2, '0');
    NatToStringRoundTrip(hour);
    ZeroPaddedDigitsValue(digits, 2);
    assert HourLabel(hour)[..2] == padded;
  }

  datatype HourPoint = HourPoint(time: string, instances: int, cost: real)

  /** Hour `hour` of the selected day in the hourly chart. */
  function HourPointAt(s: SparseSchedule, selectedDay: int, hour: nat, rate: real): HourPoint
    requires hour < HoursPerDay
  {
    var instances := CellOrZero(s, selectedDay, hour);
    HourPoint(HourLabel(hour), instances, Breakdown.InstanceCost(instances, rate))
  }

  /** `dayInstancesData`: the 24 hours of the selected day, a missing day or hour as 0, each
      hour costing its instances times the per-instance hourly rate. */
  function DayInstancesData(s: SparseSchedule, selectedDay: int, rate: real): (r: seq<HourPoint>)
    ensures |r| == HoursPerDay
    ensures forall h :: 0 <= h < HoursPerDay ==>
      && r[h].time == HourLabel(h)
      && r[h].instances == CellOrZero(s, selectedDay, h)
      && r[h].cost == Breakdown.InstanceCost(r[h].instances, rate)
  {
    seq(HoursPerDay, h requires 0 <= h < HoursPerDay => HourPointAt(s, selectedDay, h, rate))
  }

  /** The hourly chart of a day and that day's breakdown agree hour by hour on the instances
      and, at the same rate, on the cost. */
  lemma DayInstancesMatchBreakdown(s: SparseSchedule, day: nat, rate: real, cpuPerHour: real, memoryPerHour: real)
    requires day < Days
    ensures var chart := DayInstancesData(s, day, rate);
      var details := Breakdown.Day(s, day, rate, cpuPerHour, memoryPerHour).hourlyDetails;
      forall h :: 0 <= h < HoursPerDay ==>
        chart[h].instances == details[h].instances && chart[h].cost == details[h].cost
  {
  }

  datatype DayPoint = DayPoint(day: string, instances: real, totalInstances: int, cost: real)

  /** The instances of hours `0 .. n - 1` of a day, as a sum. */
  function DaySum(s: SparseSchedule, day: int, n: nat): int {
    if n == 0 then 0 else DaySum(s, day, n - 1) + CellOrZero(s, day, n - 1)
  }

  /** `weeklyData`: per day its three-letter name, its total instances, their average over 24
      hours and their cost. */
  function WeeklyData(s: SparseSchedule, rate: real): (r: seq<DayPoint>)
    ensures |r| == Days
    ensures forall d :: 0 <= d < Days ==>
      && r[d].day == Breakdown.DayNames()[d][..3]
      && r[d].totalInstances == DaySum(s, d, HoursPerDay)
      && r[d].instances == r[d].totalInstances as real / 24.0
      && r[d].cost == Breakdown.InstanceCost(r[d].totalInstances, rate)
  {
    seq(Days, d requires 0 <= d < Days =>
      var total := DaySum(s, d, HoursPerDay);
      DayPoint(Breakdown.DayNames()[d][..3], total as real / 24.0, total, Breakdown.InstanceCost(total, rate)))
  }

  /** Summing the hours of a day in order gives the breakdown's instance total over the same
      hours. */
  lemma {:induction false} DaySumIsInstanceSum(s: SparseSchedule, day: nat, n: nat, ds: seq<Breakdown.HourDetail>)
    requires n == |ds| && forall h :: 0 <= h < n ==> ds[h].instances == CellOrZero(s, day, h)
    ensures DaySum(s, day, n) == Breakdown.InstanceSum(ds)
  {
    if n > 0 {
      DaySumIsInstanceSum(s, day, n - 1, ds[..n - 1]);
    }
  }

  /** A day's total in the weekly chart is the breakdown's instance total for that day. */
  lemma WeeklyTotalIsDayTotal(s: SparseSchedule, rate: real, cpuPerHour: real, memoryPerHour: real, d: nat)
    requires d < Days
    ensures DaySum(s, d, HoursPerDay) == Breakdown.Day(s, d, rate, cpuPerHour, memoryPerHour).totalInstances
  {
    var ds := Breakdown.Day(s, d, rate, cpuPerHour, memoryPerHour).hourlyDetails;
    DaySumIsInstanceSum(s, d, HoursPerDay, ds);
  }

  /** The weekly chart and the cost breakdown agree on every day's instances, average and cost. */
  lemma WeeklyDataMatchesBreakdown(s: SparseSchedule, rate: real, cpuPerHour: real, memoryPerHour: real, d: nat)
    requires d < Days
    ensures var w := WeeklyData(s, rate)[d];
      var b := Breakdown.DailyBreakdown(s, rate, cpuPerHour, memoryPerHour)[d];
      w.totalInstances == b.totalInstances && w.cost == b.totalCost && w.instances == b.averageInstances
  {
    var b := Breakdown.Day(s, d, rate, cpuPerHour, memoryPerHour);
    WeeklyTotalIsDayTotal(s, rate, cpuPerHour, memoryPerHour, d);
    Breakdown.DayCost(s, d, rate, cpuPerHour, memoryPerHour);
    assert b.averageInstances == b.totalInstances as real / 24.0;
  }

  datatype WeekPoint = WeekPoint(week: string, instances: real, cost: real)

  /** `monthlyData`: four equal weeks, each with the week's instance-hours (the hourly average
      over 168 hours) and the weekly cost. */
  function MonthlyData(results: Costs.CostResults): (r: seq<WeekPoint>)
    ensures |r| == 4
    ensures forall i :: 0 <= i < 4 ==>
      && r[i].week == "Week " + NatToString(i + 1)
      && r[i].instances == results.avgInstancesPerHour * 168.0
      && r[i].cost == results.weeklyCost
  {
    seq(4, i requires 0 <= i < 4 =>
      WeekPoint("Week " + NatToString(i + 1), results.avgInstancesPerHour * 168.0, results.weeklyCost))
  }

  /** For results that hang together, each week of the month shows the week's instance-hours
      and its cost is those instance-hours at the hourly rate. */
  lemma MonthlyWeeksAreTheWeek(results: Costs.CostResults)
    requires Costs.Consistent(results) && Costs.Projected(results)
    ensures forall i :: 0 <= i < 4 ==>
      && MonthlyData(results)[i].instances == results.totalActiveInstanceHours as real
      && MonthlyData(results)[i].cost ==
           results.totalActiveInstanceHours as real * results.totalCostPerInstancePerHour
  {
    Costs.WeeklyCostIsProduct(results.totalActiveInstanceHours, results.totalCostPerInstancePerHour);
  }

  /** `Math.max(...values, 1)`: the largest value, never below 1. */
  function MaxValue(xs: seq<real>): (r: real)
    ensures r >= 1.0
    ensures forall i :: 0 <= i < |xs| ==> xs[i] <= r
    ensures r == 1.0 || exists i :: 0 <= i < |xs| && xs[i] == r
  {
    if |xs| == 0 then 1.0
    else
      var m := MaxValue(xs[..|xs| - 1]);
      var last := xs[|xs| - 1];
      assert forall i :: 0 <= i < |xs| - 1 ==> xs[i] == xs[..|xs| - 1][i];
      if last > m then last else m
  }
}

=== FILE: costs.dfy ===
/** The cost engine: turning a weekly schedule, a CPU/memory tier and per-hour prices into
    weekly, monthly and yearly costs and the schedule statistics shown next to them.

    Two variants exist: `calculateCosts` in `src/hooks/useCalculator.ts` (one app, region
    multiplier looked up in the price table) and `calculateAppCosts` (per app, with the
    optional monthly free grant). Per-hour prices are parameters in both. */
module Costs {
  import opened Schedule
  import opened Stats
  import Pricing

  /** The average number of weeks in a month the source uses. */
  const WeeksPerMonth: real := 4.33
  const MonthsPerYear: real := 12.0
  const SlotsPerWeek: int := 168

  /** The monthly free grant: vCPU-seconds and GiB-seconds. */
  const FreeVcpuSeconds: real := 180000.0
  const FreeMemoryGibSeconds: real := 360000.0

  /** `CostResults`. */
  datatype CostResults = CostResults(
    vcpuCostPerHour: real,
    memoryCostPerHour: real,
    totalCostPerInstancePerHour: real,
    totalActiveInstanceHours: int,
    weeklyCost: real,
    monthlyCost: real,
    yearlyCost: real,
    avgInstancesPerHour: real,
    avgActiveInstancesPerActiveHour: real,
    maxInstances: int,
    vcpu: real,
    memory: real,
    activeSlots: int,
    efficiencyPercentage: real)

  /** `PRICING.regions[region] || 1.0`: an absent region, or a multiplier of 0, reads as 1.0. */
  function RegionMultiplier(regions: map<string, real>, region: string): (r: real)
    ensures region in regions && regions[region] != 0.0 ==> r == regions[region]
    ensures region !in regions || regions[region] == 0.0 ==> r == 1.0
    ensures r != 0.0
  {
    if region in regions && regions[region] != 0.0 then regions[region] else 1.0
  }

  /** The statistics and projections both variants compute from the schedule and the
      per-instance hourly price components. */
  function Summarize(g: Grid, vcpu: real, memory: real, vcpuCostPerHour: real, memoryCostPerHour: real): (r: CostResults)
    requires IsGrid(g)
    ensures r.totalActiveInstanceHours == GridActiveSum(g)
    ensures r.activeSlots == GridActiveCount(g)
    ensures r.maxInstances == GridMax(g)
    ensures r.vcpu == vcpu && r.memory == memory
    ensures r.vcpuCostPerHour == vcpuCostPerHour && r.memoryCostPerHour == memoryCostPerHour
    ensures r.totalCostPerInstancePerHour == vcpuCostPerHour + memoryCostPerHour
    ensures Projected(r)
    ensures Consistent(r)
  {
    GridCells(g);
    GridBounds(g);
    Results(GridActiveSum(g), GridActiveCount(g), GridMax(g), vcpu, memory, vcpuCostPerHour, memoryCostPerHour)
  }

  /** The results record built from the three schedule tallies. */
  function Results(
    total: int, activeSlots: int, maxInstances: int,
    vcpu: real, memory: real, vcpuCostPerHour: real, memoryCostPerHour: real): (r: CostResults)
    requires 0 <= activeSlots <= SlotsPerWeek && 0 <= maxInstances
    requires activeSlots <= total <= activeSlots * maxInstances
    ensures r.totalActiveInstanceHours == total && r.activeSlots == activeSlots && r.maxInstances == maxInstances
    ensures r.vcpu == vcpu && r.memory == memory
    ensures r.vcpuCostPerHour == vcpuCostPerHour && r.memoryCostPerHour == memoryCostPerHour
    ensures r.totalCostPerInstancePerHour == vcpuCostPerHour + memoryCostPerHour
    ensures Projected(r)
    ensures Consistent(r)
  {
    var rate := vcpuCostPerHour + memoryCostPerHour;
    var weekly := WeeklyCost(total, rate);
    var monthly := weekly * WeeksPerMonth;
    var avgActive := if activeSlots > 0 then total as real / activeSlots as real else 0.0;
    var efficiency := (activeSlots as real / SlotsPerWeek as real) * 100.0;
    AverageOverSlots(total, activeSlots);
    Efficiency(activeSlots);
    CostResults(
      vcpuCostPerHour, memoryCostPerHour, rate, total,
      weekly, monthly, monthly * MonthsPerYear,
      total as real / 168.0, avgActive,
      maxInstances, vcpu, memory, activeSlots, efficiency)
  }

  /** `activeSlots > 0 ? total / activeSlots : 0`: the average times the slots gives back the total. */
  lemma AverageOverSlots(total: int, slots: int)
    ensures var a := if slots > 0 then total as real / slots as real else 0.0;
      (slots <= 0 ==> a == 0.0) && (slots > 0 ==> a * slots as real == total as real)
  {
  }

  /** The efficiency formula `(activeSlots / 168) * 100` is the share in percent. */
  lemma Efficiency(activeSlots: int)
    requires 0 <= activeSlots <= 168
    ensures (activeSlots as real / 168 as real) * 100.0 == activeSlots as real * 100.0 / 168.0
    ensures 0.0 <= (activeSlots as real / 168 as real) * 100.0 <= 100.0
  {
  }

  /** The cost of `instanceHours` instance-hours at `hourlyPrice` each, one hour at a time;
      `WeeklyCostIsProduct` shows it is the product the source computes. */
  function WeeklyCost(instanceHours: nat, hourlyPrice: real): real {
    if instanceHours == 0 then 0.0 else WeeklyCost(instanceHours - 1, hourlyPrice) + hourlyPrice
  }

  /** `totalActiveInstanceHours * totalCostPerInstancePerHour`. */
  lemma {:induction false} WeeklyCostIsProduct(instanceHours: nat, hourlyPrice: real)
    ensures WeeklyCost(instanceHours, hourlyPrice) == instanceHours as real * hourlyPrice
  {
    if instanceHours > 0 {
      WeeklyCostIsProduct(instanceHours - 1, hourlyPrice);
    }
  }

  /** Costs of instance-hours add up. */
  lemma {:induction false} WeeklyCostAdditive(a: nat, b: nat, hourlyPrice: real)
    ensures WeeklyCost(a + b, hourlyPrice) == WeeklyCost(a, hourlyPrice) + WeeklyCost(b, hourlyPrice)
  {
    if b > 0 {
      WeeklyCostAdditive(a, b - 1, hourlyPrice);
    }
  }

  /** More instance-hours at a non-negative price never cost less. */
  lemma {:induction false} WeeklyCostMonotone(a: nat, b: nat, hourlyPrice: real)
    requires a <= b && hourlyPrice >= 0.0
    ensures WeeklyCost(a, hourlyPrice) <= WeeklyCost(b, hourlyPrice)
  {
    if a < b {
      WeeklyCostMonotone(a, b - 1, hourlyPrice);
    }
  }

  /** The cost at the sum of two hourly prices is the sum of the costs at each. */
  lemma {:induction false} WeeklyCostSplitsPrice(instanceHours: nat, a: real, b: real)
    ensures WeeklyCost(instanceHours, a + b) == WeeklyCost(instanceHours, a) + WeeklyCost(instanceHours, b)
  {
    if instanceHours > 0 {
      WeeklyCostSplitsPrice(instanceHours - 1, a, b);
    }
  }

  /** The projection the results promise: weekly cost is instance-hours times the hourly
      price of one instance, a month is 4.33 weeks and a year twelve months. */
  predicate Projected(r: CostResults) {
    && r.totalActiveInstanceHours >= 0
    && r.totalCostPerInstancePerHour == r.vcpuCostPerHour + r.memoryCostPerHour
    && r.weeklyCost == WeeklyCost(r.totalActiveInstanceHours, r.totalCostPerInstancePerHour)
    && r.monthlyCost == r.weeklyCost * WeeksPerMonth
    && r.yearlyCost == r.monthlyCost * MonthsPerYear
  }

  /** How the statistics relate to one another: slots lie within the week, every active slot
      holds at least one and at most `maxInstances` instances, the averages are the
      instance-hours spread over the week and over the active slots, and the efficiency is
      the share of active slots in percent. */
  predicate Consistent(r: CostResults) {
    && 0 <= r.activeSlots <= SlotsPerWeek
    && 0 <= r.maxInstances
    && r.activeSlots <= r.totalActiveInstanceHours <= r.activeSlots * r.maxInstances
    && r.avgInstancesPerHour == r.totalActiveInstanceHours as real / 168.0
    && (r.activeSlots == 0 ==> r.avgActiveInstancesPerActiveHour == 0.0)
    && (r.activeSlots > 0 ==> r.avgActiveInstancesPerActiveHour * r.activeSlots as real == r.totalActiveInstanceHours as real)
    && r.efficiencyPercentage == r.activeSlots as real * 100.0 / 168.0
    && 0.0 <= r.efficiencyPercentage <= 100.0
  }

  /** The hourly price of one resource of one instance: the amount of the resource times
      its per-hour price times the region multiplier, in the source's order of factors. */
  function HourlyPrice(amount: real, pricePerHour: real, multiplier: real): real {
    amount * pricePerHour * multiplier
  }

  /** `calculateCosts`: the single-app cost of a dense schedule for tier `combination`, with
      the per-hour vCPU and GiB prices given and the region multiplier looked up. */
  function CalculateCosts(
    g: Grid, combination: int, vcpuPerHour: real, memoryPerGbPerHour: real,
    regions: map<string, real>, region: string): (r: CostResults)
    requires IsGrid(g) && Pricing.ValidCombinationIndex(combination)
    ensures Projected(r) && Consistent(r)
    ensures r.totalActiveInstanceHours == GridActiveSum(g)
    ensures r.activeSlots == GridActiveCount(g)
    ensures r.maxInstances == GridMax(g)
    ensures r.vcpu == Pricing.ValidCombinations()[combination].cpu
    ensures r.memory == 2.0 * r.vcpu
    ensures r.vcpuCostPerHour == HourlyPrice(r.vcpu, vcpuPerHour, RegionMultiplier(regions, region))
    ensures r.memoryCostPerHour == HourlyPrice(r.memory, memoryPerGbPerHour, RegionMultiplier(regions, region))
  {
    var combo := Pricing.ValidCombinations()[combination];
    var multiplier := RegionMultiplier(regions, region);
    var vcpuCostPerHour := HourlyPrice(combo.cpu, vcpuPerHour, multiplier);
    var memoryCostPerHour := HourlyPrice(combo.memory, memoryPerGbPerHour, multiplier);
    Summarize(g, combo.cpu, combo.memory, vcpuCostPerHour, memoryCostPerHour)
  }

  /** `maxInstances` is the peak of the week: no cell exceeds it, and unless it is 0 some
      cell holds exactly that many instances. */
  lemma CalculateCostsPeak(
    g: Grid, combination: int, vcpuPerHour: real, memoryPerGbPerHour: real,
    regions: map<string, real>, region: string)
    requires IsGrid(g) && Pricing.ValidCombinationIndex(combination)
    ensures var r := CalculateCosts(g, combination, vcpuPerHour, memoryPerGbPerHour, regions, region);
      (forall d, h {:trigger g[d][h]} :: IsDay(d) && IsHour(h) ==> g[d][h] <= r.maxInstances) &&
      (r.maxInstances == 0 || exists d, h :: IsDay(d) && IsHour(h) && g[d][h] == r.maxInstances)
  {
    var r := CalculateCosts(g, combination, vcpuPerHour, memoryPerGbPerHour, regions, region);
    GridMaxIsPeak(g);
    if r.maxInstances != 0 {
      var d, h :| 0 <= d < |g| && 0 <= h < |g[d]| && g[d][h] == r.maxInstances;
      assert IsDay(d) && IsHour(h);
    }
  }

  /** An idle week (no cell above zero) costs nothing and has no active slot, whatever the
      prices: the zero case divides nothing by zero. */
  lemma IdleWeekCostsNothing(
    g: Grid, combination: int, vcpuPerHour: real, memoryPerGbPerHour: real,
    regions: map<string, real>, region: string)
    requires IsGrid(g) && Pricing.ValidCombinationIndex(combination)
    requires forall d, h :: IsDay(d) && IsHour(h) ==> g[d][h] <= 0
    ensures var r := CalculateCosts(g, combination, vcpuPerHour, memoryPerGbPerHour, regions, region);
      r.weeklyCost == 0.0 && r.monthlyCost == 0.0 && r.yearlyCost == 0.0 &&
      r.activeSlots == 0 && r.efficiencyPercentage == 0.0 && r.avgActiveInstancesPerActiveHour == 0.0 &&
      r.maxInstances == 0
  {
    forall d, h | 0 <= d < |g| && 0 <= h < |g[d]| ensures g[d][h] <= 0 {
      assert IsDay(d) && IsHour(h);
    }
    GridIdle(g);
    GridMaxIsPeak(g);
  }

  lemma MulNonNegative(a: real, b: real)
    requires a >= 0.0 && b >= 0.0
    ensures a * b >= 0.0
  {
  }

  lemma MulMonotoneReal(x: real, y: real, k: real)
    requires x <= y && k >= 0.0
    ensures x * k <= y * k
  {
  }

  lemma HourlyPriceNonNegative(amount: real, pricePerHour: real, multiplier: real)
    requires amount >= 0.0 && pricePerHour >= 0.0 && multiplier >= 0.0
    ensures HourlyPrice(amount, pricePerHour, multiplier) >= 0.0
  {
    MulNonNegative(amount, pricePerHour);
    MulNonNegative(amount * pricePerHour, multiplier);
  }

  /** Raising any cell of the schedule never lowers the weekly, monthly or yearly cost when
      the prices and the multiplier are non-negative. */
  lemma CostsMonotone(
    a: Grid, b: Grid, combination: int, vcpuPerHour: real, memoryPerGbPerHour: real,
    regions: map<string, real>, region: string)
    requires IsGrid(a) && IsGrid(b) && Pricing.ValidCombinationIndex(combination)
    requires vcpuPerHour >= 0.0 && memoryPerGbPerHour >= 0.0 && RegionMultiplier(regions, region) >= 0.0
    requires forall d, h :: IsDay(d) && IsHour(h) ==> a[d][h] <= b[d][h]
    ensures var ra := CalculateCosts(a, combination, vcpuPerHour, memoryPerGbPerHour, regions, region);
      var rb := CalculateCosts(b, combination, vcpuPerHour, memoryPerGbPerHour, regions, region);
      ra.weeklyCost <= rb.weeklyCost && ra.monthlyCost <= rb.monthlyCost && ra.yearlyCost <= rb.yearlyCost
  {
    WeekMonotone(a, b);
    RateNonNegative(a, combination, vcpuPerHour, memoryPerGbPerHour, regions, region);
    ProjectionMonotone(
      CalculateCosts(a, combination, vcpuPerHour, memoryPerGbPerHour, regions, region),
      CalculateCosts(b, combination, vcpuPerHour, memoryPerGbPerHour, regions, region));
  }

  /** Cell-wise below on the week means no more instance-hours. */
  lemma WeekMonotone(a: Grid, b: Grid)
    requires IsGrid(a) && IsGrid(b)
    requires forall d, h :: IsDay(d) && IsHour(h) ==> a[d][h] <= b[d][h]
    ensures GridActiveSum(a) <= GridActiveSum(b)
  {
    forall d, h | 0 <= d < |a| && 0 <= h < |a[d]| ensures a[d][h] <= b[d][h] {
      assert IsDay(d) && IsHour(h);
    }
    GridMonotone(a, b);
  }

  /** Non-negative prices and multiplier make a non-negative hourly price of one instance. */
  lemma RateNonNegative(
    g: Grid, combination: int, vcpuPerHour: real, memoryPerGbPerHour: real,
    regions: map<string, real>, region: string)
    requires IsGrid(g) && Pricing.ValidCombinationIndex(combination)
    requires vcpuPerHour >= 0.0 && memoryPerGbPerHour >= 0.0 && RegionMultiplier(regions, region) >= 0.0
    ensures CalculateCosts(g, combination, vcpuPerHour, memoryPerGbPerHour, regions, region).totalCostPerInstancePerHour >= 0.0
  {
    var r := CalculateCosts(g, combination, vcpuPerHour, memoryPerGbPerHour, regions, region);
    var m := RegionMultiplier(regions, region);
    HourlyPriceNonNegative(r.vcpu, vcpuPerHour, m);
    HourlyPriceNonNegative(r.memory, memoryPerGbPerHour, m);
  }

  /** Two projections at the same non-negative hourly price: fewer instance-hours never cost
      more in any period. */
  lemma ProjectionMonotone(ra: CostResults, rb: CostResults)
    requires Projected(ra) && Projected(rb)
    requires ra.totalCostPerInstancePerHour == rb.totalCostPerInstancePerHour >= 0.0
    requires ra.totalActiveInstanceHours <= rb.totalActiveInstanceHours
    ensures ra.weeklyCost <= rb.weeklyCost && ra.monthlyCost <= rb.monthlyCost && ra.yearlyCost <= rb.yearlyCost
  {
    WeeklyCostMonotone(ra.totalActiveInstanceHours, rb.totalActiveInstanceHours, ra.totalCostPerInstancePerHour);
  }

  /** Changing one cell changes the weekly cost by the change in that cell's active
      instances times the hourly price of one instance. */
  lemma UpdateCostDelta(
    g: Grid, day: int, hour: int, v: int, combination: int, vcpuPerHour: real, memoryPerGbPerHour: real,
    regions: map<string, real>, region: string)
    requires IsGrid(g) && IsDay(day) && IsHour(hour) && Pricing.ValidCombinationIndex(combination)
    ensures var before := CalculateCosts(g, combination, vcpuPerHour, memoryPerGbPerHour, regions, region);
      var after := CalculateCosts(UpdateSchedule(g, day, hour, v), combination, vcpuPerHour, memoryPerGbPerHour, regions, region);
      after.weeklyCost + WeeklyCost(Positive(g[day][hour]), before.totalCostPerInstancePerHour) ==
      before.weeklyCost + WeeklyCost(Positive(v), before.totalCostPerInstancePerHour)
  {
    var before := CalculateCosts(g, combination, vcpuPerHour, memoryPerGbPerHour, regions, region);
    var after := CalculateCosts(UpdateSchedule(g, day, hour, v), combination, vcpuPerHour, memoryPerGbPerHour, regions, region);
    UpdateInstanceHours(g, day, hour, v, combination, vcpuPerHour, memoryPerGbPerHour, regions, region);
    WeeklyShift(before, after, Positive(g[day][hour]), Positive(v));
  }

  /** Changing one cell leaves the hourly price alone and moves the instance-hours by the
      change in that cell's active instances. */
  lemma UpdateInstanceHours(
    g: Grid, day: int, hour: int, v: int, combination: int, vcpuPerHour: real, memoryPerGbPerHour: real,
    regions: map<string, real>, region: string)
    requires IsGrid(g) && IsDay(day) && IsHour(hour) && Pricing.ValidCombinationIndex(combination)
    ensures var before := CalculateCosts(g, combination, vcpuPerHour, memoryPerGbPerHour, regions, region);
      var after := CalculateCosts(UpdateSchedule(g, day, hour, v), combination, vcpuPerHour, memoryPerGbPerHour, regions, region);
      after.totalActiveInstanceHours == before.totalActiveInstanceHours - Positive(g[day][hour]) + Positive(v) &&
      after.totalCostPerInstancePerHour == before.totalCostPerInstancePerHour
  {
    UpdateScheduleStats(g, day, hour, v);
  }

  /** Two projections at the same hourly price, where removing `p` instance-hours from the
      first and adding `q` gives the second, differ in weekly cost accordingly. */
  lemma WeeklyShift(before: CostResults, after: CostResults, p: nat, q: nat)
    requires Projected(before) && Projected(after)
    requires after.totalCostPerInstancePerHour == before.totalCostPerInstancePerHour
    requires after.totalActiveInstanceHours == before.totalActiveInstanceHours - p + q
    ensures after.weeklyCost + WeeklyCost(p, before.totalCostPerInstancePerHour) ==
            before.weeklyCost + WeeklyCost(q, before.totalCostPerInstancePerHour)
  {
    var rate := before.totalCostPerInstancePerHour;
    WeeklyCostAdditive(after.totalActiveInstanceHours, p, rate);
    WeeklyCostAdditive(before.totalActiveInstanceHours, q, rate);
  }

  /** One instance around the clock on Monday and nothing on the other days. */
  function MondayGrid(): (g: Grid)
    ensures IsGrid(g)
  {
    FillBlock(EmptyGrid(), 0, 1, 0, 24, 1)
  }

  lemma MondayGridTallies()
    ensures GridActiveSum(MondayGrid()) == 24 && GridActiveCount(MondayGrid()) == 24
  {
    var g := MondayGrid();
    forall i | 0 <= i < |g[0]| ensures g[0][i] == 1 {
      assert IsHour(i);
    }
    UniformRow(g[0], 1);
    forall d, h | 1 <= d < |g| && 0 <= h < |g[d]| ensures g[d][h] <= 0 {
      assert IsDay(d) && IsHour(h);
    }
    ZeroRowsAfter(g, 1);
    assert g[..1] == [g[0]];
    assert GridActiveSum([g[0]]) == GridActiveSum([]) + RowActiveSum(g[0]);
    assert GridActiveCount([g[0]]) == GridActiveCount([]) + RowActiveCount(g[0]);
  }

  lemma MondayGridPeak()
    ensures GridMax(MondayGrid()) == 1
  {
    var g := MondayGrid();
    GridMaxIsPeak(g);
    forall d, h | 0 <= d < |g| && 0 <= h < |g[d]| ensures g[d][h] <= 1 {
      assert IsDay(d) && IsHour(h);
    }
    assert IsDay(0) && IsHour(0);
    assert g[0][0] == 1;
  }

  /** A worked example: tier 1 vCPU / 2 GiB at 0.0000301 per vCPU-second and
      0.0000036 per GiB-second, multiplier 1.0, one instance around the clock on Monday only:
      24 instance-hours at 0.13428 per hour, 3.22272 a week. */
  lemma MondayAroundTheClockExample()
    ensures var r := CalculateCosts(MondayGrid(), 3, 0.0000301 * 3600.0, 0.0000036 * 3600.0, map[], "westeurope");
      r.totalActiveInstanceHours == 24 && r.activeSlots == 24 && r.maxInstances == 1 &&
      r.totalCostPerInstancePerHour == 0.13428 && r.weeklyCost == 3.22272
  {
    MondayGridTallies();
    MondayGridPeak();
    MondayRates(MondayGrid());
    WeeklyAtRate(CalculateCosts(MondayGrid(), 3, 0.0000301 * 3600.0, 0.0000036 * 3600.0, map[], "westeurope"));
  }

  /** Tier 1 vCPU / 2 GiB at the example's prices, multiplier 1.0, whatever the schedule. */
  lemma MondayRates(g: Grid)
    requires IsGrid(g)
    ensures var r := CalculateCosts(g, 3, 0.0000301 * 3600.0, 0.0000036 * 3600.0, map[], "westeurope");
      r.vcpuCostPerHour == 0.10836 && r.memoryCostPerHour == 0.02592
  {
  }

  /** The worked example's arithmetic: 24 instance-hours at 0.10836 + 0.02592 per hour. */
  lemma WeeklyAtRate(r: CostResults)
    requires Projected(r) && r.totalActiveInstanceHours == 24
    requires r.vcpuCostPerHour == 0.10836 && r.memoryCostPerHour == 0.02592
    ensures r.totalCostPerInstancePerHour == 0.13428 && r.weeklyCost == 3.22272
  {
    WeeklyCostIsProduct(24, 0.13428);
  }

  /** Rows from `k` on that are idle add nothing to the instance-hours or the active slots. */
  lemma {:induction false} ZeroRowsAfter(g: Grid, k: nat)
    requires k <= |g|
    requires forall d, h :: k <= d < |g| && 0 <= h < |g[d]| ==> g[d][h] <= 0
    ensures GridActiveSum(g) == GridActiveSum(g[..k])
    ensures GridActiveCount(g) == GridActiveCount(g[..k])
  {
    if |g| > k {
      var last := g[|g| - 1];
      RowIdle(last);
      assert RowActiveSum(last) == 0 && RowActiveCount(last) == 0;
      assert g[..|g| - 1][..k] == g[..k];
      ZeroRowsAfter(g[..|g| - 1], k);
    } else {
      assert g[..k] == g;
    }
  }

  // ---------------------------------------------------------------------------
  // The per-app variant with the free grant

  /** `x || 1` on a number: zero reads as 1. */
  function OrOne(x: real): (r: real)
    ensures r != 0.0
    ensures x != 0.0 ==> r == x
  {
    if x == 0.0 then 1.0 else x
  }

  /** Monthly usage of one resource in seconds: the week's instance-hours of that resource
      in seconds, times 4.33 weeks. `MonthlySecondsIsProduct` shows it is the source's
      `totalActiveInstanceHours * 4.33 * amount * 3600`. */
  function MonthlySeconds(instanceHours: nat, amount: real): real {
    WeeklyCost(instanceHours, amount * 3600.0) * WeeksPerMonth
  }

  lemma MonthlySecondsIsProduct(instanceHours: nat, amount: real)
    ensures MonthlySeconds(instanceHours, amount) == instanceHours as real * WeeksPerMonth * amount * 3600.0
  {
    WeeklyCostIsProduct(instanceHours, amount * 3600.0);
  }

  /** A non-negative price never makes a negative cost, and a positive one over at least
      one instance-hour makes a positive cost. */
  lemma {:induction false} WeeklyCostSign(instanceHours: nat, hourlyPrice: real)
    requires hourlyPrice >= 0.0
    ensures WeeklyCost(instanceHours, hourlyPrice) >= 0.0
    ensures instanceHours > 0 && hourlyPrice > 0.0 ==> WeeklyCost(instanceHours, hourlyPrice) > 0.0
  {
    if instanceHours > 0 {
      WeeklyCostSign(instanceHours - 1, hourlyPrice);
    }
  }

  /** The same instance-hours at a lower non-negative price cost no more. */
  lemma {:induction false} WeeklyCostPriceMonotone(instanceHours: nat, low: real, high: real)
    requires low <= high
    ensures WeeklyCost(instanceHours, low) <= WeeklyCost(instanceHours, high)
  {
    if instanceHours > 0 {
      WeeklyCostPriceMonotone(instanceHours - 1, low, high);
    }
  }

  /** The seconds left to pay for after the free grant, if the grant is on. */
  function Billable(monthly: real, allowance: real, freeTierEnabled: bool): (r: real)
    requires monthly >= 0.0 && allowance >= 0.0
    ensures 0.0 <= r <= monthly
    ensures !freeTierEnabled ==> r == monthly
    ensures freeTierEnabled && monthly <= allowance ==> r == 0.0
    ensures freeTierEnabled && monthly > allowance ==> r + allowance == monthly
  {
    if freeTierEnabled then (if monthly - allowance > 0.0 then monthly - allowance else 0.0) else monthly
  }

  /** The billable share of one resource: billable seconds over `monthly || 1`. */
  function BillableShare(billable: real, monthly: real): (r: real)
    requires 0.0 <= billable <= monthly
    ensures 0.0 <= r <= 1.0
    ensures monthly > 0.0 && billable == monthly ==> r == 1.0
    ensures billable == 0.0 ==> r == 0.0
    ensures monthly > 0.0 ==> r * monthly == billable
  {
    billable / OrOne(monthly)
  }

  /** The hourly price of one resource of one instance under the free grant: the plain
      hourly price scaled by the resource's billable share of the month. */
  function FreeTierHourlyPrice(
    instanceHours: nat, amount: real, pricePerHour: real, multiplier: real,
    allowance: real, freeTierEnabled: bool): (r: real)
    requires amount > 0.0 && allowance >= 0.0
    ensures !freeTierEnabled && instanceHours > 0 ==> r == HourlyPrice(amount, pricePerHour, multiplier)
    ensures instanceHours == 0 ==> r == 0.0
    ensures freeTierEnabled && MonthlySeconds(instanceHours, amount) <= allowance ==> r == 0.0
    ensures freeTierEnabled && MonthlySeconds(instanceHours, amount) > allowance ==>
      PaysBeyondGrant(r, MonthlySeconds(instanceHours, amount), allowance, HourlyPrice(amount, pricePerHour, multiplier))
  {
    WeeklyCostSign(instanceHours, amount * 3600.0);
    var monthly := MonthlySeconds(instanceHours, amount);
    var billable := Billable(monthly, allowance, freeTierEnabled);
    var share := BillableShare(billable, monthly);
    ScaledPrice(share, monthly, amount, pricePerHour, multiplier);
    HourlyPrice(share * amount, pricePerHour, multiplier)
  }

  /** Above the grant, a resource's hourly price over the month's seconds equals the plain
      hourly price over the seconds beyond the grant. */
  predicate PaysBeyondGrant(price: real, monthly: real, allowance: real, plainPrice: real) {
    price * monthly == (monthly - allowance) * plainPrice
  }

  /** Scaling the amount by a share scales the hourly price by it: priced over the whole
      month, the scaled price is the share's part of the month at the plain price. */
  lemma ScaledPrice(share: real, monthly: real, amount: real, price: real, multiplier: real)
    ensures HourlyPrice(share * amount, price, multiplier) * monthly ==
            (share * monthly) * HourlyPrice(amount, price, multiplier)
  {
  }

  /** Turning the grant on never raises the hourly price of a resource, for non-negative
      prices and multiplier. */
  lemma FreeTierPriceBelow(
    instanceHours: nat, amount: real, pricePerHour: real, multiplier: real, allowance: real)
    requires amount > 0.0 && allowance >= 0.0 && pricePerHour >= 0.0 && multiplier >= 0.0
    ensures FreeTierHourlyPrice(instanceHours, amount, pricePerHour, multiplier, allowance, true) <=
            FreeTierHourlyPrice(instanceHours, amount, pricePerHour, multiplier, allowance, false)
  {
    WeeklyCostSign(instanceHours, amount * 3600.0);
    var monthly := MonthlySeconds(instanceHours, amount);
    ShareScaledBelow(Billable(monthly, allowance, true), monthly, amount, pricePerHour, multiplier);
  }

  /** A smaller billable share gives a smaller hourly price component. */
  lemma ShareScaledBelow(billable: real, monthly: real, amount: real, price: real, multiplier: real)
    requires 0.0 <= billable <= monthly
    requires amount >= 0.0 && price >= 0.0 && multiplier >= 0.0
    ensures HourlyPrice(BillableShare(billable, monthly) * amount, price, multiplier) <=
            HourlyPrice(BillableShare(monthly, monthly) * amount, price, multiplier)
  {
    var k := amount * price * multiplier;
    MulNonNegative(amount, price);
    MulNonNegative(amount * price, multiplier);
    assert BillableShare(billable, monthly) <= BillableShare(monthly, monthly) by {
      DivMonotone(billable, monthly, OrOne(monthly));
    }
    MulMonotoneReal(BillableShare(billable, monthly), BillableShare(monthly, monthly), k);
    assert HourlyPrice(BillableShare(billable, monthly) * amount, price, multiplier) == BillableShare(billable, monthly) * k;
    assert HourlyPrice(BillableShare(monthly, monthly) * amount, price, multiplier) == BillableShare(monthly, monthly) * k;
  }

  lemma DivMonotone(a: real, b: real, c: real)
    requires a <= b && c > 0.0
    ensures a / c <= b / c
  {
  }

  /** `calculateAppCosts(app, region, vcpuPricePerHour, memoryPricePerHour, regionMultiplier,
      freeTierEnabled)`: the stored schedule is read with missing cells as 0; each resource's
      hourly price is scaled by its billable share of the month. */
  function CalculateAppCosts(
    schedule: SparseSchedule, combination: int, vcpuPricePerHour: real, memoryPricePerHour: real,
    regionMultiplier: real, freeTierEnabled: bool): (r: CostResults)
    requires Pricing.ValidCombinationIndex(combination)
    ensures Projected(r) && Consistent(r)
    ensures r.totalActiveInstanceHours == GridActiveSum(Normalize(schedule))
    ensures r.activeSlots == GridActiveCount(Normalize(schedule))
    ensures r.maxInstances == GridMax(Normalize(schedule))
    ensures r.vcpu == Pricing.ValidCombinations()[combination].cpu && r.memory == 2.0 * r.vcpu
    ensures !freeTierEnabled && r.totalActiveInstanceHours > 0 ==>
      r.vcpuCostPerHour == HourlyPrice(r.vcpu, vcpuPricePerHour, regionMultiplier) &&
      r.memoryCostPerHour == HourlyPrice(r.memory, memoryPricePerHour, regionMultiplier)
    ensures r.totalActiveInstanceHours == 0 ==>
      r.vcpuCostPerHour == 0.0 && r.memoryCostPerHour == 0.0 && r.totalCostPerInstancePerHour == 0.0
    ensures r.totalActiveInstanceHours == 0 ==>
      r.weeklyCost == 0.0 && r.monthlyCost == 0.0 && r.yearlyCost == 0.0
    ensures freeTierEnabled && MonthlySeconds(r.totalActiveInstanceHours, r.vcpu) <= FreeVcpuSeconds ==>
      r.vcpuCostPerHour == 0.0
    ensures freeTierEnabled && MonthlySeconds(r.totalActiveInstanceHours, r.memory) <= FreeMemoryGibSeconds ==>
      r.memoryCostPerHour == 0.0
    ensures freeTierEnabled && MonthlySeconds(r.totalActiveInstanceHours, r.vcpu) > FreeVcpuSeconds ==>
      PaysBeyondGrant(r.vcpuCostPerHour, MonthlySeconds(r.totalActiveInstanceHours, r.vcpu), FreeVcpuSeconds,
                      HourlyPrice(r.vcpu, vcpuPricePerHour, regionMultiplier))
    ensures freeTierEnabled && MonthlySeconds(r.totalActiveInstanceHours, r.memory) > FreeMemoryGibSeconds ==>
      PaysBeyondGrant(r.memoryCostPerHour, MonthlySeconds(r.totalActiveInstanceHours, r.memory), FreeMemoryGibSeconds,
                      HourlyPrice(r.memory, memoryPricePerHour, regionMultiplier))
  {
    var combo := Pricing.ValidCombinations()[combination];
    var g := Normalize(schedule);
    var total := GridActiveSum(g);
    Summarize(g, combo.cpu, combo.memory,
      FreeTierHourlyPrice(total, combo.cpu, vcpuPricePerHour, regionMultiplier, FreeVcpuSeconds, freeTierEnabled),
      FreeTierHourlyPrice(total, combo.memory, memoryPricePerHour, regionMultiplier, FreeMemoryGibSeconds, freeTierEnabled))
  }

  /** Turning the free grant on never raises the weekly, monthly or yearly cost, for
      non-negative prices and multiplier. */
  lemma FreeTierNeverIncreases(
    schedule: SparseSchedule, combination: int, vcpuPricePerHour: real, memoryPricePerHour: real,
    regionMultiplier: real)
    requires Pricing.ValidCombinationIndex(combination)
    requires vcpuPricePerHour >= 0.0 && memoryPricePerHour >= 0.0 && regionMultiplier >= 0.0
    ensures var free := CalculateAppCosts(schedule, combination, vcpuPricePerHour, memoryPricePerHour, regionMultiplier, true);
      var paid := CalculateAppCosts(schedule, combination, vcpuPricePerHour, memoryPricePerHour, regionMultiplier, false);
      free.weeklyCost <= paid.weeklyCost && free.monthlyCost <= paid.monthlyCost && free.yearlyCost <= paid.yearlyCost
  {
    var free := CalculateAppCosts(schedule, combination, vcpuPricePerHour, memoryPricePerHour, regionMultiplier, true);
    var paid := CalculateAppCosts(schedule, combination, vcpuPricePerHour, memoryPricePerHour, regionMultiplier, false);
    var combo := Pricing.ValidCombinations()[combination];
    var total := GridActiveSum(Normalize(schedule));
    FreeTierPriceBelow(total, combo.cpu, vcpuPricePerHour, regionMultiplier, FreeVcpuSeconds);
    FreeTierPriceBelow(total, combo.memory, memoryPricePerHour, regionMultiplier, FreeMemoryGibSeconds);
    WeeklyCostPriceMonotone(total, free.totalCostPerInstancePerHour, paid.totalCostPerInstancePerHour);
  }

  /** `maxInstances` is the peak of the stored schedule, missing cells read as 0. */
  lemma CalculateAppCostsPeak(
    schedule: SparseSchedule, combination: int, vcpuPricePerHour: real, memoryPricePerHour: real,
    regionMultiplier: real, freeTierEnabled: bool)
    requires Pricing.ValidCombinationIndex(combination)
    ensures var r := CalculateAppCosts(schedule, combination, vcpuPricePerHour, memoryPricePerHour, regionMultiplier, freeTierEnabled);
      (forall d, h :: IsDay(d) && IsHour(h) ==> CellOrZero(schedule, d, h) <= r.maxInstances) &&
      (r.maxInstances == 0 || exists d, h :: IsDay(d) && IsHour(h) && CellOrZero(schedule, d, h) == r.maxInstances)
  {
    var g := Normalize(schedule);
    var r := CalculateAppCosts(schedule, combination, vcpuPricePerHour, memoryPricePerHour, regionMultiplier, freeTierEnabled);
    GridMaxIsPeak(g);
    forall d, h | IsDay(d) && IsHour(h) ensures CellOrZero(schedule, d, h) <= r.maxInstances {
      assert g[d][h] == CellOrZero(schedule, d, h);
    }
    if r.maxInstances != 0 {
      var d, h :| 0 <= d < |g| && 0 <= h < |g[d]| && g[d][h] == r.maxInstances;
      assert IsDay(d) && IsHour(h) && g[d][h] == CellOrZero(schedule, d, h);
    }
  }

  /** The free-tier test's worked schedule: Monday 9:00 three instances, Tuesday 14:00 one,
      Thursday 20:00 two, Sunday 6:00 one, all other cells absent. */
  function ComplexSchedule(): SparseSchedule {
    map[0 := map[9 := 3], 1 := map[14 := 1], 3 := map[20 := 2], 6 := map[6 := 1]]
  }

  /** The worked schedule entered cell by cell into an empty week: Monday 9:00 first. */
  function ComplexGrid1(): (g: Grid)
    ensures IsGrid(g)
  {
    UpdateSchedule(EmptyGrid(), 0, 9, 3)
  }

  function ComplexGrid2(): (g: Grid)
    ensures IsGrid(g)
  {
    UpdateSchedule(ComplexGrid1(), 1, 14, 1)
  }

  function ComplexGrid3(): (g: Grid)
    ensures IsGrid(g)
  {
    UpdateSchedule(ComplexGrid2(), 3, 20, 2)
  }

  function ComplexGrid(): (g: Grid)
    ensures IsGrid(g)
  {
    UpdateSchedule(ComplexGrid3(), 6, 6, 1)
  }

  /** Reading the stored worked schedule gives the grid entered cell by cell. */
  lemma ComplexScheduleGrid()
    ensures Normalize(ComplexSchedule()) == ComplexGrid()
  {
    var g := Normalize(ComplexSchedule());
    var e := ComplexGrid();
    forall d, h | IsDay(d) && IsHour(h) ensures g[d][h] == e[d][h] {
    }
    GridExtensionality(g, e);
  }

  /** An empty week has no instance-hours and no active slot. */
  lemma EmptyGridTallies()
    ensures GridActiveSum(EmptyGrid()) == 0 && GridActiveCount(EmptyGrid()) == 0
  {
    var g := EmptyGrid();
    forall d, h | 0 <= d < |g| && 0 <= h < |g[d]| ensures g[d][h] <= 0 {
      assert IsDay(d) && IsHour(h);
    }
    GridIdle(g);
  }

  /** Entering a positive count into an empty cell adds that many instance-hours and one
      active slot. */
  lemma EnterCell(g: Grid, day: int, hour: int, v: int, sum: int, count: int)
    requires IsGrid(g) && IsDay(day) && IsHour(hour) && g[day][hour] == 0 && v > 0
    requires GridActiveSum(g) == sum && GridActiveCount(g) == count
    ensures GridActiveSum(UpdateSchedule(g, day, hour, v)) == sum + v
    ensures GridActiveCount(UpdateSchedule(g, day, hour, v)) == count + 1
  {
    UpdateScheduleStats(g, day, hour, v);
  }

  lemma ComplexGrid1Tallies()
    ensures GridActiveSum(ComplexGrid1()) == 3 && GridActiveCount(ComplexGrid1()) == 1
  {
    EmptyGridTallies();
    EnterCell(EmptyGrid(), 0, 9, 3, 0, 0);
  }

  lemma ComplexGrid2Tallies()
    ensures GridActiveSum(ComplexGrid2()) == 4 && GridActiveCount(ComplexGrid2()) == 2
  {
    ComplexGrid1Tallies();
    EnterCell(ComplexGrid1(), 1, 14, 1, 3, 1);
  }

  lemma ComplexGrid3Tallies()
    ensures GridActiveSum(ComplexGrid3()) == 6 && GridActiveCount(ComplexGrid3()) == 3
  {
    ComplexGrid2Tallies();
    EnterCell(ComplexGrid2(), 3, 20, 2, 4, 2);
  }

  /** Each entered cell adds its instances and one active slot. */
  lemma ComplexGridTallies()
    ensures GridActiveSum(ComplexGrid()) == 7
    ensures GridActiveCount(ComplexGrid()) == 4
  {
    ComplexGrid3Tallies();
    EnterCell(ComplexGrid3(), 6, 6, 1, 6, 3);
  }

  /** The peak of the worked schedule is Monday 9:00 with three instances. */
  lemma ComplexGridPeak()
    ensures GridMax(ComplexGrid()) == 3
  {
    var g := ComplexGrid();
    GridMaxIsPeak(g);
    assert g[0][9] == 3;
    forall d, h | 0 <= d < |g| && 0 <= h < |g[d]| ensures g[d][h] <= 3 {
      assert IsDay(d) && IsHour(h);
    }
  }

  /** The worked schedule reads as seven instance-hours in four slots with a peak of three. */
  lemma ComplexScheduleStats()
    ensures GridActiveSum(Normalize(ComplexSchedule())) == 7
    ensures GridActiveCount(Normalize(ComplexSchedule())) == 4
    ensures GridMax(Normalize(ComplexSchedule())) == 3
  {
    ComplexScheduleGrid();
    ComplexGridTallies();
    ComplexGridPeak();
  }

  /** The test's expectations on the worked schedule, with the grant on and any prices. */
  lemma ComplexScheduleExample(vcpuPricePerHour: real, memoryPricePerHour: real, regionMultiplier: real)
    ensures var r := CalculateAppCosts(ComplexSchedule(), 3, vcpuPricePerHour, memoryPricePerHour, regionMultiplier, true);
      r.totalActiveInstanceHours == 7 && r.maxInstances == 3 && r.activeSlots == 4
  {
    ComplexScheduleStats();
  }
}

=== FILE: csv.dfy ===
/** The CSV export of an estimate: `generateCSVContent` and the row, quoting and filename
    logic of `exportToCSV` (`src/lib/utils.ts`). Rendering numbers as text (`toString`,
    `toFixed(4)`) is a parameter; the download itself is not modelled. */
module Csv {
  import opened Text
  import opened Stats
  import opened Wrappers
  import Costs
  import opened Schedule

  /** The header line: the column names separated by commas. */
  const Header: string := Join(HeaderFields(), ',')

  /** The file name used when the estimate has no name. */
  const DefaultStem: string := "azure-container-apps-cost-estimate"

  /** One app as the export receives it; the schedule may have any shape. */
  datatype AppData = AppData(name: string, cpu: real, memory: real, region: string, schedule: seq<seq<int>>)

  datatype PricingData = PricingData(vcpuPerSecond: real, memoryPerGibPerSecond: real, currency: string)

  /** How numbers become text: `x.toString()` and `x.toFixed(4)`. */
  datatype Formatter = Formatter(show: real -> string, fixed4: real -> string)

  /** The numbers of one row. */
  datatype Amounts = Amounts(totalHours: nat, cpuCost: real, memoryCost: real, totalCost: real)

  /** The per-hour price of one resource: amount times per-second price times 3600. */
  function PerHour(amount: real, perSecond: real): real {
    Costs.HourlyPrice(amount, perSecond, 3600.0)
  }

  /** The row's numbers as the export computes them: `totalHours` counts the cells with at
      least one instance, and each cost is that count times the resource's per-hour price. */
  function RowAmounts(app: AppData, pricing: PricingData): (r: Amounts)
    ensures r.totalHours == GridActiveCount(app.schedule)
    ensures r.totalCost == r.cpuCost + r.memoryCost
  {
    var totalHours := GridActiveCount(app.schedule);
    var totalCpuCost := Costs.WeeklyCost(totalHours, PerHour(app.cpu, pricing.vcpuPerSecond));
    var totalMemoryCost := Costs.WeeklyCost(totalHours, PerHour(app.memory, pricing.memoryPerGibPerSecond));
    Amounts(totalHours, totalCpuCost, totalMemoryCost, totalCpuCost + totalMemoryCost)
  }

  /** Each resource's cost in a row is the number of active slots times its per-hour price. */
  lemma RowCostsAreSlotsTimesPrice(app: AppData, pricing: PricingData)
    ensures var r := RowAmounts(app, pricing);
      && r.cpuCost == r.totalHours as real * PerHour(app.cpu, pricing.vcpuPerSecond)
      && r.memoryCost == r.totalHours as real * PerHour(app.memory, pricing.memoryPerGibPerSecond)
  {
    var totalHours := GridActiveCount(app.schedule);
    Costs.WeeklyCostIsProduct(totalHours, PerHour(app.cpu, pricing.vcpuPerSecond));
    Costs.WeeklyCostIsProduct(totalHours, PerHour(app.memory, pricing.memoryPerGibPerSecond));
  }

  /** The row's numbers as the column "Total Hours" and the calculator mean them: hours are
      instance-hours, so a slot running three instances counts three times. */
  function RowAmountsIntended(app: AppData, pricing: PricingData): (r: Amounts)
    ensures r.totalHours == GridActiveSum(app.schedule)
    ensures r.totalCost == r.cpuCost + r.memoryCost
  {
    var totalHours := GridActiveSum(app.schedule);
    var totalCpuCost := Costs.WeeklyCost(totalHours, PerHour(app.cpu, pricing.vcpuPerSecond));
    var totalMemoryCost := Costs.WeeklyCost(totalHours, PerHour(app.memory, pricing.memoryPerGibPerSecond));
    Amounts(totalHours, totalCpuCost, totalMemoryCost, totalCpuCost + totalMemoryCost)
  }

  /** On a dense schedule the corrected total is the weekly cost the calculator reports for
      the same per-hour prices. */
  lemma IntendedTotalIsWeeklyCost(app: AppData, pricing: PricingData)
    requires IsGrid(app.schedule)
    ensures var cpuPerHour := PerHour(app.cpu, pricing.vcpuPerSecond);
      var memoryPerHour := PerHour(app.memory, pricing.memoryPerGibPerSecond);
      RowAmountsIntended(app, pricing).totalCost ==
        Costs.Summarize(app.schedule, app.cpu, app.memory, cpuPerHour, memoryPerHour).weeklyCost
  {
    Costs.WeeklyCostSplitsPrice(GridActiveSum(app.schedule),
      PerHour(app.cpu, pricing.vcpuPerSecond), PerHour(app.memory, pricing.memoryPerGibPerSecond));
  }

  /** The export as written bills a slot of three instances as one hour: one vCPU and 2 GiB at
      one unit per second cost 10800 for that slot instead of 32400. */
  lemma SlotCountIgnoresInstances()
    ensures var app := AppData("api", 1.0, 2.0, "westeurope", [[3]]);
      var pricing := PricingData(1.0, 1.0, "USD");
      && RowAmounts(app, pricing).totalHours == 1
      && RowAmounts(app, pricing).totalCost == 10800.0
      && RowAmountsIntended(app, pricing).totalHours == 3
      && RowAmountsIntended(app, pricing).totalCost == 32400.0
  {
    var app := AppData("api", 1.0, 2.0, "westeurope", [[3]]);
    var pricing := PricingData(1.0, 1.0, "USD");
    assert GridActiveCount(app.schedule) == 1;
    assert GridActiveSum(app.schedule) == 3;
    Costs.WeeklyCostIsProduct(3, PerHour(1.0, 1.0));
    Costs.WeeklyCostIsProduct(3, PerHour(2.0, 1.0));
  }

  /** A name with a comma is wrapped in double quotes; any other name is written as it is. */
  function EscapeName(name: string): string {
    if ',' in name then ['"'] + name + ['"'] else name
  }

  /** The nine fields of an app's row, in the order of the header. */
  function RowFields(app: AppData, pricing: PricingData, fmt: Formatter): (r: seq<string>)
    ensures |r| == |HeaderFields()|
  {
    var a := RowAmounts(app, pricing);
    [ EscapeName(app.name), fmt.show(app.cpu), fmt.show(app.memory), app.region, pricing.currency,
      NatToString(a.totalHours), fmt.fixed4(a.cpuCost), fmt.fixed4(a.memoryCost), fmt.fixed4(a.totalCost) ]
  }

  function Row(app: AppData, pricing: PricingData, fmt: Formatter): string {
    Join(RowFields(app, pricing, fmt), ',')
  }

  /** `apps.map(...)`: one row per app, in order. */
  function Rows(apps: seq<AppData>, pricing: PricingData, fmt: Formatter): (r: seq<string>)
    ensures |r| == |apps|
    ensures forall i :: 0 <= i < |apps| ==> r[i] == Row(apps[i], pricing, fmt)
  {
    if |apps| == 0 then [] else [Row(apps[0], pricing, fmt)] + Rows(apps[1..], pricing, fmt)
  }

  /** `generateCSVContent`: the header line followed by one line per app. */
  function GenerateCsvContent(apps: seq<AppData>, pricing: PricingData, fmt: Formatter): string {
    Join([Header] + Rows(apps, pricing, fmt), '\n')
  }

  // ---------------------------------------------------------------------------
  // Reading the export back

  /** The header's column names. */
  function HeaderFields(): seq<string> {
    ["App Name", "CPU (vCPU)", "Memory (GiB)", "Region", "Currency", "Total Hours",
     "CPU Cost", "Memory Cost", "Total Cost"]
  }

  lemma LeadingColumnsPlain()
    ensures forall i :: 0 <= i < 3 ==> ',' !in HeaderFields()[i] && '\n' !in HeaderFields()[i]
  {
    var f := HeaderFields();
    assert ',' !in f[0] && '\n' !in f[0];
    assert ',' !in f[1] && '\n' !in f[1];
    assert ',' !in f[2] && '\n' !in f[2];
  }

  lemma MiddleColumnsPlain()
    ensures forall i :: 3 <= i < 6 ==> ',' !in HeaderFields()[i] && '\n' !in HeaderFields()[i]
  {
    var f := HeaderFields();
    assert ',' !in f[3] && '\n' !in f[3];
    assert ',' !in f[4] && '\n' !in f[4];
    assert ',' !in f[5] && '\n' !in f[5];
  }

  lemma TrailingColumnsPlain()
    ensures forall i :: 6 <= i < 9 ==> ',' !in HeaderFields()[i] && '\n' !in HeaderFields()[i]
  {
    var f := HeaderFields();
    assert ',' !in f[6] && '\n' !in f[6];
    assert ',' !in f[7] && '\n' !in f[7];
    assert ',' !in f[8] && '\n' !in f[8];
  }

  /** No column name holds a comma or a line break. */
  lemma HeaderFieldsPlain()
    ensures forall i :: 0 <= i < |HeaderFields()| ==> ',' !in HeaderFields()[i] && '\n' !in HeaderFields()[i]
  {
    LeadingColumnsPlain();
    MiddleColumnsPlain();
    TrailingColumnsPlain();
  }

  /** Reading the header line back at its commas gives the nine column names, and the
      header is a single line. */
  lemma HeaderColumns()
    ensures Split(Header, ',') == HeaderFields()
    ensures '\n' !in Header
  {
    HeaderFieldsPlain();
    SplitJoin(HeaderFields(), ',');
    JoinAvoids(HeaderFields(), ',', '\n');
  }

  /** Where the first `c` of `s` is, or `|s|` when there is none. */
  function IndexOf(s: string, c: char): (k: nat)
    ensures k <= |s|
    ensures forall i :: 0 <= i < k ==> s[i] != c
    ensures k < |s| ==> s[k] == c
  {
    if |s| == 0 then 0 else if s[0] == c then 0 else 1 + IndexOf(s[1..], c)
  }

  /** A reader for the rows written here: a first field wrapped in double quotes keeps its
      commas, and the remaining fields are split at every comma. */
  function ReadRow(line: string): seq<string> {
    if |line| > 0 && line[0] == '"' then
      var body := line[1..];
      var k := IndexOf(body, '"');
      var after := if k < |body| then body[k + 1..] else [];
      if |after| > 0 && after[0] == ',' then [body[..k]] + Split(after[1..], ',') else [body[..k]]
    else
      var k := IndexOf(line, ',');
      if k < |line| then [line[..k]] + Split(line[k + 1..], ',') else [line]
  }

  lemma IndexOfAfter(p: string, c: char, rest: string)
    requires c !in p
    ensures IndexOf(p + [c] + rest, c) == |p|
  {
    var s := p + [c] + rest;
    var k := IndexOf(s, c);
    assert s[|p|] == c;
  }

  /** A name with a comma is quoted, and reads back whole before the remaining fields. */
  lemma QuotedRoundTrip(name: string, tail: string)
    requires '"' !in name && ',' in name
    ensures ReadRow(EscapeName(name) + [','] + tail) == [name] + Split(tail, ',')
  {
    var line := ['"'] + name + ['"'] + [','] + tail;
    assert EscapeName(name) + [','] + tail == line;
    var body := line[1..];
    assert body == name + ['"'] + ([','] + tail);
    IndexOfAfter(name, '"', [','] + tail);
    assert body[..|name|] == name;
    assert body[|name| + 1..] == [','] + tail;
  }

  /** A name without a comma is written as it is, and reads back up to the first comma. */
  lemma PlainRoundTrip(name: string, tail: string)
    requires '"' !in name && ',' !in name
    ensures ReadRow(EscapeName(name) + [','] + tail) == [name] + Split(tail, ',')
  {
    var line := name + [','] + tail;
    assert |name| > 0 ==> line[0] == name[0];
    IndexOfAfter(name, ',', tail);
    assert line[..|name|] == name;
    assert line[|name| + 1..] == tail;
  }

  /** A name followed by comma-free fields reads back as the name and those fields, as long
      as the name holds no double quote. */
  lemma EscapeRoundTrip(name: string, rest: seq<string>)
    requires '"' !in name
    requires |rest| >= 1 && forall i :: 0 <= i < |rest| ==> ',' !in rest[i]
    ensures ReadRow(EscapeName(name) + [','] + Join(rest, ',')) == [name] + rest
  {
    SplitJoin(rest, ',');
    if ',' in name {
      QuotedRoundTrip(name, Join(rest, ','));
    } else {
      PlainRoundTrip(name, Join(rest, ','));
    }
  }

  /** A formatter whose text never contains `c`. */
  ghost predicate Avoids(fmt: Formatter, c: char) {
    (forall x :: c !in fmt.show(x)) && (forall x :: c !in fmt.fixed4(x))
  }

  /** The quoting does not double an inner double quote: the name `a,"b` followed by the
      field `x` is written `"a,"b",x`, which reads back as the single field `a,`. */
  lemma QuoteInQuotedNameCutsRow()
    ensures ReadRow(EscapeName("a,\"b") + ",x") == ["a,"]
  {
    var body := "a,\"b\",x";
    assert EscapeName("a,\"b") + ",x" == ['"'] + body;
    assert body == "a," + ['"'] + "b\",x";
    IndexOfAfter("a,", '"', "b\",x");
    var line := ['"'] + body;
    assert line[0] == '"' && line[1..] == body;
    assert body[3..] == "b\",x" && body[..2] == "a,";
  }

  /** Every row reads back as the app's name followed by its other eight fields, provided the
      name has no double quote and the region, currency and rendered numbers have no comma. */
  lemma RowRoundTrip(app: AppData, pricing: PricingData, fmt: Formatter)
    requires '"' !in app.name && ',' !in app.region && ',' !in pricing.currency
    requires Avoids(fmt, ',')
    ensures ReadRow(Row(app, pricing, fmt)) == [app.name] + RowFields(app, pricing, fmt)[1..]
  {
    var f := RowFields(app, pricing, fmt);
    var rest := f[1..];
    assert ',' !in NatToString(RowAmounts(app, pricing).totalHours) by {
      var s := NatToString(RowAmounts(app, pricing).totalHours);
      assert forall i :: 0 <= i < |s| ==> IsDigit(s[i]);
    }
    assert forall i :: 0 <= i < |rest| ==> ',' !in rest[i];
    assert Join(f, ',') == f[0] + [','] + Join(rest, ',');
    EscapeRoundTrip(app.name, rest);
  }

  /** No line break anywhere in a row, given none in the name, region, currency or rendered numbers. */
  lemma RowHasNoLineBreak(app: AppData, pricing: PricingData, fmt: Formatter)
    requires '\n' !in app.name && '\n' !in app.region && '\n' !in pricing.currency
    requires Avoids(fmt, '\n')
    ensures '\n' !in Row(app, pricing, fmt)
  {
    var f := RowFields(app, pricing, fmt);
    assert '\n' !in NatToString(RowAmounts(app, pricing).totalHours) by {
      var s := NatToString(RowAmounts(app, pricing).totalHours);
      assert forall i :: 0 <= i < |s| ==> IsDigit(s[i]);
    }
    assert forall i :: 0 <= i < |f| ==> '\n' !in f[i];
    JoinAvoids(f, ',', '\n');
  }

  /** Joining pieces free of `c` with a separator other than `c` gives a string free of `c`. */
  lemma {:induction false} JoinAvoids(parts: seq<string>, sep: char, c: char)
    requires sep != c && forall i :: 0 <= i < |parts| ==> c !in parts[i]
    ensures c !in Join(parts, sep)
  {
    if |parts| > 1 {
      JoinAvoids(parts[1..], sep, c);
    }
  }

  lemma RowsHaveNoLineBreak(apps: seq<AppData>, pricing: PricingData, fmt: Formatter)
    requires forall i :: 0 <= i < |apps| ==> '\n' !in apps[i].name && '\n' !in apps[i].region
    requires '\n' !in pricing.currency && Avoids(fmt, '\n')
    ensures forall i :: 0 <= i < |apps| ==> '\n' !in Rows(apps, pricing, fmt)[i]
  {
    forall i | 0 <= i < |apps| ensures '\n' !in Rows(apps, pricing, fmt)[i] {
      RowHasNoLineBreak(apps[i], pricing, fmt);
    }
  }

  /** Lines free of line breaks, joined with line breaks, split back into the same lines. */
  lemma JoinedLines(first: string, rest: seq<string>)
    requires '\n' !in first && forall i :: 0 <= i < |rest| ==> '\n' !in rest[i]
    ensures Split(Join([first] + rest, '\n'), '\n') == [first] + rest
  {
    var all := [first] + rest;
    assert forall i :: 0 <= i < |all| ==> '\n' !in all[i];
    SplitJoin(all, '\n');
  }

  /** The export splits into exactly one line for the header and one per app, in order. */
  lemma ContentLines(apps: seq<AppData>, pricing: PricingData, fmt: Formatter)
    requires forall i :: 0 <= i < |apps| ==> '\n' !in apps[i].name && '\n' !in apps[i].region
    requires '\n' !in pricing.currency && Avoids(fmt, '\n')
    ensures var lines := Split(GenerateCsvContent(apps, pricing, fmt), '\n');
      |lines| == |apps| + 1 && lines[0] == Header &&
      forall i :: 0 <= i < |apps| ==> lines[i + 1] == Row(apps[i], pricing, fmt)
  {
    RowsHaveNoLineBreak(apps, pricing, fmt);
    HeaderColumns();
    JoinedLines(Header, Rows(apps, pricing, fmt));
  }

  /** Without apps the export is the header alone. */
  lemma NoAppsHeaderOnly(pricing: PricingData, fmt: Formatter)
    ensures GenerateCsvContent([], pricing, fmt) == Header
  {
  }

  // ---------------------------------------------------------------------------
  // File name

  predicate IsStemChar(c: char) {
    '0' <= c <= '9' || 'a' <= c <= 'z' || c == '-'
  }

  /** `name.replace(/[^a-z0-9]/gi, '-').toLowerCase()`: letters are lower-cased, digits kept,
      every other character becomes '-'. */
  function Sanitize(name: string): (r: string)
    ensures |r| == |name|
    ensures forall i :: 0 <= i < |r| ==> IsStemChar(r[i])
    ensures forall i :: 0 <= i < |r| ==> (r[i] == '-' <==> !IsAsciiAlnum(name[i]))
    ensures forall i :: 0 <= i < |r| && IsAsciiAlnum(name[i]) ==> r[i] == LowerAscii(name[i])
  {
    seq(|name|, i requires 0 <= i < |name| => if IsAsciiAlnum(name[i]) then LowerAscii(name[i]) else '-')
  }

  /** A sanitised stem is unchanged by sanitising it again. */
  lemma SanitizeIdempotent(name: string)
    ensures Sanitize(Sanitize(name)) == Sanitize(name)
  {
    var once := Sanitize(name);
    forall i | 0 <= i < |once| ensures Sanitize(once)[i] == once[i] {
      if once[i] != '-' {
        assert IsAsciiAlnum(once[i]);
      }
    }
  }

  /** The stem: the sanitised estimate name, or the default stem when the name is absent or empty. */
  function FileStem(estimateName: Option<string>): (r: string)
    ensures forall i :: 0 <= i < |r| ==> IsStemChar(r[i])
    ensures estimateName.None? || estimateName == Some("") ==> r == DefaultStem
    ensures estimateName.Some? && estimateName.value != "" ==> r == Sanitize(estimateName.value)
  {
    if estimateName.Some? && estimateName.value != "" then Sanitize(estimateName.value) else DefaultStem
  }

  /** `${stem}-${date}.csv`, the date being the part of the ISO timestamp before 'T'. */
  function FileName(estimateName: Option<string>, isoTimestamp: string): string {
    FileStem(estimateName) + "-" + Split(isoTimestamp, 'T')[0] + ".csv"
  }

  /** For an ISO timestamp `dateTtime`, the file is named after the stem and the date alone. */
  lemma FileNameTakesDate(estimateName: Option<string>, date: string, time: string)
    requires 'T' !in date
    ensures FileName(estimateName, date + "T" + time) == FileStem(estimateName) + "-" + date + ".csv"
  {
    SplitAfterPiece(date, 'T', time);
  }

  /** `exportToCSV`: the file name and the content it writes, built the way that function
      builds them (header, then `apps.map(...)`, joined by line breaks). */
  function ExportCsv(apps: seq<AppData>, pricing: PricingData, estimateName: Option<string>,
                     isoTimestamp: string, fmt: Formatter): (string, string)
  {
    var rows := seq(|apps|, i requires 0 <= i < |apps| => Row(apps[i], pricing, fmt));
    (FileName(estimateName, isoTimestamp), Join([Header] + rows, '\n'))
  }

  /** The download carries exactly the content `generateCSVContent` returns. */
  lemma ExportMatchesGenerate(apps: seq<AppData>, pricing: PricingData, estimateName: Option<string>,
                              isoTimestamp: string, fmt: Formatter)
    ensures ExportCsv(apps, pricing, estimateName, isoTimestamp, fmt).1 == GenerateCsvContent(apps, pricing, fmt)
  {
    assert seq(|apps|, i requires 0 <= i < |apps| => Row(apps[i], pricing, fmt)) == Rows(apps, pricing, fmt);
  }
}

=== FILE: multiapp.dfy ===
/** The multi-app estimate state of `useMultiApp.ts`: a list of apps, the one being edited,
    the region and the estimate's name, with the pure state transitions the hook hands to
    React. Identifiers and the random draws are parameters; storage is left out. */
module MultiApp {
  import opened Wrappers
  import opened Text
  import opened Schedule
  import Seqs

  /** The palette new apps draw their colour from. */
  function AppColors(): (r: seq<string>)
    ensures |r| == 12
  {
    ["#3B82F6", "#EF4444", "#10B981", "#F59E0B", "#8B5CF6", "#EC4899",
     "#06B6D4", "#84CC16", "#F97316", "#6366F1", "#14B8A6", "#A855F7"]
  }

  const DefaultCombination: int := 3
  const DefaultRegion: string := "westeurope"
  const DefaultEstimateName: string := "Container Apps"
  const FirstAppName: string := "Container App 1"

  /** One app of the estimate; `costResults` is a cache the calculator fills and is left out. */
  datatype App = App(
    id: string, name: string, color: string, selectedCombination: int,
    schedule: SparseSchedule, configSteps: seq<Step>)

  /** The whole estimate. A state built here never sets `freeTierEnabled`, which then reads
      as false. */
  datatype State = State(
    apps: seq<App>, activeAppId: Option<string>, selectedRegion: string,
    estimateName: string, freeTierEnabled: bool)

  /** The ids of the apps, in order. */
  function Ids(apps: seq<App>): (r: seq<string>)
    ensures |r| == |apps| && forall i :: 0 <= i < |apps| ==> r[i] == apps[i].id
  {
    seq(|apps|, i requires 0 <= i < |apps| => apps[i].id)
  }

  /** `prev.apps.map(app => app.color)`. */
  function Colors(apps: seq<App>): (r: seq<string>)
    ensures |r| == |apps| && forall i :: 0 <= i < |apps| ==> r[i] == apps[i].color
  {
    seq(|apps|, i requires 0 <= i < |apps| => apps[i].color)
  }

  // ---------------------------------------------------------------------------
  // Colours

  /** `Math.floor(random * n)` for a draw `0 <= random < 1`: an index below `n`. */
  function PickIndex(random: real, n: nat): (k: nat)
    requires 0.0 <= random < 1.0 && n > 0
    ensures k < n
    ensures k as real <= random * n as real < k as real + 1.0
  {
    var x := random * n as real;
    assert 0.0 <= x < n as real by {
      assert random * n as real < 1.0 * n as real;
    }
    x.Floor
  }

  /** The largest value `Math.floor(Math.random() * 16777215)` can take, plus one. */
  const RandomColourRange: nat := 16777215

  /** A `#` followed by six lower-case hexadecimal digits. */
  predicate IsHexColour(c: string) {
    |c| == 7 && c[0] == '#' && forall i :: 1 <= i < 7 ==> IsHexDigit(c[i])
  }

  /** A colour of `palette` nobody uses yet, picked by the draw `random`; when every palette
      colour is taken, a random colour `#rrggbb`. */
  function PickColor(palette: seq<string>, usedColors: seq<string>, random: real): (r: string)
    requires 0.0 <= random < 1.0
    ensures (exists i :: 0 <= i < |palette| && palette[i] !in usedColors) ==> r in palette && r !in usedColors
    ensures (forall i :: 0 <= i < |palette| ==> palette[i] in usedColors) ==> IsHexColour(r)
  {
    var available := Seqs.Filter(palette, (c: string) => c !in usedColors);
    if |available| == 0 then
      RandomHexColour(random)
    else
      available[PickIndex(random, |available|)]
  }

  /** `getRandomColor`: `PickColor` over the app palette. */
  function GetRandomColor(usedColors: seq<string>, random: real): string
    requires 0.0 <= random < 1.0
  {
    PickColor(AppColors(), usedColors, random)
  }

  /** `#${Math.floor(random * 16777215).toString(16).padStart(6, '0')}`. */
  function RandomHexColour(random: real): (r: string)
    requires 0.0 <= random < 1.0
    ensures IsHexColour(r)
  {
    var n := PickIndex(random, RandomColourRange);
    NatToHexLength(n, 6);
    assert Power16(6) == 16777216;
    ['#'] + PadStart(NatToHex(n), 6, '0')
  }

  /** The random colour encodes the draw: its six digits read back as `floor(random * 16777215)`. */
  lemma RandomHexColourValue(random: real)
    requires 0.0 <= random < 1.0
    ensures var r := RandomHexColour(random);
      IsHexColour(r) && HexValue(r[1..]) == PickIndex(random, RandomColourRange)
  {
    var n := PickIndex(random, RandomColourRange);
    var r := RandomHexColour(random);
    NatToHexRoundTrip(n);
    ZeroPaddedHexValue(NatToHex(n), 6);
    assert r[1..] == PadStart(NatToHex(n), 6, '0');
  }

  // ---------------------------------------------------------------------------
  // Loading

  /** What `localStorage` held: nothing (or an empty string), text that does not parse into
      an object, or a parsed object. */
  datatype Stored = Absent | Unreadable | Parsed(saved: SavedState)

  /** A parsed saved state: `apps` is `None` when it is missing or not an array. */
  datatype SavedState = SavedState(
    apps: Option<seq<App>>, activeAppId: Option<string>, selectedRegion: string,
    estimateName: Option<string>, freeTierEnabled: bool)

  /** A saved state is taken as it is exactly when its `apps` is an array. */
  predicate Accepted(stored: Stored) {
    stored.Parsed? && stored.saved.apps.Some?
  }

  function DefaultApp(id: string): App {
    App(id, FirstAppName, AppColors()[0], DefaultCombination, map[], [])
  }

  /** `getInitialState`: an accepted saved state, its missing or empty `estimateName`
      replaced by the default; otherwise one fresh app, active, in West Europe. */
  function InitialState(stored: Stored, freshId: string): (r: State)
    ensures Accepted(stored) ==>
      && r.apps == stored.saved.apps.value
      && r.activeAppId == stored.saved.activeAppId
      && r.selectedRegion == stored.saved.selectedRegion
      && r.freeTierEnabled == stored.saved.freeTierEnabled
    ensures !Accepted(stored) ==>
      && r.apps == [DefaultApp(freshId)]
      && r.activeAppId == Some(freshId)
      && r.selectedRegion == DefaultRegion
      && r.estimateName == DefaultEstimateName
    ensures Accepted(stored) && (stored.saved.estimateName.None? || stored.saved.estimateName == Some("")) ==>
      r.estimateName == DefaultEstimateName
    ensures r.estimateName != ""
  {
    if Accepted(stored) then
      var s := stored.saved;
      var name := if s.estimateName.None? || s.estimateName == Some("") then DefaultEstimateName
                  else s.estimateName.value;
      State(s.apps.value, s.activeAppId, s.selectedRegion, name, s.freeTierEnabled)
    else
      State([DefaultApp(freshId)], Some(freshId), DefaultRegion, DefaultEstimateName, false)
  }

  /** A saved name is kept whenever it is non-empty. */
  lemma InitialStateKeepsSavedName(stored: Stored, freshId: string)
    requires Accepted(stored) && stored.saved.estimateName.Some? && stored.saved.estimateName.value != ""
    ensures InitialState(stored, freshId).estimateName == stored.saved.estimateName.value
  {
  }

  /** Without an accepted saved state, the single default app is the active one. */
  lemma DefaultStateHasActiveApp(stored: Stored, freshId: string)
    requires !Accepted(stored)
    ensures ActiveApp(InitialState(stored, freshId)) == Some(DefaultApp(freshId))
  {
    var r := InitialState(stored, freshId);
    assert r.apps[0].id == freshId;
  }

  // ---------------------------------------------------------------------------
  // Reading and changing the state

  /** `state.apps.find(app => app.id === state.activeAppId) || null`. */
  function ActiveApp(s: State): (r: Option<App>)
    ensures r.None? <==> s.activeAppId.None? || forall i :: 0 <= i < |s.apps| ==> s.apps[i].id != s.activeAppId.value
    ensures r.Some? ==> r.value in s.apps && s.activeAppId == Some(r.value.id)
    ensures r.Some? ==>
      exists k :: (0 <= k < |s.apps| && s.apps[k] == r.value &&
                   forall i :: 0 <= i < k ==> s.apps[i].id != s.activeAppId.value)
  {
    if s.activeAppId.None? then None
    else Seqs.Find(s.apps, (a: App) => a.id == s.activeAppId.value)
  }

  /** `addApp`: one new app at the end, named by the caller or numbered after the apps
      already there, coloured by `getRandomColor`, and made active. */
  function AddApp(prev: State, name: Option<string>, newId: string, random: real): (r: State)
    requires 0.0 <= random < 1.0
    ensures |r.apps| == |prev.apps| + 1 && r.apps[..|prev.apps|] == prev.apps
    ensures var a := r.apps[|prev.apps|];
      && a.id == newId
      && a.name == (if name.None? || name == Some("") then "Container App " + NatToString(|prev.apps| + 1)
                    else name.value)
      && a.color == GetRandomColor(Colors(prev.apps), random)
      && a.selectedCombination == DefaultCombination && a.schedule == map[] && a.configSteps == []
    ensures r.activeAppId == Some(newId)
    ensures r.selectedRegion == prev.selectedRegion && r.estimateName == prev.estimateName
    ensures r.freeTierEnabled == prev.freeTierEnabled
  {
    var color := GetRandomColor(Colors(prev.apps), random);
    var appName := if name.None? || name == Some("") then "Container App " + NatToString(|prev.apps| + 1)
                   else name.value;
    var app := App(newId, appName, color, DefaultCombination, map[], []);
    prev.(apps := prev.apps + [app], activeAppId := Some(newId))
  }

  /** With a fresh id, the added app is the active app. */
  lemma AddedAppIsActive(prev: State, name: Option<string>, newId: string, random: real)
    requires 0.0 <= random < 1.0
    requires newId !in Ids(prev.apps)
    ensures var r := AddApp(prev, name, newId, random); ActiveApp(r) == Some(r.apps[|prev.apps|])
  {
    var r := AddApp(prev, name, newId, random);
    var a := r.apps[|prev.apps|];
    assert r.apps == prev.apps + [a];
    FindAppended(prev.apps, a);
  }

  lemma FindAppended(apps: seq<App>, a: App)
    requires a.id !in Ids(apps)
    ensures Seqs.Find(apps + [a], (x: App) => x.id == a.id) == Some(a)
  {
    var p := (x: App) => x.id == a.id;
    forall i | 0 <= i < |apps| ensures !p((apps + [a])[i]) {
      assert Ids(apps)[i] == apps[i].id;
    }
    var xs := apps + [a];
    assert p(xs[|apps|]);
    var k := Seqs.FindIndex(xs, p);
    assert k == |apps|;
  }

  /** While the palette has a free colour, a new app's colour differs from every other app's. */
  lemma AddedAppColourIsNew(prev: State, name: Option<string>, newId: string, random: real)
    requires 0.0 <= random < 1.0
    requires exists i :: 0 <= i < |AppColors()| && AppColors()[i] !in Colors(prev.apps)
    ensures var r := AddApp(prev, name, newId, random);
      forall i :: 0 <= i < |prev.apps| ==> r.apps[i].color != r.apps[|prev.apps|].color
  {
    var r := AddApp(prev, name, newId, random);
    forall i | 0 <= i < |prev.apps| ensures r.apps[i].color != r.apps[|prev.apps|].color {
      assert r.apps[i] == prev.apps[i];
      assert Colors(prev.apps)[i] == prev.apps[i].color;
    }
  }

  /** `removeApp`: every app with the id goes, the others keep their order; when the removed
      id was the active one and some app remains, the first remaining app becomes active. */
  function RemoveApp(prev: State, appId: string): (r: State)
    ensures |r.apps| <= |prev.apps|
    ensures forall i :: 0 <= i < |r.apps| ==> r.apps[i].id != appId && r.apps[i] in prev.apps
    ensures forall i :: 0 <= i < |prev.apps| && prev.apps[i].id != appId ==> prev.apps[i] in r.apps
    ensures prev.activeAppId == Some(appId) && |r.apps| > 0 ==> r.activeAppId == Some(r.apps[0].id)
    ensures prev.activeAppId != Some(appId) || |r.apps| == 0 ==> r.activeAppId == prev.activeAppId
    ensures r.selectedRegion == prev.selectedRegion && r.estimateName == prev.estimateName
    ensures r.freeTierEnabled == prev.freeTierEnabled
  {
    var newApps := Seqs.Filter(prev.apps, (a: App) => a.id != appId);
    var newActive := if prev.activeAppId == Some(appId) && |newApps| > 0 then Some(newApps[0].id)
                     else prev.activeAppId;
    prev.(apps := newApps, activeAppId := newActive)
  }

  /** Removal keeps the surviving apps in their order, piece by piece. */
  lemma RemoveAppKeepsOrder(prev: State, front: seq<App>, back: seq<App>, appId: string)
    requires prev.apps == front + back
    ensures RemoveApp(prev, appId).apps == RemoveApp(prev.(apps := front), appId).apps +
                                           RemoveApp(prev.(apps := back), appId).apps
  {
    Seqs.FilterAppend(front, back, (a: App) => a.id != appId);
  }

  /** Removing an app just added under a fresh id gives back the apps there were. */
  lemma AddThenRemove(prev: State, name: Option<string>, newId: string, random: real)
    requires 0.0 <= random < 1.0
    requires newId !in Ids(prev.apps)
    ensures RemoveApp(AddApp(prev, name, newId, random), newId).apps == prev.apps
  {
    var r := AddApp(prev, name, newId, random);
    var keep := (a: App) => a.id != newId;
    assert r.apps == prev.apps + [r.apps[|prev.apps|]];
    Seqs.FilterAppend(prev.apps, [r.apps[|prev.apps|]], keep);
    forall i | 0 <= i < |prev.apps| ensures keep(prev.apps[i]) {
      assert Ids(prev.apps)[i] == prev.apps[i].id;
    }
    Seqs.FilterKeepsAll(prev.apps, keep);
    assert Seqs.Filter([r.apps[|prev.apps|]], keep) == [];
  }

  /** As long as some app remains, removing an app never leaves the estimate without an active
      app when it had one. */
  lemma RemoveAppKeepsAnActiveApp(prev: State, appId: string)
    requires ActiveApp(prev).Some?
    ensures var r := RemoveApp(prev, appId); |r.apps| > 0 ==> ActiveApp(r).Some?
  {
    var r := RemoveApp(prev, appId);
    if |r.apps| > 0 {
      if prev.activeAppId == Some(appId) {
        assert r.apps[0].id == r.activeAppId.value;
      } else {
        var a := ActiveApp(prev).value;
        assert a.id != appId;
        var k :| 0 <= k < |prev.apps| && prev.apps[k] == a;
        assert a in r.apps;
      }
    }
  }

  /** `setActiveApp`: only the active id changes (the id need not name an app). */
  function SetActiveApp(prev: State, appId: string): (r: State)
    ensures r.activeAppId == Some(appId)
    ensures r.apps == prev.apps && r.selectedRegion == prev.selectedRegion
    ensures r.estimateName == prev.estimateName && r.freeTierEnabled == prev.freeTierEnabled
  {
    prev.(activeAppId := Some(appId))
  }

  /** Selecting an app that is in the list makes the first app with its id the active one. */
  lemma SetActiveAppSelects(prev: State, k: nat)
    requires k < |prev.apps| && forall i :: 0 <= i < k ==> prev.apps[i].id != prev.apps[k].id
    ensures ActiveApp(SetActiveApp(prev, prev.apps[k].id)) == Some(prev.apps[k])
  {
    var r := SetActiveApp(prev, prev.apps[k].id);
    var p := (a: App) => a.id == prev.apps[k].id;
    assert Seqs.FindIndex(r.apps, p) == k;
  }

  /** The fields a `Partial<ContainerApp>` update may carry. */
  datatype AppUpdate = AppUpdate(
    id: Option<string>, name: Option<string>, color: Option<string>,
    selectedCombination: Option<int>, schedule: Option<SparseSchedule>, configSteps: Option<seq<Step>>)

  const NoChange: AppUpdate := AppUpdate(None, None, None, None, None, None)

  /** `{ ...app, ...updates }`: the fields present in the update win. */
  function MergeApp(a: App, u: AppUpdate): App {
    App(u.id.GetOr(a.id), u.name.GetOr(a.name), u.color.GetOr(a.color),
        u.selectedCombination.GetOr(a.selectedCombination), u.schedule.GetOr(a.schedule),
        u.configSteps.GetOr(a.configSteps))
  }

  /** `updateApp`: the apps with the id take the update; the list keeps its length and order
      and nothing outside the list changes. */
  function UpdateApp(prev: State, appId: string, u: AppUpdate): (r: State)
    ensures |r.apps| == |prev.apps|
    ensures forall i :: 0 <= i < |prev.apps| && prev.apps[i].id != appId ==> r.apps[i] == prev.apps[i]
    ensures forall i :: 0 <= i < |prev.apps| && prev.apps[i].id == appId ==> r.apps[i] == MergeApp(prev.apps[i], u)
    ensures r.activeAppId == prev.activeAppId && r.selectedRegion == prev.selectedRegion
    ensures r.estimateName == prev.estimateName && r.freeTierEnabled == prev.freeTierEnabled
  {
    prev.(apps := Seqs.MapMatching(prev.apps, (a: App) => a.id == appId, (a: App) => MergeApp(a, u)))
  }

  /** Applying the same update twice has the effect of applying it once. */
  lemma UpdateAppIdempotent(prev: State, appId: string, u: AppUpdate)
    ensures UpdateApp(UpdateApp(prev, appId, u), appId, u) == UpdateApp(prev, appId, u)
  {
    var once := UpdateApp(prev, appId, u);
    var twice := UpdateApp(once, appId, u);
    forall i | 0 <= i < |prev.apps| ensures twice.apps[i] == once.apps[i] {
      if prev.apps[i].id == appId && once.apps[i].id == appId {
        assert MergeApp(once.apps[i], u) == once.apps[i];
      }
    }
  }

  /** An update carrying no field changes nothing. */
  lemma EmptyUpdateChangesNothing(prev: State, appId: string)
    ensures UpdateApp(prev, appId, NoChange) == prev
  {
    var r := UpdateApp(prev, appId, NoChange);
    forall i | 0 <= i < |prev.apps| ensures r.apps[i] == prev.apps[i] {
    }
  }

  /** `updateAppName`: the apps with the id get the name; nothing else changes. */
  function UpdateAppName(prev: State, appId: string, name: string): (r: State)
    ensures r == prev.(apps := r.apps)
    ensures |r.apps| == |prev.apps| && r.activeAppId == prev.activeAppId
    ensures forall i :: 0 <= i < |prev.apps| ==>
      r.apps[i] == if prev.apps[i].id == appId then prev.apps[i].(name := name) else prev.apps[i]
  {
    UpdateApp(prev, appId, NoChange.(name := Some(name)))
  }

  /** `updateAppCombination`: the apps with the id get the tier; nothing else changes. */
  function UpdateAppCombination(prev: State, appId: string, combination: int): (r: State)
    ensures r == prev.(apps := r.apps)
    ensures |r.apps| == |prev.apps| && r.activeAppId == prev.activeAppId
    ensures forall i :: 0 <= i < |prev.apps| ==>
      r.apps[i] == if prev.apps[i].id == appId then prev.apps[i].(selectedCombination := combination)
                   else prev.apps[i]
  {
    UpdateApp(prev, appId, NoChange.(selectedCombination := Some(combination)))
  }

  /** `updateAppSchedule`: the apps with the id get the schedule; nothing else changes. */
  function UpdateAppSchedule(prev: State, appId: string, schedule: SparseSchedule): (r: State)
    ensures r == prev.(apps := r.apps)
    ensures |r.apps| == |prev.apps| && r.activeAppId == prev.activeAppId
    ensures forall i :: 0 <= i < |prev.apps| ==>
      r.apps[i] == if prev.apps[i].id == appId then prev.apps[i].(schedule := schedule) else prev.apps[i]
  {
    UpdateApp(prev, appId, NoChange.(schedule := Some(schedule)))
  }

  /** `updateAppSteps`: the apps with the id get the step list; nothing else changes. */
  function UpdateAppSteps(prev: State, appId: string, steps: seq<Step>): (r: State)
    ensures r == prev.(apps := r.apps)
    ensures |r.apps| == |prev.apps| && r.activeAppId == prev.activeAppId
    ensures forall i :: 0 <= i < |prev.apps| ==>
      r.apps[i] == if prev.apps[i].id == appId then prev.apps[i].(configSteps := steps) else prev.apps[i]
  {
    UpdateApp(prev, appId, NoChange.(configSteps := Some(steps)))
  }

  /** `updateRegion`: only the region changes. */
  function UpdateRegion(prev: State, region: string): (r: State)
    ensures r.selectedRegion == region
    ensures r.apps == prev.apps && r.activeAppId == prev.activeAppId
    ensures r.estimateName == prev.estimateName && r.freeTierEnabled == prev.freeTierEnabled
  {
    prev.(selectedRegion := region)
  }

  /** `updateEstimateName`: only the name changes; an empty name is stored as it is. */
  function UpdateEstimateName(prev: State, name: string): (r: State)
    ensures r.estimateName == name
    ensures r.apps == prev.apps && r.activeAppId == prev.activeAppId
    ensures r.selectedRegion == prev.selectedRegion && r.freeTierEnabled == prev.freeTierEnabled
  {
    prev.(estimateName := name)
  }

  /** Changing the region and renaming the estimate do not interfere, and a second change of
      either field overrides the first. */
  lemma SettingsCommuteAndOverride(prev: State, r1: string, r2: string, n1: string, n2: string)
    ensures UpdateEstimateName(UpdateRegion(prev, r1), n1) == UpdateRegion(UpdateEstimateName(prev, n1), r1)
    ensures UpdateRegion(UpdateRegion(prev, r1), r2) == UpdateRegion(prev, r2)
    ensures UpdateEstimateName(UpdateEstimateName(prev, n1), n2) == UpdateEstimateName(prev, n2)
  {
  }
}

=== FILE: pricing.dfy ===
/** Pricing resolution (`src/lib/constants.ts`): the fixed CPU/memory tiers, and the
    per-second prices of a region in a display currency, derived from the bundled pricing
    catalogue by the region multiplier and a USD conversion rate.

    The catalogue itself is data the model does not fix: it is the parameter `data`. */
module Pricing {
  import opened Wrappers

  /** One currency entry of the catalogue. `modernConversion` may be absent. */
  datatype CurrencyData = CurrencyData(
    symbol: string, name: string, displayName: string, conversion: real, modernConversion: Option<real>)

  /** One region entry of the catalogue. */
  datatype RegionData = RegionData(name: string, multiplier: real, currency: string)

  /** The parts of the catalogue the calculator reads: the USD active-usage prices and
      the region and currency tables. */
  datatype PricingData = PricingData(
    vcpuPerSecondUsd: real,
    memoryPerGibSecondUsd: real,
    regions: map<string, RegionData>,
    currencies: map<string, CurrencyData>)

  /** Resolved prices: per vCPU-second and per GiB-second, in `currency`. */
  datatype PricingConfig = PricingConfig(
    vcpuPerSecond: real, memoryPerGibSecond: real, currency: string, currencySymbol: string,
    regions: map<string, real>)

  /** `modernConversion || conversion`: the modern rate unless it is absent or zero. */
  function ConversionRate(c: CurrencyData): (r: real)
    ensures c.modernConversion.Some? && c.modernConversion.value != 0.0 ==> r == c.modernConversion.value
    ensures c.modernConversion.None? || c.modernConversion.value == 0.0 ==> r == c.conversion
  {
    match c.modernConversion
    case Some(rate) => if rate != 0.0 then rate else c.conversion
    case None => c.conversion
  }

  /** `convertFromUSD`: USD passes through; an unknown currency passes through too
      (the source only logs a warning); any other currency is multiplied by its rate. */
  function ConvertFromUsd(data: PricingData, priceUsd: real, toCurrency: string): (r: real)
    ensures toCurrency == "USD" ==> r == priceUsd
    ensures toCurrency !in data.currencies ==> r == priceUsd
    ensures toCurrency != "USD" && toCurrency in data.currencies ==>
      r == priceUsd * ConversionRate(data.currencies[toCurrency])
  {
    if toCurrency == "USD" then priceUsd
    else if toCurrency !in data.currencies then priceUsd
    else priceUsd * ConversionRate(data.currencies[toCurrency])
  }

  /** Conversion is a pure scaling: converting a scaled price is scaling the converted
      price. So applying the region multiplier before or after conversion agrees. */
  lemma ConvertCommutesWithScaling(data: PricingData, price: real, k: real, toCurrency: string)
    ensures ConvertFromUsd(data, price * k, toCurrency) == ConvertFromUsd(data, price, toCurrency) * k
  {
  }

  /** Converting a non-negative price never yields a negative one when the rates are non-negative. */
  lemma ConvertKeepsSign(data: PricingData, price: real, toCurrency: string)
    requires price >= 0.0
    requires forall c :: c in data.currencies ==>
      data.currencies[c].conversion >= 0.0 &&
      (data.currencies[c].modernConversion.Some? ==> data.currencies[c].modernConversion.value >= 0.0)
    ensures ConvertFromUsd(data, price, toCurrency) >= 0.0
  {
    if toCurrency != "USD" && toCurrency in data.currencies {
      var rate := ConversionRate(data.currencies[toCurrency]);
      assert rate >= 0.0;
      NonNegativeProduct(price, rate);
    }
  }

  lemma NonNegativeProduct(a: real, b: real)
    requires a >= 0.0 && b >= 0.0
    ensures a * b >= 0.0
  {
  }

  /** `currencies[code]?.symbol || '$'`: the table's symbol, unless absent or empty. */
  function SymbolFor(data: PricingData, code: string): (r: string)
    ensures r != ""
    ensures code in data.currencies && data.currencies[code].symbol != "" ==> r == data.currencies[code].symbol
    ensures code !in data.currencies || data.currencies[code].symbol == "" ==> r == "$"
  {
    if code in data.currencies && data.currencies[code].symbol != "" then data.currencies[code].symbol else "$"
  }

  /** `Object.fromEntries(regions.map(([key, region]) => [key, region.multiplier]))`. */
  function RegionMultipliers(data: PricingData): (r: map<string, real>)
    ensures r.Keys == data.regions.Keys
    ensures forall k :: k in r ==> r[k] == data.regions[k].multiplier
  {
    map k | k in data.regions :: data.regions[k].multiplier
  }

  /** The module-level `PRICING` constant: the USD base prices converted to euros. */
  function DefaultPricing(data: PricingData): (r: PricingConfig)
    ensures r.currency == "EUR" && r.currencySymbol == "€"
    ensures r.vcpuPerSecond == ConvertFromUsd(data, data.vcpuPerSecondUsd, "EUR")
    ensures r.memoryPerGibSecond == ConvertFromUsd(data, data.memoryPerGibSecondUsd, "EUR")
    ensures r.regions == RegionMultipliers(data)
  {
    PricingConfig(
      ConvertFromUsd(data, data.vcpuPerSecondUsd, "EUR"),
      ConvertFromUsd(data, data.memoryPerGibSecondUsd, "EUR"),
      "EUR", "€", RegionMultipliers(data))
  }

  /** `getDynamicPricing(region, currency)`, as the source has it. For a catalogued region
      each price is the USD base price times the region multiplier, converted to the
      requested currency. For any other region the result is `PRICING` (euro prices)
      relabelled with the requested currency and its symbol. */
  function GetDynamicPricing(data: PricingData, region: string, currency: string): (r: PricingConfig)
    ensures r.currency == currency
    ensures r.currencySymbol == SymbolFor(data, currency)
    ensures r.regions.Keys == data.regions.Keys
    ensures forall k :: k in r.regions ==> r.regions[k] == data.regions[k].multiplier
    ensures region in data.regions ==>
      r.vcpuPerSecond == ConvertFromUsd(data, data.vcpuPerSecondUsd * data.regions[region].multiplier, currency) &&
      r.memoryPerGibSecond == ConvertFromUsd(data, data.memoryPerGibSecondUsd * data.regions[region].multiplier, currency)
    ensures region !in data.regions ==>
      r.vcpuPerSecond == DefaultPricing(data).vcpuPerSecond &&
      r.memoryPerGibSecond == DefaultPricing(data).memoryPerGibSecond
  {
    if region !in data.regions then
      DefaultPricing(data).(currency := currency, currencySymbol := SymbolFor(data, currency))
    else
      var multiplier := data.regions[region].multiplier;
      PricingConfig(
        ConvertFromUsd(data, data.vcpuPerSecondUsd * multiplier, currency),
        ConvertFromUsd(data, data.memoryPerGibSecondUsd * multiplier, currency),
        currency, SymbolFor(data, currency), RegionMultipliers(data))
  }

  /** In a catalogued region, prices requested in USD are the base prices times the region
      multiplier, and prices in any currency are the USD ones converted. */
  lemma KnownRegionPrices(data: PricingData, region: string, currency: string)
    requires region in data.regions
    ensures GetDynamicPricing(data, region, "USD").vcpuPerSecond ==
      data.vcpuPerSecondUsd * data.regions[region].multiplier
    ensures GetDynamicPricing(data, region, currency).vcpuPerSecond ==
      ConvertFromUsd(data, GetDynamicPricing(data, region, "USD").vcpuPerSecond, currency)
    ensures GetDynamicPricing(data, region, currency).memoryPerGibSecond ==
      ConvertFromUsd(data, GetDynamicPricing(data, region, "USD").memoryPerGibSecond, currency)
  {
  }

  /** `getCurrencySymbolForRegion`: the symbol of the region's own currency, and '$' for an
      unknown region or a currency without a usable symbol. */
  function CurrencySymbolForRegion(data: PricingData, region: string): (r: string)
    ensures r != ""
    ensures region !in data.regions ==> r == "$"
    ensures region in data.regions ==> r == SymbolFor(data, data.regions[region].currency)
  {
    if region !in data.regions then "$" else SymbolFor(data, data.regions[region].currency)
  }

  // ---------------------------------------------------------------------------
  // Unknown regions

  /** For a region the catalogue does not list, the as-written `getDynamicPricing` keeps
      `PRICING`'s euro prices whatever currency is asked for, so a request in dollars comes
      back with euro amounts under the "USD" label. Shown on a catalogue whose euro rate is 0.9. */
  lemma UnknownRegionMislabelled()
    ensures var data := PricingData(0.000034, 0.000004, map[],
                                    map["EUR" := CurrencyData("€", "Euro", "Euro (€)", 0.9, None)]);
            var r := GetDynamicPricing(data, "nowhere", "USD");
            r.currency == "USD" && r.vcpuPerSecond == 0.0000306 && r.vcpuPerSecond != data.vcpuPerSecondUsd
  {
  }

  /** The catalogue multiplier of a region, 1.0 for a region it does not list. */
  function CatalogueMultiplier(data: PricingData, region: string): (m: real)
    ensures region in data.regions ==> m == data.regions[region].multiplier
    ensures region !in data.regions ==> m == 1.0
  {
    if region in data.regions then data.regions[region].multiplier else 1.0
  }

  /** Region pricing with an unknown region priced at multiplier 1.0 in the requested
      currency, which is what the warning "using defaults" announces: default prices,
      converted like any other, so that amounts and label agree. */
  function GetDynamicPricingIntended(data: PricingData, region: string, currency: string): (r: PricingConfig)
    ensures r.currency == currency
    ensures r.currencySymbol == SymbolFor(data, currency)
    ensures r.regions == RegionMultipliers(data)
    ensures region !in data.regions ==>
      r.vcpuPerSecond == ConvertFromUsd(data, data.vcpuPerSecondUsd, currency) &&
      r.memoryPerGibSecond == ConvertFromUsd(data, data.memoryPerGibSecondUsd, currency)
  {
    var multiplier := CatalogueMultiplier(data, region);
    PricingConfig(
      ConvertFromUsd(data, data.vcpuPerSecondUsd * multiplier, currency),
      ConvertFromUsd(data, data.memoryPerGibSecondUsd * multiplier, currency),
      currency, SymbolFor(data, currency), RegionMultipliers(data))
  }

  /** The corrected resolution agrees with the source on every catalogued region. */
  lemma IntendedAgreesOnKnownRegions(data: PricingData, region: string, currency: string)
    requires region in data.regions
    ensures GetDynamicPricingIntended(data, region, currency) == GetDynamicPricing(data, region, currency)
  {
  }

  /** With the correction, prices always match their label: for every region, the prices in
      any currency are the dollar prices of that region converted, and an unknown region
      asked for in dollars gets the base dollar prices. */
  lemma IntendedPricesMatchLabel(data: PricingData, region: string, currency: string)
    ensures GetDynamicPricingIntended(data, region, currency).vcpuPerSecond ==
      ConvertFromUsd(data, GetDynamicPricingIntended(data, region, "USD").vcpuPerSecond, currency)
    ensures GetDynamicPricingIntended(data, region, currency).memoryPerGibSecond ==
      ConvertFromUsd(data, GetDynamicPricingIntended(data, region, "USD").memoryPerGibSecond, currency)
    ensures region !in data.regions ==>
      GetDynamicPricingIntended(data, region, "USD").vcpuPerSecond == data.vcpuPerSecondUsd &&
      GetDynamicPricingIntended(data, region, "USD").memoryPerGibSecond == data.memoryPerGibSecondUsd
  {
  }

  // ---------------------------------------------------------------------------
  // Resource tiers

  datatype Combination = Combination(cpu: real, memory: real)

  /** `VALID_COMBINATIONS`: sixteen tiers from 0.25 to 4 vCPU in steps of 0.25, each with
      twice as many GiB of memory as vCPUs. */
  function ValidCombinations(): (r: seq<Combination>)
    ensures |r| == 16
    ensures forall i :: 0 <= i < |r| ==> r[i].cpu == 0.25 * (i + 1) as real && r[i].memory == 2.0 * r[i].cpu
  {
    [ Combination(0.25, 0.5),
      Combination(0.5, 1.0),
      Combination(0.75, 1.5),
      Combination(1.0, 2.0),
      Combination(1.25, 2.5),
      Combination(1.5, 3.0),
      Combination(1.75, 3.5),
      Combination(2.0, 4.0),
      Combination(2.25, 4.5),
      Combination(2.5, 5.0),
      Combination(2.75, 5.5),
      Combination(3.0, 6.0),
      Combination(3.25, 6.5),
      Combination(3.5, 7.0),
      Combination(3.75, 7.5),
      Combination(4.0, 8.0) ]
  }

  /** The tier selected by index `i`, as `VALID_COMBINATIONS[i]`. */
  predicate ValidCombinationIndex(i: int) {
    0 <= i < 16
  }

  datatype ResourcePreset = ResourcePreset(key: string, index: int, caption: string)

  /** `RESOURCE_PRESETS`: five named shortcuts into the tier table, smallest first. */
  function ResourcePresets(): (r: seq<ResourcePreset>)
    ensures |r| == 5
    ensures forall i :: 0 <= i < |r| ==> ValidCombinationIndex(r[i].index)
    ensures forall i, j :: 0 <= i < j < |r| ==> r[i].index < r[j].index
    ensures r[0].index == 0 && r[4].index == 15
  {
    [ ResourcePreset("xs", 0, "XS (0.25 vCPU, 0.5 GB)"),
      ResourcePreset("s", 1, "S (0.5 vCPU, 1 GB)"),
      ResourcePreset("m", 3, "M (1 vCPU, 2 GB)"),
      ResourcePreset("l", 7, "L (2 vCPU, 4 GB)"),
      ResourcePreset("xl", 15, "XL (4 vCPU, 8 GB)") ]
  }

  /** The presets point at the tiers their labels name: 0.25, 0.5, 1, 2 and 4 vCPU. */
  lemma ResourcePresetTiers()
    ensures ValidCombinations()[ResourcePresets()[0].index].cpu == 0.25
    ensures ValidCombinations()[ResourcePresets()[1].index].cpu == 0.5
    ensures ValidCombinations()[ResourcePresets()[2].index].cpu == 1.0
    ensures ValidCombinations()[ResourcePresets()[3].index].cpu == 2.0
    ensures ValidCombinations()[ResourcePresets()[4].index].cpu == 4.0
  {
  }
}

=== FILE: schedule.dfy ===
/** The weekly schedule of one container app and the step list that generates it
    (`src/hooks/useCalculator.ts`).

    A schedule is a dense 7 x 24 grid of instance counts: day 0 is Monday, hour 0 is
    midnight. A step is a user rule "on these days, from start to end, run this many
    instances"; `ApplySteps` paints the steps, in list order, onto a fresh all-zero grid. */
module Schedule {
  import opened Wrappers
  import Seqs

  const Days: int := 7
  const HoursPerDay: int := 24

  type Grid = seq<seq<int>>

  predicate IsDay(d: int) {
    0 <= d < Days
  }

  predicate IsHour(h: int) {
    0 <= h < HoursPerDay
  }

  /** Every day is present and has all 24 hours. */
  predicate IsGrid(g: Grid) {
    |g| == Days && forall d :: 0 <= d < Days ==> |g[d]| == HoursPerDay
  }

  /** `initializeSchedule`: all 168 cells present and zero. */
  function EmptyGrid(): (g: Grid)
    ensures IsGrid(g)
    ensures forall d, h {:trigger g[d][h]} :: IsDay(d) && IsHour(h) ==> g[d][h] == 0
  {
    seq(Days, _ => seq(HoursPerDay, _ => 0))
  }

  /** `updateSchedule(day, hour, instances)`: one cell takes the new count. */
  function UpdateSchedule(g: Grid, day: int, hour: int, instances: int): (r: Grid)
    requires IsGrid(g) && IsDay(day) && IsHour(hour)
    ensures IsGrid(r)
    ensures r[day][hour] == instances
    ensures forall d, h {:trigger r[d][h]} :: IsDay(d) && IsHour(h) && (d != day || h != hour) ==> r[d][h] == g[d][h]
  {
    g[day := g[day][hour := instances]]
  }

  /** The loop `for (hour = lo; hour < hi; hour++) schedule[day][hour] = v`. */
  function FillHours(g: Grid, day: int, lo: int, hi: int, v: int): (r: Grid)
    requires IsGrid(g) && IsDay(day) && 0 <= lo && hi <= HoursPerDay
    ensures IsGrid(r)
    ensures forall d, h {:trigger r[d][h]} :: IsDay(d) && IsHour(h) ==>
      r[d][h] == (if d == day && lo <= h < hi then v else g[d][h])
  {
    g[day := seq(HoursPerDay, h requires 0 <= h < HoursPerDay => if lo <= h < hi then v else g[day][h])]
  }

  /** The nested loops of the presets: days `fromDay..toDay-1`, hours `fromHour..toHour-1`. */
  function FillBlock(g: Grid, fromDay: int, toDay: int, fromHour: int, toHour: int, v: int): (r: Grid)
    requires IsGrid(g) && 0 <= fromDay && toDay <= Days && 0 <= fromHour && toHour <= HoursPerDay
    ensures IsGrid(r)
    ensures forall d, h {:trigger r[d][h]} :: IsDay(d) && IsHour(h) ==>
      r[d][h] == (if fromDay <= d < toDay && fromHour <= h < toHour then v else g[d][h])
  {
    seq(Days, d requires 0 <= d < Days =>
      if fromDay <= d < toDay then seq(HoursPerDay, h requires 0 <= h < HoursPerDay => if fromHour <= h < toHour then v else g[d][h])
      else g[d])
  }

  // ---------------------------------------------------------------------------
  // Presets

  datatype Preset = Business | Extended | AroundTheClock | Clear

  /** Weekdays 9:00-18:00 at 2 instances. */
  function BusinessHours(): (r: Grid)
    ensures IsGrid(r)
    ensures forall d, h {:trigger r[d][h]} :: IsDay(d) && IsHour(h) ==> r[d][h] == (if d <= 4 && 9 <= h <= 17 then 2 else 0)
  {
    FillBlock(EmptyGrid(), 0, 5, 9, 18, 2)
  }

  /** Weekdays 6:00-23:00 at 2 instances, weekends all day at 1. */
  function ExtendedHours(): (r: Grid)
    ensures IsGrid(r)
    ensures forall d, h {:trigger r[d][h]} :: IsDay(d) && IsHour(h) ==>
      r[d][h] == (if d >= 5 then 1 else if 6 <= h <= 22 then 2 else 0)
  {
    FillBlock(FillBlock(EmptyGrid(), 0, 5, 6, 23, 2), 5, 7, 0, 24, 1)
  }

  /** Every hour of the week at 2 instances. */
  function AroundTheClockHours(): (r: Grid)
    ensures IsGrid(r)
    ensures forall d, h {:trigger r[d][h]} :: IsDay(d) && IsHour(h) ==> r[d][h] == 2
  {
    FillBlock(EmptyGrid(), 0, 7, 0, 24, 2)
  }

  /** `setSchedulePreset`: a fresh grid with one of the fixed patterns painted on it
      ('clear', and any unknown preset, leaves the fresh grid as it is). */
  function SchedulePreset(p: Preset): (r: Grid)
    ensures IsGrid(r)
    ensures p == Business ==> forall d, h :: IsDay(d) && IsHour(h) ==>
      r[d][h] == (if d <= 4 && 9 <= h <= 17 then 2 else 0)
    ensures p == Extended ==> forall d, h :: IsDay(d) && IsHour(h) ==>
      r[d][h] == (if d >= 5 then 1 else if 6 <= h <= 22 then 2 else 0)
    ensures p == AroundTheClock ==> forall d, h :: IsDay(d) && IsHour(h) ==> r[d][h] == 2
    ensures p == Clear ==> forall d, h :: IsDay(d) && IsHour(h) ==> r[d][h] == 0
  {
    match p
    case Business => BusinessHours()
    case Extended => ExtendedHours()
    case AroundTheClock => AroundTheClockHours()
    case Clear => EmptyGrid()
  }

  // ---------------------------------------------------------------------------
  // Steps

  /** A clock time read from an `HH:MM` field. */
  datatype Time = Time(hour: int, minute: int)

  predicate ValidTime(t: Time) {
    0 <= t.hour <= 23 && 0 <= t.minute <= 59
  }

  datatype Step = Step(id: int, days: seq<int>, start: Time, end: Time, instances: int)

  predicate ValidStep(s: Step) {
    ValidTime(s.start) && ValidTime(s.end) && forall i :: 0 <= i < |s.days| ==> IsDay(s.days[i])
  }

  predicate ValidSteps(steps: seq<Step>) {
    forall i :: 0 <= i < |steps| ==> ValidStep(steps[i])
  }

  /** The end time lies before the start time on the clock: the range runs past midnight. */
  predicate Wraps(s: Step) {
    s.end.hour < s.start.hour || (s.end.hour == s.start.hour && s.end.minute < s.start.minute)
  }

  function NextDay(d: int): int {
    (d + 1) % Days
  }

  /** Hour `h` lies before the end time, a started end hour counting as a full hour. */
  predicate BeforeEnd(s: Step, h: int) {
    h < s.end.hour || (s.end.minute > 0 && h == s.end.hour)
  }

  /** The cells a step writes on behalf of one listed day `d`: the same-day range, or,
      for a range past midnight, the evening of `d` and the morning of the next day. */
  predicate WritesFor(s: Step, d: int, day: int, hour: int) {
    if Wraps(s) then
      (day == d && s.start.hour <= hour) || (day == NextDay(d) && BeforeEnd(s, hour))
    else
      day == d && s.start.hour <= hour && BeforeEnd(s, hour)
  }

  /** The step writes cell (day, hour) on behalf of at least one of its days. */
  predicate Covers(s: Step, day: int, hour: int) {
    exists d :: d in s.days && WritesFor(s, d, day, hour)
  }

  /** The body of `step.days.forEach(...)` for one day index. */
  function ApplyStepOnDay(g: Grid, s: Step, d: int): (r: Grid)
    requires IsGrid(g) && ValidStep(s) && IsDay(d)
    ensures IsGrid(r)
    ensures forall day, hour {:trigger r[day][hour]} :: IsDay(day) && IsHour(hour) ==>
      r[day][hour] == (if WritesFor(s, d, day, hour) then s.instances else g[day][hour])
  {
    if Wraps(s) then
      var evening := FillHours(g, d, s.start.hour, HoursPerDay, s.instances);
      var morning := FillHours(evening, NextDay(d), 0, s.end.hour, s.instances);
      if s.end.minute > 0 then UpdateSchedule(morning, NextDay(d), s.end.hour, s.instances) else morning
    else
      var span := FillHours(g, d, s.start.hour, s.end.hour, s.instances);
      if s.end.minute > 0 then UpdateSchedule(span, d, s.end.hour, s.instances) else span
  }

  /** `days.forEach(...)`: one step applied for each listed day in turn. */
  function ApplyStepDays(g: Grid, s: Step, days: seq<int>): (r: Grid)
    requires IsGrid(g) && ValidStep(s)
    requires forall i :: 0 <= i < |days| ==> IsDay(days[i])
    ensures IsGrid(r)
    decreases |days|
    ensures forall day, hour {:trigger r[day][hour]} :: IsDay(day) && IsHour(hour) ==>
      r[day][hour] == (if exists d :: d in days && WritesFor(s, d, day, hour) then s.instances else g[day][hour])
  {
    if |days| == 0 then g
    else
      var r := ApplyStepDays(ApplyStepOnDay(g, s, days[0]), s, days[1..]);
      assert forall d :: d in days <==> d == days[0] || d in days[1..] by {
        assert days == [days[0]] + days[1..];
      }
      r
  }

  /** One step painted onto a grid: exactly the cells it covers take its instance count. */
  function ApplyStep(g: Grid, s: Step): (r: Grid)
    requires IsGrid(g) && ValidStep(s)
    ensures IsGrid(r)
    ensures forall day, hour {:trigger r[day][hour]} :: IsDay(day) && IsHour(hour) ==>
      r[day][hour] == (if Covers(s, day, hour) then s.instances else g[day][hour])
  {
    ApplyStepDays(g, s, s.days)
  }

  /** `configSteps.forEach(...)`: the steps applied in list order. */
  function ApplyAll(g: Grid, steps: seq<Step>): (r: Grid)
    requires IsGrid(g) && ValidSteps(steps)
    ensures IsGrid(r)
    decreases |steps|
  {
    if |steps| == 0 then g else ApplyAll(ApplyStep(g, steps[0]), steps[1..])
  }

  /** No step of the list covers the cell. */
  predicate Uncovered(steps: seq<Step>, day: int, hour: int) {
    forall i :: 0 <= i < |steps| ==> !Covers(steps[i], day, hour)
  }

  /** Step `i` covers the cell and no later step does. */
  predicate LastCovering(steps: seq<Step>, i: int, day: int, hour: int) {
    0 <= i < |steps| && Covers(steps[i], day, hour) &&
    forall j :: i < j < |steps| ==> !Covers(steps[j], day, hour)
  }

  /** A cell no step covers keeps its value through all the steps. */
  lemma {:induction false} ApplyAllUncovered(g: Grid, steps: seq<Step>, day: int, hour: int)
    requires IsGrid(g) && ValidSteps(steps) && IsDay(day) && IsHour(hour)
    requires Uncovered(steps, day, hour)
    ensures ApplyAll(g, steps)[day][hour] == g[day][hour]
    decreases |steps|
  {
    if |steps| > 0 {
      var rest := steps[1..];
      assert !Covers(steps[0], day, hour);
      assert Uncovered(rest, day, hour) by {
        forall k | 0 <= k < |rest| ensures !Covers(rest[k], day, hour) {
          assert rest[k] == steps[k + 1];
        }
      }
      ApplyAllUncovered(ApplyStep(g, steps[0]), rest, day, hour);
    }
  }

  /** A cell ends up with the count of the last step covering it. */
  lemma {:induction false} ApplyAllLast(g: Grid, steps: seq<Step>, i: int, day: int, hour: int)
    requires IsGrid(g) && ValidSteps(steps) && IsDay(day) && IsHour(hour)
    requires LastCovering(steps, i, day, hour)
    ensures ApplyAll(g, steps)[day][hour] == steps[i].instances
    decreases |steps|
  {
    var rest := steps[1..];
    if i == 0 {
      assert Uncovered(rest, day, hour) by {
        forall k | 0 <= k < |rest| ensures !Covers(rest[k], day, hour) {
          assert rest[k] == steps[k + 1];
        }
      }
      ApplyAllUncovered(ApplyStep(g, steps[0]), rest, day, hour);
    } else {
      assert LastCovering(rest, i - 1, day, hour) by {
        forall k | i - 1 < k < |rest| ensures !Covers(rest[k], day, hour) {
          assert rest[k] == steps[k + 1];
        }
      }
      ApplyAllLast(ApplyStep(g, steps[0]), rest, i - 1, day, hour);
    }
  }

  /** `applySteps`: the steps painted in list order onto a fresh all-zero grid. A cell no
      step covers stays 0; any other cell holds the count of the LAST step covering it
      (a later step overwrites, counts are never added). */
  function ApplySteps(steps: seq<Step>): (r: Grid)
    requires ValidSteps(steps)
    ensures IsGrid(r)
    ensures forall day, hour {:trigger r[day][hour]} :: IsDay(day) && IsHour(hour) && Uncovered(steps, day, hour) ==>
      r[day][hour] == 0
    ensures forall i, day, hour :: IsDay(day) && IsHour(hour) && LastCovering(steps, i, day, hour) ==>
      r[day][hour] == steps[i].instances
  {
    forall day, hour | IsDay(day) && IsHour(hour) && Uncovered(steps, day, hour) {
      ApplyAllUncovered(EmptyGrid(), steps, day, hour);
    }
    forall i, day, hour | IsDay(day) && IsHour(hour) && LastCovering(steps, i, day, hour) {
      ApplyAllLast(EmptyGrid(), steps, i, day, hour);
    }
    ApplyAll(EmptyGrid(), steps)
  }

  /** When some step covers a cell, there is a last one that does. */
  lemma {:induction false} LastCoveringExists(steps: seq<Step>, day: int, hour: int)
    requires !Uncovered(steps, day, hour)
    ensures exists i :: LastCovering(steps, i, day, hour)
    decreases |steps|
  {
    var n := |steps| - 1;
    if Covers(steps[n], day, hour) {
      assert LastCovering(steps, n, day, hour);
    } else {
      var prefix := steps[..n];
      assert !Uncovered(prefix, day, hour);
      LastCoveringExists(prefix, day, hour);
      var i :| LastCovering(prefix, i, day, hour);
      assert LastCovering(steps, i, day, hour);
    }
  }

  /** Two dense grids with the same cells are the same grid. */
  lemma GridExtensionality(a: Grid, b: Grid)
    requires IsGrid(a) && IsGrid(b)
    requires forall d, h :: IsDay(d) && IsHour(h) ==> a[d][h] == b[d][h]
    ensures a == b
  {
    forall d | 0 <= d < Days ensures a[d] == b[d] {
      forall h | 0 <= h < HoursPerDay ensures a[d][h] == b[d][h] {
        assert IsDay(d) && IsHour(h);
      }
    }
  }

  // ---------------------------------------------------------------------------
  // What a single step writes, in closed form

  function PrevDay(d: int): int {
    (d + Days - 1) % Days
  }

  /** A step within one day writes hours `start.hour .. end.hour - 1` of each listed day,
      plus the end hour itself when the end minute is not zero, and nothing else. */
  lemma NonWrappingStepCells(g: Grid, s: Step, day: int, hour: int)
    requires IsGrid(g) && ValidStep(s) && !Wraps(s) && IsDay(day) && IsHour(hour)
    ensures ApplyStep(g, s)[day][hour] ==
      if day in s.days && s.start.hour <= hour && (hour < s.end.hour || (s.end.minute > 0 && hour == s.end.hour))
      then s.instances else g[day][hour]
  {
    if day in s.days && s.start.hour <= hour && BeforeEnd(s, hour) {
      assert WritesFor(s, day, day, hour);
    }
  }

  /** A step past midnight writes hours `start.hour .. 23` of each listed day and hours
      `0 .. end.hour - 1` of the following day (Sunday wraps to Monday), plus that day's
      end hour when the end minute is not zero. */
  lemma WrappingStepCells(g: Grid, s: Step, day: int, hour: int)
    requires IsGrid(g) && ValidStep(s) && Wraps(s) && IsDay(day) && IsHour(hour)
    ensures ApplyStep(g, s)[day][hour] ==
      if (day in s.days && s.start.hour <= hour) ||
         (PrevDay(day) in s.days && (hour < s.end.hour || (s.end.minute > 0 && hour == s.end.hour)))
      then s.instances else g[day][hour]
  {
    WrappingCovers(s, day, hour);
  }

  /** The cells a step past midnight covers, without the quantifier over its days. */
  lemma WrappingCovers(s: Step, day: int, hour: int)
    requires ValidStep(s) && Wraps(s) && IsDay(day)
    ensures Covers(s, day, hour) <==>
      (day in s.days && s.start.hour <= hour) || (PrevDay(day) in s.days && BeforeEnd(s, hour))
  {
    if day in s.days && s.start.hour <= hour {
      assert WritesFor(s, day, day, hour);
    } else if PrevDay(day) in s.days && BeforeEnd(s, hour) {
      NextDayInverse(PrevDay(day), day);
      assert WritesFor(s, PrevDay(day), day, hour);
    } else if Covers(s, day, hour) {
      var d :| d in s.days && WritesFor(s, d, day, hour);
      var i :| 0 <= i < |s.days| && s.days[i] == d;
      assert IsDay(d);
      NextDayInverse(d, day);
      assert false;
    }
  }

  /** Within the week, the next day of `d` is `day` exactly when `d` is the day before `day`. */
  lemma NextDayInverse(d: int, day: int)
    requires IsDay(d) && IsDay(day)
    ensures NextDay(d) == day <==> d == PrevDay(day)
  {
    if d == 6 {
      assert NextDay(d) == 0;
    } else {
      assert NextDay(d) == d + 1;
    }
    if day == 0 {
      assert PrevDay(day) == 6;
    } else {
      assert PrevDay(day) == day - 1;
    }
  }

  /** A step whose start and end are both 00:00 is not read as a whole day: it writes no cell. */
  lemma MidnightToMidnightWritesNothing(g: Grid, s: Step)
    requires IsGrid(g) && ValidStep(s) && s.start == Time(0, 0) && s.end == Time(0, 0)
    ensures ApplyStep(g, s) == g
  {
    var r := ApplyStep(g, s);
    forall d, h | IsDay(d) && IsHour(h) ensures r[d][h] == g[d][h] {
      NonWrappingStepCells(g, s, d, h);
    }
    GridExtensionality(r, g);
  }

  /** Monday 09:00-17:00 at 2 instances, then Monday 09:00-10:00 at 5: hour 9 ends at 5
      (overwritten, not 2 and not 7), hour 12 stays 2 and Tuesday stays idle. */
  lemma LastWriterWinsExample()
    ensures var a := Step(1, [0], Time(9, 0), Time(17, 0), 2);
            var b := Step(2, [0], Time(9, 0), Time(10, 0), 5);
            var r := ApplySteps([a, b]);
            r[0][9] == 5 && r[0][12] == 2 && r[1][9] == 0
  {
    var a := Step(1, [0], Time(9, 0), Time(17, 0), 2);
    var b := Step(2, [0], Time(9, 0), Time(10, 0), 5);
    var steps := [a, b];
    assert WritesFor(b, 0, 0, 9);
    assert LastCovering(steps, 1, 0, 9);
    assert WritesFor(a, 0, 0, 12);
    assert !Covers(b, 0, 12);
    assert LastCovering(steps, 0, 0, 12);
    assert !Covers(a, 1, 9) && !Covers(b, 1, 9);
    assert Uncovered(steps, 1, 9);
  }

  /** Monday 23:00-02:00 at 3 instances fills Monday 23 and Tuesday 0 and 1, not Tuesday 2. */
  lemma PastMidnightExample()
    ensures var s := Step(1, [0], Time(23, 0), Time(2, 0), 3);
            var r := ApplySteps([s]);
            r[0][23] == 3 && r[1][0] == 3 && r[1][1] == 3 && r[1][2] == 0 && r[0][0] == 0
  {
    var s := Step(1, [0], Time(23, 0), Time(2, 0), 3);
    assert WritesFor(s, 0, 0, 23) && WritesFor(s, 0, 1, 0) && WritesFor(s, 0, 1, 1);
    assert LastCovering([s], 0, 0, 23) && LastCovering([s], 0, 1, 0) && LastCovering([s], 0, 1, 1);
    assert Uncovered([s], 1, 2) && Uncovered([s], 0, 0);
  }

  // ---------------------------------------------------------------------------
  // The step list

  /** `initializeDefaultSteps`: weekdays 06:00-23:00 at 2, weekends 06:00-23:00 at 1,
      and every night 23:00-06:00 at 0. */
  function DefaultSteps(): (r: seq<Step>)
    ensures ValidSteps(r)
  {
    [ Step(1, [0, 1, 2, 3, 4], Time(6, 0), Time(23, 0), 2),
      Step(2, [5, 6], Time(6, 0), Time(23, 0), 1),
      Step(3, [0, 1, 2, 3, 4, 5, 6], Time(23, 0), Time(6, 0), 0) ]
  }

  /** Applying the default steps runs 2 instances on weekdays and 1 at weekends from
      06:00 to 23:00 and nothing overnight (unlike the 'extended' preset, whose weekends
      run all night). */
  lemma DefaultStepsSchedule(day: int, hour: int)
    requires IsDay(day) && IsHour(hour)
    ensures ApplySteps(DefaultSteps())[day][hour] == if 6 <= hour <= 22 then (if day <= 4 then 2 else 1) else 0
  {
    if 6 <= hour <= 22 {
      DefaultStepsDaytime(day, hour);
    } else {
      DefaultStepsNight(day, hour);
    }
  }

  lemma DefaultStepsDaytime(day: int, hour: int)
    requires IsDay(day) && 6 <= hour <= 22
    ensures ApplySteps(DefaultSteps())[day][hour] == if day <= 4 then 2 else 1
  {
    var steps := DefaultSteps();
    assert !Covers(steps[2], day, hour);
    if day <= 4 {
      assert WritesFor(steps[0], day, day, hour);
      assert LastCovering(steps, 0, day, hour);
    } else {
      assert WritesFor(steps[1], day, day, hour);
      assert LastCovering(steps, 1, day, hour);
    }
  }

  /** The overnight step is listed last, so its count of 0 wins every night cell. */
  lemma DefaultStepsNight(day: int, hour: int)
    requires IsDay(day) && IsHour(hour) && !(6 <= hour <= 22)
    ensures ApplySteps(DefaultSteps())[day][hour] == 0
  {
    var steps := DefaultSteps();
    var night := steps[2];
    if hour == 23 {
      assert WritesFor(night, day, day, hour);
    } else {
      NextDayInverse(PrevDay(day), day);
      assert WritesFor(night, PrevDay(day), day, hour);
    }
    assert LastCovering(steps, 2, day, hour);
  }

  /** The step `addStep` appends: no days yet, 09:00-18:00, one instance. */
  function NewStep(id: int): (s: Step)
    ensures ValidStep(s) && s.id == id && s.days == []
  {
    Step(id, [], Time(9, 0), Time(18, 0), 1)
  }

  /** `addStep`: exactly one step is appended; the existing steps are untouched. */
  function AddStep(steps: seq<Step>, newId: int): (r: seq<Step>)
    ensures |r| == |steps| + 1 && r[..|steps|] == steps
    ensures r[|steps|].id == newId && r[|steps|].days == [] && r[|steps|].instances == 1
    ensures r[|steps|].start == Time(9, 0) && r[|steps|].end == Time(18, 0)
  {
    steps + [NewStep(newId)]
  }

  /** A freshly added step has no days yet, so applying the list gives the same schedule. */
  lemma AddStepKeepsSchedule(steps: seq<Step>, newId: int)
    requires ValidSteps(steps)
    ensures ValidSteps(AddStep(steps, newId))
    ensures ApplySteps(AddStep(steps, newId)) == ApplySteps(steps)
  {
    var steps' := AddStep(steps, newId);
    assert forall i :: 0 <= i < |steps| ==> steps'[i] == steps[i];
    var a := ApplySteps(steps');
    var b := ApplySteps(steps);
    forall d, h | IsDay(d) && IsHour(h) ensures a[d][h] == b[d][h] {
      assert !Covers(steps'[|steps|], d, h);
      if Uncovered(steps, d, h) {
        assert Uncovered(steps', d, h);
      } else {
        LastCoveringExists(steps, d, h);
        var i :| LastCovering(steps, i, d, h);
        assert LastCovering(steps', i, d, h);
      }
    }
    GridExtensionality(a, b);
  }

  /** `removeStep`: `configSteps.filter(step => step.id !== stepId)`. */
  function RemoveStep(steps: seq<Step>, id: int): (r: seq<Step>)
    ensures |r| <= |steps|
    ensures forall i :: 0 <= i < |r| ==> r[i].id != id && r[i] in steps
    ensures forall i :: 0 <= i < |steps| && steps[i].id != id ==> steps[i] in r
    ensures ValidSteps(steps) ==> ValidSteps(r)
  {
    Seqs.Filter(steps, (s: Step) => s.id != id)
  }

  /** Removal keeps the surviving steps in their order: it works piecewise on any split of the list. */
  lemma RemoveStepKeepsOrder(front: seq<Step>, back: seq<Step>, id: int)
    ensures RemoveStep(front + back, id) == RemoveStep(front, id) + RemoveStep(back, id)
  {
    Seqs.FilterAppend(front, back, (s: Step) => s.id != id);
  }

  /** Removing an id no step carries leaves the list as it is. */
  lemma RemoveAbsentStep(steps: seq<Step>, id: int)
    requires forall i :: 0 <= i < |steps| ==> steps[i].id != id
    ensures RemoveStep(steps, id) == steps
  {
    Seqs.FilterKeepsAll(steps, (s: Step) => s.id != id);
  }

  /** The fields a `Partial<ScheduleStep>` update may carry. */
  datatype StepUpdate = StepUpdate(
    id: Option<int>, days: Option<seq<int>>, start: Option<Time>, end: Option<Time>, instances: Option<int>)

  /** `{ ...step, ...updates }`: the fields present in the update win. */
  function MergeStep(s: Step, u: StepUpdate): Step {
    Step(u.id.GetOr(s.id), u.days.GetOr(s.days), u.start.GetOr(s.start), u.end.GetOr(s.end),
         u.instances.GetOr(s.instances))
  }

  /** `updateStep`: the steps with the matching id take the update; the list keeps its
      length and order and every other step is untouched. */
  function UpdateStep(steps: seq<Step>, id: int, u: StepUpdate): (r: seq<Step>)
    ensures |r| == |steps|
    ensures forall i :: 0 <= i < |steps| && steps[i].id != id ==> r[i] == steps[i]
    ensures forall i :: 0 <= i < |steps| && steps[i].id == id ==> r[i] == MergeStep(steps[i], u)
  {
    Seqs.MapMatching(steps, (s: Step) => s.id == id, (s: Step) => MergeStep(s, u))
  }

  /** Sending the same update twice has the effect of sending it once. */
  lemma UpdateStepIdempotent(steps: seq<Step>, id: int, u: StepUpdate)
    ensures UpdateStep(UpdateStep(steps, id, u), id, u) == UpdateStep(steps, id, u)
  {
    var once := UpdateStep(steps, id, u);
    var twice := UpdateStep(once, id, u);
    forall i | 0 <= i < |steps| ensures twice[i] == once[i] {
      if steps[i].id == id && once[i].id == id {
        assert MergeStep(once[i], u) == once[i];
      }
    }
  }

  // ---------------------------------------------------------------------------
  // The stored form of a schedule

  /** `Record<number, Record<number, number>>`: the schedule as it is stored with an app,
      where days and hours may be missing (a new app starts with `{}`). */
  type SparseSchedule = map<int, map<int, int>>

  /** `schedule[day]?.[hour] || 0`: a missing day or hour reads as 0 instances. */
  function CellOrZero(s: SparseSchedule, day: int, hour: int): int {
    if day in s && hour in s[day] then s[day][hour] else 0
  }

  /** The dense grid read off a stored schedule, every missing cell as 0. */
  function Normalize(s: SparseSchedule): (g: Grid)
    ensures IsGrid(g)
    ensures forall d, h {:trigger g[d][h]} :: IsDay(d) && IsHour(h) ==> g[d][h] == CellOrZero(s, d, h)
  {
    seq(Days, d => seq(HoursPerDay, h => CellOrZero(s, d, h)))
  }

  /** The stored form of a dense grid: every day and hour present. */
  function ToSparse(g: Grid): (s: SparseSchedule)
    requires IsGrid(g)
    ensures forall d :: IsDay(d) <==> d in s
    ensures forall d, h :: IsDay(d) ==> (IsHour(h) <==> h in s[d])
  {
    map d | 0 <= d < Days :: map h | 0 <= h < HoursPerDay :: g[d][h]
  }

  /** Storing a dense grid and reading it back gives the same grid. */
  lemma NormalizeToSparse(g: Grid)
    requires IsGrid(g)
    ensures Normalize(ToSparse(g)) == g
  {
    var r := Normalize(ToSparse(g));
    forall d, h | IsDay(d) && IsHour(h) ensures r[d][h] == g[d][h] {
      assert CellOrZero(ToSparse(g), d, h) == g[d][h];
    }
    GridExtensionality(r, g);
  }

  /** An app with an empty stored schedule (as `addApp` creates) reads as all zeros. */
  lemma NormalizeEmpty()
    ensures Normalize(map[]) == EmptyGrid()
  {
    GridExtensionality(Normalize(map[]), EmptyGrid());
  }
}

=== FILE: seqs.dfy ===
/** Generic list operations shared by the step list and the app list:
    `Array.prototype.filter`, `find` and "map, replacing the matching elements". */
module Seqs {
  import opened Wrappers

  /** No element occurs twice. */
  predicate Distinct<T(==)>(xs: seq<T>) {
    forall i, j :: 0 <= i < j < |xs| ==> xs[i] != xs[j]
  }

  /** The elements of `xs` that satisfy `keep`, in their original order. */
  function Filter<T>(xs: seq<T>, keep: T -> bool): (r: seq<T>)
    ensures |r| <= |xs|
    ensures forall i :: 0 <= i < |r| ==> r[i] in xs && keep(r[i])
    ensures forall i :: 0 <= i < |xs| && keep(xs[i]) ==> xs[i] in r
  {
    if |xs| == 0 then []
    else (if keep(xs[0]) then [xs[0]] else []) + Filter(xs[1..], keep)
  }

  /** Filtering a concatenation filters each part in place: the survivors keep their relative order. */
  lemma {:induction false} FilterAppend<T>(xs: seq<T>, ys: seq<T>, keep: T -> bool)
    ensures Filter(xs + ys, keep) == Filter(xs, keep) + Filter(ys, keep)
  {
    if |xs| == 0 {
      assert xs + ys == ys;
    } else {
      assert (xs + ys)[0] == xs[0];
      assert (xs + ys)[1..] == xs[1..] + ys;
      FilterAppend(xs[1..], ys, keep);
    }
  }

  /** When every element survives, filtering is the identity. */
  lemma {:induction false} FilterKeepsAll<T>(xs: seq<T>, keep: T -> bool)
    requires forall i :: 0 <= i < |xs| ==> keep(xs[i])
    ensures Filter(xs, keep) == xs
  {
    if |xs| > 0 {
      FilterKeepsAll(xs[1..], keep);
      assert [xs[0]] + xs[1..] == xs;
    }
  }

  /** Filtering a second time with the same test changes nothing. */
  lemma {:induction false} FilterIdempotent<T>(xs: seq<T>, keep: T -> bool)
    ensures Filter(Filter(xs, keep), keep) == Filter(xs, keep)
  {
    var r := Filter(xs, keep);
    FilterKeepsAll(r, keep);
  }

  /** `xs.map(x => matches(x) ? update(x) : x)`: the matching elements are replaced
      by their update, every other element stays where it was. */
  function MapMatching<T>(xs: seq<T>, matches: T -> bool, update: T -> T): (r: seq<T>)
    ensures |r| == |xs|
    ensures forall i :: 0 <= i < |xs| ==> r[i] == (if matches(xs[i]) then update(xs[i]) else xs[i])
  {
    if |xs| == 0 then []
    else [if matches(xs[0]) then update(xs[0]) else xs[0]] + MapMatching(xs[1..], matches, update)
  }

  /** Filtering never introduces a repetition. */
  lemma {:induction false} FilterDistinct<T>(xs: seq<T>, keep: T -> bool)
    requires Distinct(xs)
    ensures Distinct(Filter(xs, keep))
  {
    if |xs| > 0 {
      var tail := xs[1..];
      assert Distinct(tail) by {
        forall i, j | 0 <= i < j < |tail| ensures tail[i] != tail[j] {
          assert tail[i] == xs[i + 1] && tail[j] == xs[j + 1];
        }
      }
      FilterDistinct(tail, keep);
      assert xs[0] !in tail by {
        forall i | 0 <= i < |tail| ensures tail[i] != xs[0] {
          assert tail[i] == xs[i + 1];
        }
      }
    }
  }

  /** `xs.findIndex(p)`, with "not found" reported as `|xs|`: the first position whose element
      satisfies `p`. */
  function FindIndex<T>(xs: seq<T>, p: T -> bool): (k: nat)
    ensures k <= |xs|
    ensures forall i :: 0 <= i < k ==> !p(xs[i])
    ensures k < |xs| ==> p(xs[k])
  {
    if |xs| == 0 then 0 else if p(xs[0]) then 0 else 1 + FindIndex(xs[1..], p)
  }

  /** `xs.find(p)`: the first element satisfying `p`, or nothing when there is none. */
  function Find<T>(xs: seq<T>, p: T -> bool): (r: Option<T>)
    ensures r.None? <==> forall i :: 0 <= i < |xs| ==> !p(xs[i])
    ensures r.Some? ==> exists k :: 0 <= k < |xs| && xs[k] == r.value && p(xs[k]) &&
                                    forall i :: 0 <= i < k ==> !p(xs[i])
  {
    var k := FindIndex(xs, p);
    if k < |xs| then Some(xs[k]) else None
  }
}

=== FILE: stats.dfy ===
/** The integer statistics `calculateCosts` reads off a schedule (`src/hooks/useCalculator.ts`):
    active instance-hours (the sum of the strictly positive cells), active slots (the number
    of strictly positive cells) and the largest count (never below 0).

    The reductions are defined over any list of rows, because the CSV export receives
    schedules of arbitrary shape; on a dense 7 x 24 grid they range over all 168 cells. */
module Stats {
  import opened Schedule

  /** An hour with zero (or a negative) count runs nothing and is billed nothing. */
  function Positive(x: int): nat {
    if x > 0 then x else 0
  }

  /** Instance-hours of one day: the sum of its strictly positive counts. */
  function RowActiveSum(row: seq<int>): nat {
    if |row| == 0 then 0 else RowActiveSum(row[..|row| - 1]) + Positive(row[|row| - 1])
  }

  /** Active slots of one day: how many counts are strictly positive. */
  function RowActiveCount(row: seq<int>): (r: nat)
    ensures r <= |row|
  {
    if |row| == 0 then 0
    else RowActiveCount(row[..|row| - 1]) + (if row[|row| - 1] > 0 then 1 else 0)
  }

  /** `Math.max(0, ...day)`: the largest count of a day, and 0 for an empty or idle day. */
  function RowMax(row: seq<int>): (r: int)
    ensures r >= 0
  {
    if |row| == 0 then 0
    else
      var m := RowMax(row[..|row| - 1]);
      var last := row[|row| - 1];
      if last > m then last else m
  }

  /** Total active instance-hours of a schedule. */
  function GridActiveSum(g: Grid): nat {
    if |g| == 0 then 0 else GridActiveSum(g[..|g| - 1]) + RowActiveSum(g[|g| - 1])
  }

  /** Number of cells, summed row by row. */
  function CellCount(g: Grid): nat {
    if |g| == 0 then 0 else CellCount(g[..|g| - 1]) + |g[|g| - 1]|
  }

  /** Total active slots of a schedule. */
  function GridActiveCount(g: Grid): nat {
    if |g| == 0 then 0 else GridActiveCount(g[..|g| - 1]) + RowActiveCount(g[|g| - 1])
  }

  /** `Math.max(0, ...days.map(dayMax))`: the largest count anywhere, and 0 when none is positive. */
  function GridMax(g: Grid): (r: int)
    ensures r >= 0
  {
    if |g| == 0 then 0
    else
      var m := GridMax(g[..|g| - 1]);
      var last := RowMax(g[|g| - 1]);
      if last > m then last else m
  }

  /** A day has no instance-hours, and no active slot, exactly when none of its counts is positive. */
  lemma {:induction false} RowIdle(row: seq<int>)
    ensures RowActiveSum(row) == 0 <==> forall i :: 0 <= i < |row| ==> row[i] <= 0
    ensures RowActiveCount(row) == 0 <==> forall i :: 0 <= i < |row| ==> row[i] <= 0
  {
    if |row| > 0 {
      var n := |row| - 1;
      RowIdle(row[..n]);
      assert forall i :: 0 <= i < n ==> row[..n][i] == row[i];
    }
  }

  /** A day is active in every slot exactly when all of its counts are positive. */
  lemma {:induction false} RowFull(row: seq<int>)
    ensures RowActiveCount(row) == |row| <==> forall i :: 0 <= i < |row| ==> row[i] > 0
  {
    if |row| > 0 {
      var n := |row| - 1;
      RowFull(row[..n]);
      assert forall i :: 0 <= i < n ==> row[..n][i] == row[i];
    }
  }

  /** The day's maximum bounds every count, and unless it is 0 some count attains it. */
  lemma {:induction false} RowMaxIsPeak(row: seq<int>)
    ensures forall i :: 0 <= i < |row| ==> row[i] <= RowMax(row)
    ensures RowMax(row) == 0 || exists i :: 0 <= i < |row| && row[i] == RowMax(row)
  {
    if |row| > 0 {
      var n := |row| - 1;
      RowMaxIsPeak(row[..n]);
      assert forall i :: 0 <= i < n ==> row[..n][i] == row[i];
      if RowMax(row) != 0 && RowMax(row) != row[n] {
        var i :| 0 <= i < n && row[..n][i] == RowMax(row[..n]);
        assert row[i] == RowMax(row);
      }
    }
  }

  /** A schedule has no instance-hours, and no active slot, exactly when no cell is positive. */
  lemma {:induction false} GridIdle(g: Grid)
    ensures GridActiveSum(g) == 0 <==> forall d, h :: 0 <= d < |g| && 0 <= h < |g[d]| ==> g[d][h] <= 0
    ensures GridActiveCount(g) == 0 <==> forall d, h :: 0 <= d < |g| && 0 <= h < |g[d]| ==> g[d][h] <= 0
  {
    if |g| > 0 {
      var n := |g| - 1;
      GridIdle(g[..n]);
      RowIdle(g[n]);
      assert forall d :: 0 <= d < n ==> g[..n][d] == g[d];
    }
  }

  /** The schedule's maximum bounds every cell, and unless it is 0 some cell attains it. */
  lemma {:induction false} GridMaxIsPeak(g: Grid)
    ensures forall d, h :: 0 <= d < |g| && 0 <= h < |g[d]| ==> g[d][h] <= GridMax(g)
    ensures GridMax(g) == 0 || exists d, h :: 0 <= d < |g| && 0 <= h < |g[d]| && g[d][h] == GridMax(g)
  {
    if |g| > 0 {
      var n := |g| - 1;
      GridMaxIsPeak(g[..n]);
      RowMaxIsPeak(g[n]);
      assert forall d :: 0 <= d < n ==> g[..n][d] == g[d];
      if GridMax(g) != 0 {
        if GridMax(g) == RowMax(g[n]) {
          var h :| 0 <= h < |g[n]| && g[n][h] == RowMax(g[n]);
          assert g[n][h] == GridMax(g);
        } else {
          var d, h :| 0 <= d < n && 0 <= h < |g[..n][d]| && g[..n][d][h] == GridMax(g[..n]);
          assert g[d][h] == GridMax(g);
        }
      }
    }
  }

  /** No more active slots than cells. */
  lemma {:induction false} GridCountBound(g: Grid)
    ensures GridActiveCount(g) <= CellCount(g)
  {
    if |g| > 0 {
      GridCountBound(g[..|g| - 1]);
    }
  }

  lemma {:induction false} UniformCellCount(g: Grid, n: nat)
    requires forall d :: 0 <= d < |g| ==> |g[d]| == n
    ensures CellCount(g) == |g| * n
  {
    if |g| > 0 {
      UniformCellCount(g[..|g| - 1], n);
    }
  }

  /** A dense grid has 168 cells, so at most 168 of them are active. */
  lemma GridCells(g: Grid)
    requires IsGrid(g)
    ensures CellCount(g) == 168
    ensures GridActiveCount(g) <= 168
  {
    UniformCellCount(g, 24);
    GridCountBound(g);
  }

  /** The loop of `calculateCosts`: it walks the 168 cells in day-major order, adding each
      positive count to the instance-hours and counting every other cell as an idle hour.
      Its totals agree with the reductions above. */
  method TallyActiveHours(g: Grid) returns (totalActiveInstanceHours: int, totalZeroInstanceHours: int)
    requires IsGrid(g)
    ensures totalActiveInstanceHours == GridActiveSum(g)
    ensures totalZeroInstanceHours == 168 - GridActiveCount(g)
  {
    totalActiveInstanceHours := 0;
    totalZeroInstanceHours := 0;
    var day := 0;
    while day < 7
      invariant 0 <= day <= 7
      invariant totalActiveInstanceHours == GridActiveSum(g[..day])
      invariant totalZeroInstanceHours == 24 * day - GridActiveCount(g[..day])
    {
      var row := g[day];
      var hour := 0;
      while hour < 24
        invariant 0 <= hour <= 24
        invariant totalActiveInstanceHours == GridActiveSum(g[..day]) + RowActiveSum(row[..hour])
        invariant totalZeroInstanceHours == 24 * day - GridActiveCount(g[..day]) + hour - RowActiveCount(row[..hour])
      {
        var instances := row[hour];
        if instances > 0 {
          totalActiveInstanceHours := totalActiveInstanceHours + instances;
        } else {
          totalZeroInstanceHours := totalZeroInstanceHours + 1;
        }
        assert row[..hour + 1][..hour] == row[..hour];
        hour := hour + 1;
      }
      assert row[..24] == row;
      assert g[..day + 1][..day] == g[..day];
      day := day + 1;
    }
    assert g[..7] == g;
  }

  function Indicator(x: int): nat {
    if x > 0 then 1 else 0
  }

  // ---------------------------------------------------------------------------
  // Editing one cell

  lemma {:induction false} RowUpdate(row: seq<int>, h: int, v: int)
    requires 0 <= h < |row|
    ensures RowActiveSum(row[h := v]) == RowActiveSum(row) - Positive(row[h]) + Positive(v)
    ensures RowActiveCount(row[h := v]) == RowActiveCount(row) - Indicator(row[h]) + Indicator(v)
    decreases |row|
  {
    var row' := row[h := v];
    var n := |row| - 1;
    if h == n {
      assert row'[..n] == row[..n];
    } else {
      assert row'[..n] == row[..n][h := v];
      RowUpdate(row[..n], h, v);
    }
  }

  /** `updateSchedule` moves the totals by exactly the change of the one cell: the old
      count's contribution leaves, the new one's arrives. */
  lemma {:induction false} GridUpdate(g: Grid, d: int, h: int, v: int)
    requires 0 <= d < |g| && 0 <= h < |g[d]|
    ensures GridActiveSum(g[d := g[d][h := v]]) == GridActiveSum(g) - Positive(g[d][h]) + Positive(v)
    ensures GridActiveCount(g[d := g[d][h := v]]) == GridActiveCount(g) - Indicator(g[d][h]) + Indicator(v)
    decreases |g|
  {
    var g' := g[d := g[d][h := v]];
    var n := |g| - 1;
    if d == n {
      assert g'[..n] == g[..n];
      RowUpdate(g[d], h, v);
    } else {
      assert g'[..n] == g[..n][d := g[d][h := v]];
      GridUpdate(g[..n], d, h, v);
    }
  }

  /** The same, stated for the model of `updateSchedule` on a dense grid. */
  lemma UpdateScheduleStats(g: Grid, day: int, hour: int, v: int)
    requires IsGrid(g) && IsDay(day) && IsHour(hour)
    ensures GridActiveSum(UpdateSchedule(g, day, hour, v)) == GridActiveSum(g) - Positive(g[day][hour]) + Positive(v)
    ensures GridActiveCount(UpdateSchedule(g, day, hour, v)) == GridActiveCount(g) - Indicator(g[day][hour]) + Indicator(v)
  {
    GridUpdate(g, day, hour, v);
  }

  // ---------------------------------------------------------------------------
  // Monotonicity: raising counts never lowers the statistics

  lemma {:induction false} RowMonotone(a: seq<int>, b: seq<int>)
    requires |a| == |b|
    requires forall i :: 0 <= i < |a| ==> a[i] <= b[i]
    ensures RowActiveSum(a) <= RowActiveSum(b)
    ensures RowActiveCount(a) <= RowActiveCount(b)
    ensures RowMax(a) <= RowMax(b)
  {
    if |a| > 0 {
      RowMonotone(a[..|a| - 1], b[..|b| - 1]);
    }
  }

  /** A schedule that runs at least as many instances in every hour has at least as many
      instance-hours, active slots and peak instances. */
  lemma {:induction false} GridMonotone(a: Grid, b: Grid)
    requires |a| == |b|
    requires forall d :: 0 <= d < |a| ==> |a[d]| == |b[d]|
    requires forall d, h :: 0 <= d < |a| && 0 <= h < |a[d]| ==> a[d][h] <= b[d][h]
    ensures GridActiveSum(a) <= GridActiveSum(b)
    ensures GridActiveCount(a) <= GridActiveCount(b)
    ensures GridMax(a) <= GridMax(b)
  {
    if |a| > 0 {
      var n := |a| - 1;
      GridMonotone(a[..n], b[..n]);
      RowMonotone(a[n], b[n]);
    }
  }

  // ---------------------------------------------------------------------------
  // How the three statistics bound each other

  /** The arithmetic step shared by the two bound proofs below. */
  lemma BoundStep(sp: int, cp: nat, mp: int, pl: int, il: nat, m: int, c: int)
    requires sp <= cp * mp && mp <= m && pl <= il * m && c == cp + il
    ensures sp + pl <= c * m
  {
    assert cp * mp <= cp * m;
    assert (cp + il) * m == cp * m + il * m;
  }

  lemma MulMonotone(k: nat, x: int, y: int)
    requires x <= y
    ensures k * x <= k * y
  {
  }

  lemma Distribute(a: int, b: int, m: int)
    ensures (a + b) * m == a * m + b * m
  {
  }

  lemma {:induction false} RowBounds(row: seq<int>)
    ensures RowActiveCount(row) <= RowActiveSum(row)
    ensures RowActiveSum(row) <= RowActiveCount(row) * RowMax(row)
  {
    if |row| > 0 {
      var n := |row| - 1;
      var p := row[..n];
      RowBounds(p);
      var last := row[n];
      var m := RowMax(row);
      assert Positive(last) <= Indicator(last) * m;
      BoundStep(RowActiveSum(p), RowActiveCount(p), RowMax(p), Positive(last), Indicator(last), m, RowActiveCount(row));
    }
  }

  /** Every active slot carries at least one instance and at most the peak count, so
      active slots <= instance-hours <= active slots * peak. */
  lemma {:induction false} GridBounds(g: Grid)
    ensures GridActiveCount(g) <= GridActiveSum(g)
    ensures GridActiveSum(g) <= GridActiveCount(g) * GridMax(g)
  {
    if |g| > 0 {
      var n := |g| - 1;
      var p := g[..n];
      GridBounds(p);
      RowBounds(g[n]);
      var m := GridMax(g);
      var cr, mr := RowActiveCount(g[n]), RowMax(g[n]);
      assert mr <= m;
      MulMonotone(cr, mr, m);
      assert GridActiveSum(g) == GridActiveSum(p) + RowActiveSum(g[n]);
      assert GridActiveCount(g) == GridActiveCount(p) + cr;
      BoundStep(GridActiveSum(p), GridActiveCount(p), GridMax(p), RowActiveSum(g[n]), cr, m, GridActiveCount(g));
    } else {
      assert GridActiveCount(g) == 0;
    }
  }

  // ---------------------------------------------------------------------------
  // Uniform schedules

  lemma {:induction false} UniformRow(row: seq<int>, c: int)
    requires c > 0
    requires forall i :: 0 <= i < |row| ==> row[i] == c
    ensures RowActiveSum(row) == |row| * c
    ensures RowActiveCount(row) == |row|
  {
    if |row| > 0 {
      var n := |row| - 1;
      UniformRow(row[..n], c);
      assert RowActiveSum(row) == n * c + c;
      Distribute(n, 1, c);
    }
  }

  lemma {:induction false} UniformRows(g: Grid, c: int)
    requires c > 0
    requires forall d :: 0 <= d < |g| ==> |g[d]| == 24
    requires forall d, h :: 0 <= d < |g| && 0 <= h < |g[d]| ==> g[d][h] == c
    ensures GridActiveSum(g) == |g| * (24 * c)
    ensures GridActiveCount(g) == |g| * 24
  {
    if |g| > 0 {
      var n := |g| - 1;
      UniformRows(g[..n], c);
      UniformRow(g[n], c);
      assert GridActiveSum(g) == n * (24 * c) + 24 * c;
      Distribute(n, 1, 24 * c);
    }
  }

  /** A dense grid holding the same positive count `c` everywhere is active in all 168
      slots, with 168 * c instance-hours and peak `c`. */
  lemma UniformGridStats(g: Grid, c: int)
    requires IsGrid(g) && c > 0
    requires forall d, h :: IsDay(d) && IsHour(h) ==> g[d][h] == c
    ensures GridActiveCount(g) == 168
    ensures GridActiveSum(g) == 168 * c
    ensures GridMax(g) == c
  {
    forall d, h | 0 <= d < |g| && 0 <= h < |g[d]| ensures g[d][h] == c {
      assert IsDay(d) && IsHour(h);
    }
    UniformRows(g, c);
    GridMaxIsPeak(g);
    assert IsDay(0) && IsHour(0);
    assert g[0][0] == c;
  }

  /** The '247' preset: every slot active, 336 instance-hours, peak 2. */
  lemma AroundTheClockStats()
    ensures GridActiveCount(SchedulePreset(AroundTheClock)) == 168
    ensures GridActiveSum(SchedulePreset(AroundTheClock)) == 336
    ensures GridMax(SchedulePreset(AroundTheClock)) == 2
  {
    UniformGridStats(SchedulePreset(AroundTheClock), 2);
  }

  /** A step on all seven days from 00:00 to 23:30 with `n > 0` instances (the end hour
      counts because its minute is not zero) makes every slot active with peak `n`. */
  lemma WholeWeekStepStats(s: Step)
    requires ValidStep(s) && s.start == Time(0, 0) && s.end == Time(23, 30) && s.instances > 0
    requires forall d :: IsDay(d) ==> d in s.days
    ensures var g := ApplySteps([s]);
            GridActiveCount(g) == 168 && GridMax(g) == s.instances && GridActiveSum(g) == 168 * s.instances
  {
    var g := ApplySteps([s]);
    forall d, h | IsDay(d) && IsHour(h) ensures g[d][h] == s.instances {
      assert WritesFor(s, d, d, h);
      assert LastCovering([s], 0, d, h);
    }
    UniformGridStats(g, s.instances);
  }
}

=== FILE: step_editor.dfy ===
/** The step editor's own helpers (`StepConfiguration.tsx`): ticking or unticking a day of a
    step, setting a start or end time, and typing an instance count. Each builds the partial
    update that `updateStep` then merges into the step list. */
module StepEditor {
  import opened Wrappers
  import opened Schedule
  import Seqs

  /** The new day list of a step: ticking adds the day at the end unless it is already there,
      unticking removes every occurrence of it. */
  function ToggleDay(days: seq<int>, day: int, shouldAdd: bool): (r: seq<int>)
    ensures forall x :: x in r <==> (x in days && x != day) || (shouldAdd && x == day)
    ensures shouldAdd ==> |r| == |days| + (if day in days then 0 else 1)
    ensures !shouldAdd ==> |r| <= |days|
    ensures shouldAdd && day in days ==> r == days
    ensures shouldAdd && day !in days ==> r == days + [day]
    ensures !shouldAdd ==> r == Seqs.Filter(days, (d: int) => d != day)
  {
    if shouldAdd then
      if day in days then days else days + [day]
    else
      Seqs.Filter(days, (d: int) => d != day)
  }

  /** Ticking or unticking never creates a repeated day. */
  lemma ToggleDayKeepsDistinct(days: seq<int>, day: int, shouldAdd: bool)
    requires Seqs.Distinct(days)
    ensures Seqs.Distinct(ToggleDay(days, day, shouldAdd))
  {
    if !shouldAdd {
      Seqs.FilterDistinct(days, (d: int) => d != day);
    }
  }

  /** Unticking keeps the remaining days in their order: it works piecewise on any split of
      the list. */
  lemma UntickKeepsOrder(front: seq<int>, back: seq<int>, day: int)
    ensures ToggleDay(front + back, day, false) == ToggleDay(front, day, false) + ToggleDay(back, day, false)
  {
    Seqs.FilterAppend(front, back, (d: int) => d != day);
  }

  /** Unticking a day the step does not have leaves its days as they are. */
  lemma UntickAbsentDay(days: seq<int>, day: int)
    requires day !in days
    ensures ToggleDay(days, day, false) == days
  {
    Seqs.FilterKeepsAll(days, (d: int) => d != day);
  }

  /** Unticking a day just ticked restores the list the step had, when the day was not in it. */
  lemma UntickUndoesTick(days: seq<int>, day: int)
    requires day !in days
    ensures ToggleDay(ToggleDay(days, day, true), day, false) == days
  {
    var keep := (d: int) => d != day;
    Seqs.FilterAppend(days, [day], keep);
    Seqs.FilterKeepsAll(days, keep);
    assert Seqs.Filter([day], keep) == [];
  }

  /** Ticking (or unticking) the same day twice is the same as doing it once. */
  lemma ToggleDayIdempotent(days: seq<int>, day: int, shouldAdd: bool)
    ensures ToggleDay(ToggleDay(days, day, shouldAdd), day, shouldAdd) == ToggleDay(days, day, shouldAdd)
  {
    if !shouldAdd {
      Seqs.FilterIdempotent(days, (d: int) => d != day);
    }
  }

  /** A step with valid days keeps valid days when a day of the week is ticked or unticked. */
  lemma ToggleDayKeepsDaysValid(days: seq<int>, day: int, shouldAdd: bool)
    requires forall i :: 0 <= i < |days| ==> IsDay(days[i])
    requires IsDay(day)
    ensures var r := ToggleDay(days, day, shouldAdd); forall i :: 0 <= i < |r| ==> IsDay(r[i])
  {
    var r := ToggleDay(days, day, shouldAdd);
    forall i | 0 <= i < |r| ensures IsDay(r[i]) {
      assert r[i] in r;
    }
  }

  /** The update that changes only the days. */
  function DaysUpdate(days: seq<int>): StepUpdate {
    StepUpdate(None, Some(days), None, None, None)
  }

  /** `updateStepDay`: nothing is sent when no step has the id; otherwise the days of the
      first step with that id are toggled and sent as the only field of the update. */
  function UpdateStepDay(steps: seq<Step>, stepId: int, day: int, shouldAdd: bool): (r: Option<StepUpdate>)
    ensures r.None? <==> forall i :: 0 <= i < |steps| ==> steps[i].id != stepId
    ensures r.Some? ==>
      exists k :: (0 <= k < |steps| && steps[k].id == stepId &&
                   (forall i :: 0 <= i < k ==> steps[i].id != stepId) &&
                   r.value == DaysUpdate(ToggleDay(steps[k].days, day, shouldAdd)))
  {
    match Seqs.Find(steps, (s: Step) => s.id == stepId)
    case None => None
    case Some(step) => Some(DaysUpdate(ToggleDay(step.days, day, shouldAdd)))
  }

  /** The step list after a day box is clicked: unchanged when the id is unknown, and otherwise
      the edit reaches the step with that id and changes nothing but its days. */
  function ClickDay(steps: seq<Step>, stepId: int, day: int, shouldAdd: bool): seq<Step> {
    match UpdateStepDay(steps, stepId, day, shouldAdd)
    case None => steps
    case Some(u) => UpdateStep(steps, stepId, u)
  }

  /** With distinct ids, clicking a day box toggles exactly that day of exactly that step. */
  lemma ClickDayTogglesOneStep(steps: seq<Step>, stepId: int, day: int, shouldAdd: bool)
    requires forall i, j :: 0 <= i < j < |steps| ==> steps[i].id != steps[j].id
    ensures var r := ClickDay(steps, stepId, day, shouldAdd);
      |r| == |steps| &&
      forall i :: 0 <= i < |steps| ==>
        if steps[i].id == stepId then r[i] == steps[i].(days := ToggleDay(steps[i].days, day, shouldAdd))
        else r[i] == steps[i]
  {
  }

  /** Which end of the step a time field sets. */
  datatype TimeField = StartTime | EndTime

  /** `updateStepTime`: the update sets the chosen time and nothing else. */
  function UpdateStepTime(field: TimeField, value: Time): (r: StepUpdate)
    ensures r.id.None? && r.days.None? && r.instances.None?
    ensures field == StartTime ==> r.start == Some(value) && r.end.None?
    ensures field == EndTime ==> r.end == Some(value) && r.start.None?
  {
    match field
    case StartTime => StepUpdate(None, None, Some(value), None, None)
    case EndTime => StepUpdate(None, None, None, Some(value), None)
  }

  /** `updateStepInstances`: `parseInt(value) || 0`, the parse result given as `None` when the
      text holds no number. A failed parse and a typed 0 both set 0 instances. */
  function UpdateStepInstances(parsed: Option<int>): (r: StepUpdate)
    ensures r.id.None? && r.days.None? && r.start.None? && r.end.None?
    ensures r.instances.Some?
    ensures parsed.Some? ==> r.instances.value == parsed.value
    ensures parsed.None? ==> r.instances.value == 0
  {
    StepUpdate(None, None, None, None, Some(parsed.GetOr(0)))
  }

  /** Typing an instance count changes the instances of the matching steps and nothing else. */
  lemma InstancesEditTouchesOnlyInstances(steps: seq<Step>, stepId: int, parsed: Option<int>)
    ensures var r := UpdateStep(steps, stepId, UpdateStepInstances(parsed));
      |r| == |steps| &&
      forall i :: 0 <= i < |steps| ==>
        r[i].id == steps[i].id && r[i].days == steps[i].days &&
        r[i].start == steps[i].start && r[i].end == steps[i].end &&
        r[i].instances == (if steps[i].id == stepId then parsed.GetOr(0) else steps[i].instances)
  {
  }

  /** Setting a time changes that time of the matching steps and nothing else. */
  lemma TimeEditTouchesOnlyThatTime(steps: seq<Step>, stepId: int, field: TimeField, value: Time)
    ensures var r := UpdateStep(steps, stepId, UpdateStepTime(field, value));
      |r| == |steps| &&
      forall i :: 0 <= i < |steps| ==>
        r[i].id == steps[i].id && r[i].days == steps[i].days && r[i].instances == steps[i].instances &&
        r[i].start == (if steps[i].id == stepId && field == StartTime then value else steps[i].start) &&
        r[i].end == (if steps[i].id == stepId && field == EndTime then value else steps[i].end)
  {
  }
}

=== FILE: text.dfy ===
/** Character and string helpers the application gets from JavaScript:
    decimal rendering of counts (template literals), `join` / `split`,
    and the ASCII character classes used by the filename sanitiser. */
module Text {

  predicate IsDigit(c: char) {
    '0' <= c <= '9'
  }

  predicate IsAsciiAlnum(c: char) {
    IsDigit(c) || 'a' <= c <= 'z' || 'A' <= c <= 'Z'
  }

  /** `String.prototype.toLowerCase` restricted to ASCII letters. */
  function LowerAscii(c: char): (r: char)
    ensures 'A' <= c <= 'Z' ==> 'a' <= r <= 'z' && r as int - 'a' as int == c as int - 'A' as int
    ensures !('A' <= c <= 'Z') ==> r == c
  {
    if 'A' <= c <= 'Z' then (c as int - 'A' as int + 'a' as int) as char else c
  }

  function DigitChar(d: nat): (c: char)
    requires d < 10
    ensures IsDigit(c)
  {
    ('0' as int + d) as char
  }

  /** The value of a string of decimal digits (the reading side of `NatToString`). */
  function DigitsValue(s: string): nat
    requires forall i :: 0 <= i < |s| ==> IsDigit(s[i])
  {
    if |s| == 0 then 0
    else
      var last := s[|s| - 1];
      assert IsDigit(last);
      DigitsValue(s[..|s| - 1]) * 10 + (last as int - '0' as int)
  }

  /** A non-negative integer as JavaScript renders it in a template literal:
      decimal, no sign, no leading zeros. */
  function NatToString(n: nat): (r: string)
    ensures |r| >= 1
    ensures forall i :: 0 <= i < |r| ==> IsDigit(r[i])
    ensures |r| > 1 ==> r[0] != '0'
  {
    if n < 10 then [DigitChar(n)] else NatToString(n / 10) + [DigitChar(n % 10)]
  }

  /** Reading back the decimal rendering gives the number. */
  lemma {:induction false} NatToStringRoundTrip(n: nat)
    ensures DigitsValue(NatToString(n)) == n
  {
    var s := NatToString(n);
    if n >= 10 {
      var p := NatToString(n / 10);
      assert s[..|s| - 1] == p;
      NatToStringRoundTrip(n / 10);
    }
  }

  /** A leading zero does not change a decimal value. */
  lemma {:induction false} DigitsValueZeroPrefix(s: string)
    requires forall i :: 0 <= i < |s| ==> IsDigit(s[i])
    ensures DigitsValue(['0'] + s) == DigitsValue(s)
  {
    var t := ['0'] + s;
    if |s| == 0 {
      assert t[..0] == [];
    } else {
      assert t[..|t| - 1] == ['0'] + s[..|s| - 1];
      DigitsValueZeroPrefix(s[..|s| - 1]);
    }
  }

  /** Padding decimal digits with zeros on the left keeps their value. */
  lemma {:induction false} ZeroPaddedDigitsValue(s: string, width: nat)
    requires forall i :: 0 <= i < |s| ==> IsDigit(s[i])
    ensures var r := PadStart(s, width, '0');
      (forall i :: 0 <= i < |r| ==> IsDigit(r[i])) && DigitsValue(r) == DigitsValue(s)
    decreases width - |s|
  {
    if |s| < width {
      DigitsValueZeroPrefix(s);
      PadStartStep(s, width, '0');
      ZeroPaddedDigitsValue(['0'] + s, width);
    }
  }

  /** A lower-case hexadecimal digit, as `Number.prototype.toString(16)` writes them. */
  predicate IsHexDigit(c: char) {
    IsDigit(c) || 'a' <= c <= 'f'
  }

  function HexDigitChar(d: nat): (c: char)
    requires d < 16
    ensures IsHexDigit(c)
  {
    if d < 10 then DigitChar(d) else ('a' as int + d - 10) as char
  }

  function HexDigitValue(c: char): nat
    requires IsHexDigit(c)
  {
    if IsDigit(c) then c as int - '0' as int else c as int - 'a' as int + 10
  }

  /** The value of a string of hexadecimal digits (the reading side of `NatToHex`). */
  function HexValue(s: string): nat
    requires forall i :: 0 <= i < |s| ==> IsHexDigit(s[i])
  {
    if |s| == 0 then 0
    else
      var last := s[|s| - 1];
      assert IsHexDigit(last);
      HexValue(s[..|s| - 1]) * 16 + HexDigitValue(last)
  }

  /** `n.toString(16)` for a non-negative integer: lower-case digits, no leading zeros. */
  function NatToHex(n: nat): (r: string)
    ensures |r| >= 1
    ensures forall i :: 0 <= i < |r| ==> IsHexDigit(r[i])
    ensures |r| > 1 ==> r[0] != '0'
  {
    if n < 16 then [HexDigitChar(n)] else NatToHex(n / 16) + [HexDigitChar(n % 16)]
  }

  /** Reading back the hexadecimal rendering gives the number. */
  lemma {:induction false} NatToHexRoundTrip(n: nat)
    ensures HexValue(NatToHex(n)) == n
  {
    var s := NatToHex(n);
    if n >= 16 {
      assert s[..|s| - 1] == NatToHex(n / 16);
      NatToHexRoundTrip(n / 16);
    } else {
      assert HexDigitValue(HexDigitChar(n)) == n;
    }
  }

  /** Numbers below 16^k need at most k hexadecimal digits. */
  lemma {:induction false} NatToHexLength(n: nat, k: nat)
    requires n < Power16(k)
    ensures |NatToHex(n)| <= k || (k == 0 && |NatToHex(n)| == 1)
  {
    if n >= 16 {
      assert k != 0 && k - 1 != 0;
      NatToHexLength(n / 16, k - 1);
    }
  }

  function Power16(k: nat): nat {
    if k == 0 then 1 else 16 * Power16(k - 1)
  }

  /** `s.padStart(width, c)`: `c` repeated in front until the string is `width` long. */
  function PadStart(s: string, width: nat, c: char): (r: string)
    ensures |s| >= width ==> r == s
    ensures |s| < width ==> |r| == width
    ensures |r| >= |s|
    ensures r[|r| - |s|..] == s
    ensures forall i :: 0 <= i < |r| - |s| ==> r[i] == c
  {
    if |s| >= width then s
    else
      var pad := seq(width - |s|, _ => c);
      assert (pad + s)[|pad|..] == s;
      pad + s
  }

  /** Padding adds one pad character at a time: a string short of the width pads as the
      string with one more pad character in front. */
  lemma PadStartStep(s: string, width: nat, c: char)
    requires |s| < width
    ensures PadStart(s, width, c) == PadStart([c] + s, width, c)
  {
    var pad := seq(width - |s|, _ => c);
    if |s| + 1 < width {
      var shorter := seq(width - |s| - 1, _ => c);
      assert pad == shorter + [c];
      assert pad + s == shorter + ([c] + s);
    } else {
      assert pad == [c];
    }
  }

  /** A leading zero does not change a hexadecimal value. */
  lemma {:induction false} HexValueZeroPrefix(s: string)
    requires forall i :: 0 <= i < |s| ==> IsHexDigit(s[i])
    ensures HexValue(['0'] + s) == HexValue(s)
  {
    var t := ['0'] + s;
    if |s| == 0 {
      assert t[..0] == [];
    } else {
      assert t[..|t| - 1] == ['0'] + s[..|s| - 1];
      HexValueZeroPrefix(s[..|s| - 1]);
    }
  }

  /** Padding hexadecimal digits with zeros on the left keeps their value. */
  lemma {:induction false} ZeroPaddedHexValue(s: string, width: nat)
    requires forall i :: 0 <= i < |s| ==> IsHexDigit(s[i])
    ensures var r := PadStart(s, width, '0');
      (forall i :: 0 <= i < |r| ==> IsHexDigit(r[i])) && HexValue(r) == HexValue(s)
    decreases width - |s|
  {
    if |s| < width {
      HexValueZeroPrefix(s);
      PadStartStep(s, width, '0');
      ZeroPaddedHexValue(['0'] + s, width);
    }
  }

  /** `parts.join(sep)`. */
  function Join(parts: seq<string>, sep: char): string {
    if |parts| == 0 then ""
    else if |parts| == 1 then parts[0]
    else parts[0] + [sep] + Join(parts[1..], sep)
  }

  /** `s.split(sep)`: the pieces between the separators, always at least one. */
  function Split(s: string, sep: char): (r: seq<string>)
    ensures |r| >= 1
  {
    if |s| == 0 then [""]
    else
      var rest := Split(s[1..], sep);
      if s[0] == sep then [""] + rest else [[s[0]] + rest[0]] + rest[1..]
  }

  lemma {:induction false} SplitNoSeparator(s: string, sep: char)
    requires sep !in s
    ensures Split(s, sep) == [s]
  {
    if |s| > 0 {
      assert sep !in s[1..];
      SplitNoSeparator(s[1..], sep);
      assert [s[0]] + s[1..] == s;
    }
  }

  lemma {:induction false} SplitAfterPiece(p: string, sep: char, rest: string)
    requires sep !in p
    ensures Split(p + [sep] + rest, sep) == [p] + Split(rest, sep)
  {
    var s := p + [sep] + rest;
    if |p| == 0 {
      assert s == [sep] + rest;
      assert s[1..] == rest;
    } else {
      assert s[0] == p[0];
      assert s[1..] == p[1..] + [sep] + rest;
      assert sep !in p[1..];
      SplitAfterPiece(p[1..], sep, rest);
      assert [p[0]] + p[1..] == p;
    }
  }

  /** Splitting at the separator undoes joining with it, as long as no piece
      contains the separator itself. */
  lemma {:induction false} SplitJoin(parts: seq<string>, sep: char)
    requires |parts| >= 1
    requires forall i :: 0 <= i < |parts| ==> sep !in parts[i]
    ensures Split(Join(parts, sep), sep) == parts
  {
    if |parts| == 1 {
      SplitNoSeparator(parts[0], sep);
    } else {
      SplitJoin(parts[1..], sep);
      SplitAfterPiece(parts[0], sep, Join(parts[1..], sep));
      assert [parts[0]] + parts[1..] == parts;
    }
  }
}

=== FILE: wrappers.dfy ===
/** Optional values: the model's stand-in for JavaScript's `undefined` / `null`
    and for the absent fields of a `Partial<...>` update. */
module Wrappers {

  datatype Option<+T> = None | Some(value: T) {

    /** The wrapped value, or `default` when there is none. */
    function GetOr(default: T): T {
      match this
      case Some(v) => v
      case None => default
    }
  }
}
